=== FILE: README.md ===
# webgen core model

A Dafny model of three pieces of the static website generator webgen (Ruby):

- **Node identity** (`lib/webgen/node.rb`). `Node.new` derives a node's canonical
  name, language, localized canonical name (LCN), absolute path and absolute
  LCN (ALCN) from its parent chain. Fragments nested in fragments are
  flattened onto the nearest non-fragment ancestor, and a path with a URL
  scheme is kept verbatim. The node registers itself under its ALCN and
  raises on a collision. The model also covers `node_info`, `changed?` and
  the directory / fragment / file tests.
- **The tree** (`lib/webgen/tree.rb`). `Tree.new` creates the dummy root, and
  `root` returns its first child. `delete_node` deletes a node after
  recursively deleting its children. It announces each node with
  `before_node_deleted` and then unlinks it from its parent's children,
  `node_access` and `node_info`.
- **The gallery file handler** (`lib/webgen/plugins/filehandler/gallery.rb`).
  It works from the parsed `.gallery` data and the image file names:
  - it sorts the images with the handler's comparator;
  - it splits them into gallery pages of `imagesPerPage` images;
  - it builds the meta information of the main page, the gallery pages and
    one page per image;
  - it creates the page nodes in a fixed order, dropping the main page when
    there is exactly one gallery page.

The tree is an immutable record (`TreeState.Tree`):
- a heap of node records indexed by identity;
- a children array per node;
- the `node_access` and `node_info` maps;
- the dummy root's identity;
- the identity the next node receives.

Node construction (`Nodes.Construct`) returns a new tree or an error. Ruby
values found in YAML data and meta information are the datatype
`RubyValues.Value`, and a Ruby hash is a `map<string, Value>`. The
statements `h[k] ||= v` and `h[k] = v` are modelled with Ruby truthiness;
`RubyValues.Run` applies a sequence of them.

A deletion is modelled as the set of nodes it unlinks plus the trace of its
steps:
- `BeforeNodeDeleted(n)` stands for the `before_node_deleted` message;
- `Unlinked(n)` stands for the three removals of tree.rb:37-39.

The tree a deletion leaves is `Trees.View` of that set. `TreeDeletion.ReplayView`
and `TreeDeletion.AsWrittenTree` prove that this view is exactly what
carrying out the trace's `Array#delete` / `Hash#delete` steps one after the
other produces.

Where the code and the documented design differ, the model follows the code:
- The dummy root has the empty ALCN. The first real node under it, the
  root directory, gets `"/" + lcn`, because the dummy root's path `dummy/`
  is a directory (`Nodes.RootAlcn`).
- A node whose logical parent is the tree gets the absolute path `''`, not
  its own path.
- A path such as `#top/` is both a directory and a fragment
  (`Paths.DirectoryFragmentOverlap`).
- `^` in `ABSOLUTE_URL` is Ruby's start-of-line anchor. A path with a
  newline can therefore match after the newline (`Paths.AbsoluteUrlExamples`).
- The constructor's documentation (node.rb:51-53) says a `nil` parent makes
  the node a root. In the code, the loop of node.rb:115 then calls `parent`
  on `nil` and raises. `ParentRef` therefore has no `nil` case: a node's
  parent is the tree or another node.

## Model

| member | source | states |
|---|---|---|
| RubyValues.Or | lib/webgen/plugins/filehandler/gallery.rb:57-60 | `a \|\| b` is `a` when `a` is truthy (neither `nil` nor `false`) and `b` otherwise |
| RubyValues.OrAssign | lib/webgen/node.rb:83 | `h[k] \|\|= v` leaves `k` with the old value if that is truthy and `v` otherwise, adds only `k`, and keeps every other entry |
| RubyValues.RunEffect | lib/webgen/plugins/filehandler/gallery.rb:156-164 | a run of `\|\|=` / `=` statements on distinct keys adds exactly its keys; each key ends up with what its own statement leaves on the starting hash; all other keys are unchanged |
| RubyValues.Update | lib/webgen/plugins/filehandler/gallery.rb:119 | `h.update(other)`: the keys of both, with `other`'s values winning and `h`'s kept elsewhere |
| RubyValues.HashOrEmpty | lib/webgen/plugins/filehandler/gallery.rb:154 | `(v \|\| {})` is the hash `v` itself, or the empty hash when `v` is falsy |
| RubyStrings.ChompSlash | lib/webgen/node.rb:73 | `chomp('/')` removes exactly one trailing slash when there is one and otherwise changes nothing |
| RubyStrings.SpacesAndDotsSpec | lib/webgen/plugins/filehandler/gallery.rb:148 | `tr(' .', '_')` keeps the length, turns every space and dot into `_` and keeps every other character |
| RubyStrings.NatToDecimal | lib/webgen/plugins/filehandler/gallery.rb:144 | `Integer#to_s` of a natural number is a non-empty string of digits without a leading zero, except for `"0"` itself |
| RubyStrings.DecimalRoundTrip | lib/webgen/plugins/filehandler/gallery.rb:144 | reading the decimal spelling back as a number gives the number |
| RubyStrings.DecimalInjective | lib/webgen/plugins/filehandler/gallery.rb:144 | different page numbers have different spellings, so gallery titles of different pages differ |
| RubyStrings.IntToDecimal | lib/webgen/plugins/filehandler/gallery.rb:144 | a negative integer is spelled with a minus sign before the digits of its magnitude |
| RubyStrings.BasenameNoSlash | lib/webgen/plugins/filehandler/gallery.rb:157 | `File.basename` contains no slash, except for the result `"/"` of a path made only of slashes |
| RubyStrings.BasenameSuffix | lib/webgen/plugins/filehandler/gallery.rb:157 | the basename is the last component of the path once trailing slashes are stripped, preceded there by a slash unless it is the whole path |
| RubyStrings.BasenameSimple | lib/webgen/plugins/filehandler/gallery.rb:157 | the basename of `""` is `""`, of a slash-free path is the path, and of a path of slashes only is `"/"` |
| RubyStrings.StrLeTotal | lib/webgen/plugins/filehandler/gallery.rb:61 | `String#<=>` orders any two strings |
| RubyStrings.StrLeAntisymmetric | lib/webgen/plugins/filehandler/gallery.rb:61 | two strings that each compare `<=` the other are equal |
| RubyStrings.StrLeTransitive | lib/webgen/plugins/filehandler/gallery.rb:61 | `String#<=>` is transitive |
| Paths.ClassificationCovers | lib/webgen/node.rb:87-93 | every path is a file, a directory or a fragment; a file is neither of the others; the empty path is a file |
| Paths.DirectoryFragmentOverlap | lib/webgen/node.rb:87-93 | the directory and fragment tests are independent: `#top/` is both and is not a file |
| Paths.MatchesFromSound | lib/webgen/node.rb:109 | when the matcher succeeds, the text has a line start followed by a word character, scheme characters and a colon |
| Paths.MatchesFromComplete | lib/webgen/node.rb:109 | every occurrence of that shape makes the matcher succeed |
| Paths.AbsoluteUrlMeaning | lib/webgen/node.rb:109 | a path matches `ABSOLUTE_URL` exactly when some line of it starts with `\w[a-zA-Z0-9+.-]*:` |
| Paths.SingleLineAbsoluteUrl | lib/webgen/node.rb:109 | for a path without newlines, the pattern must match at the very start |
| Paths.FragmentIsNotAbsoluteUrl | lib/webgen/node.rb:121 | a one-line fragment path never keeps its path verbatim as an absolute URL |
| Paths.AbsoluteUrlExamples | lib/webgen/node.rb:109 | `http://myhost.com/` and `a\nb:` match; `dir/` and `#fragment` do not |
| TreeState.Without | lib/webgen/tree.rb:37 | repeated `Array#delete` keeps only elements of the array, and an array without repetitions stays without them |
| TreeState.WithoutMember | lib/webgen/tree.rb:37 | an element survives the deletions exactly when it was present and was not deleted |
| TreeState.WithoutWithout | lib/webgen/tree.rb:37 | deleting in two rounds is the same as deleting the union at once |
| TreeState.ShrinkKeepsValid | lib/webgen/tree.rb:37-39 | removing children and unregistering ALCNs other than the empty one keeps the tree invariant established at tree.rb:18-22 |
| Nodes.NearestNonFragment | lib/webgen/node.rb:119 | the loop stops at a node that is not a fragment, or fails when a chain of fragments reaches the tree |
| Nodes.NearestNonFragmentDepth | lib/webgen/node.rb:119 | the node where the loop stops is the first non-fragment on the parent chain: it lies `k` steps up and every step before it is a fragment |
| Nodes.LogicalParent | lib/webgen/node.rb:117-119 | the logical parent of a non-fragment is its parent; that of a fragment is a non-fragment node |
| Nodes.FragmentFlattening | lib/webgen/node.rb:117-119 | a fragment placed under a chain of fragments has the same logical parent as one placed directly under the top of the chain |
| Nodes.Identify | lib/webgen/node.rb:70-127 | `cn` is the given name (default: the path) less one trailing slash; `lang` is `meta_info['lang']` and that key leaves `meta_info`; the node starts dirty and created; the absolute path is the path itself for a URL, `''` under the tree, and otherwise the logical parent's plus the path; the ALCN is `''` under the tree and otherwise the logical parent's, plus `/` only for a directory parent, plus the LCN |
| Nodes.Register | lib/webgen/node.rb:129-135 | registration fails exactly when the ALCN is taken; on success the node gets a fresh identity, is registered under its ALCN, is appended to its real parent's children unless that parent is the tree, and nothing else changes |
| Nodes.AddChild | lib/webgen/node.rb:135 | the new node starts without children and is appended to its parent's array, and every other node's array is unchanged |
| Nodes.Construct | lib/webgen/node.rb:70-135 | construction fails for a fragment without a non-fragment ancestor or for a taken ALCN; otherwise it is identification followed by registration, and the tree stays well formed |
| Nodes.ConstructKeepsValid | lib/webgen/node.rb:129-135 | construction keeps the tree invariant: the dummy root stays the only node under the tree and the only holder of the empty ALCN, and no dirty flag is lost |
| Nodes.ConstructUnderTreeFails | lib/webgen/node.rb:127-130 | once the dummy root exists, no node can be constructed with the tree as its parent |
| Nodes.RegisterKeepsValid | lib/webgen/node.rb:129-135 | registering under a real node keeps the tree invariant |
| Nodes.ConstructKeepsAlcnsUnique | lib/webgen/node.rb:129-133 | the new node's ALCN differs from every ALCN registered before, and no node is registered under two ALCNs |
| Nodes.RootAlcn | lib/webgen/node.rb:127 | the first node under the dummy root, fragment or not, gets the ALCN `"/" + lcn` |
| Nodes.NestedFragmentIdentity | lib/webgen/node.rb:117-127 | `#b` under `#a` under a file F gets the same absolute path and ALCN as `#b` directly under F |
| Nodes.NodeInfo | lib/webgen/node.rb:82-84 | `node_info` returns a truthy entry under the node's ALCN and then changes nothing; otherwise it stores and returns an empty hash; other entries are untouched |
| Nodes.NodeInfoIdempotent | lib/webgen/node.rb:82-84 | a second `node_info` call returns the same entry and changes nothing |
| Nodes.Changed | lib/webgen/node.rb:96-99 | a dirty node answers true and nothing changes; otherwise the answer is whether an observer marked the node dirty; the flag never goes from true to false; with the observers reduced to that one verdict, only this node's flag changes (see Left out) |
| Nodes.ChangedIgnoresObserversWhenDirty | lib/webgen/node.rb:97 | a dirty node's answer does not depend on the observers |
| Trees.NewTree | lib/webgen/tree.rb:18-22 | a new tree is valid, with an empty `node_info` and only the dummy root `dummy/`, which has no children and is registered under `''` |
| Trees.Root | lib/webgen/tree.rb:25-27 | `root` is `nil` exactly when the dummy root has no children, and otherwise its first child, whose parent is the dummy root |
| Trees.RootAfterFirstNode | lib/webgen/tree.rb:25-27 | a new tree has no root, and the first node constructed under the dummy root becomes the root |
| Trees.Unlink | lib/webgen/tree.rb:37-39 | unlinking removes the node from every children array and its ALCN from `node_access` and `node_info` |
| Trees.UnlinkView | lib/webgen/tree.rb:37-39 | unlinking one more node from a view with some nodes unlinked gives the view with that node unlinked too |
| TreeDeletion.ViewContents | lib/webgen/tree.rb:37-39 | with a set of nodes unlinked, each children array keeps exactly the children not in the set; no unlinked node's ALCN is registered; every remaining registration is unchanged |
| TreeDeletion.ViewValid | lib/webgen/tree.rb:37-39 | unlinking nodes other than the dummy root keeps the tree invariant and changes only children arrays and the two ALCN maps |
| TreeDeletion.ReplayView | lib/webgen/tree.rb:36-39 | carrying out a trace's steps one after the other gives the view with the trace's nodes unlinked |
| DeletionFacts.AsWrittenGone | lib/webgen/tree.rb:30-40 | the loop as written unlinks what its trace unlinks: nothing when the guard holds, and otherwise the node among others |
| DeletionFacts.AsWrittenSound | lib/webgen/tree.rb:32-34 | the loop as written unlinks only the node and live non-directory children of unlinked nodes |
| DeletionFacts.AsWrittenOrdered | lib/webgen/tree.rb:34-37 | in the loop as written, each unlink directly follows its announcement, no node is unlinked twice, and children go before their parent |
| DeletionFacts.DeleteNodeGone | lib/webgen/tree.rb:30-40 | the snapshot loop unlinks what its trace unlinks: nothing when the guard holds, and otherwise the node among others |
| DeletionFacts.DeleteNodeSound | lib/webgen/tree.rb:32-34 | the snapshot loop unlinks only the node and live non-directory children of unlinked nodes |
| DeletionFacts.DeleteNodeCloses | lib/webgen/tree.rb:34 | the snapshot loop is complete: every live non-directory child of an unlinked node is unlinked too |
| DeletionFacts.DeleteNodeOrdered | lib/webgen/tree.rb:34-37 | in the snapshot loop, each unlink directly follows its announcement, no node is unlinked twice, and children go before their parent |
| TreeDeletion.AsWrittenEffect | lib/webgen/tree.rb:30-40 | `delete_node` as written: a no-op exactly under the guard of line 32, otherwise the node is unlinked; directories below it are never unlinked; the dummy root is never unlinked; the steps are ordered as above |
| TreeDeletion.AsWrittenTree | lib/webgen/tree.rb:30-40 | the tree left by `delete_node` as written is the result of its steps, only loses children and registrations, and is valid |
| TreeDeletion.DeleteNodeEffect | lib/webgen/tree.rb:30-40 | with the children visited over a snapshot: all of `AsWrittenEffect`, and every live non-directory child of an unlinked node is unlinked |
| TreeDeletion.DeleteNodeTreeFacts | lib/webgen/tree.rb:30-40 | the tree left by the snapshot loop is the result of its steps, only loses children and registrations, and is valid |
| TreeDeletion.TwoFileDummyBuilt | lib/webgen/tree.rb:18-22 | the example's dummy root record (`cn` `dummy`, ALCN `''`) is exactly the one `Tree.new` makes, when a node's lcn is its cn |
| TreeDeletion.TwoFileFollowsNodeNew | lib/webgen/node.rb:121-127 | each other node of the example is the record `Node.new` makes under its parent: `cn` is the path chomped of its trailing slash as line 73 does (so the root `/` has `cn` `''`), the absolute path extends the parent's, and the ALCN is the parent's, then `/` after a directory, then the lcn, which makes the files `//a` and `//b` |
| TreeDeletion.AsWrittenSkipsSibling | lib/webgen/tree.rb:34 | deleting directory `/` with files `a` and `b` as written unlinks `/` and `a` but not `b` |
| TreeDeletion.AsWrittenLeavesSibling | lib/webgen/tree.rb:34 | after that deletion, `b` is still a child of the deleted `/`, so the result is not closed under file children |
| TreeDeletion.AsWrittenKeepsSiblingAlcn | lib/webgen/tree.rb:34-38 | after that deletion, `b`'s ALCN `//b` is still registered in `node_access` |
| TreeDeletion.SnapshotDeletesBoth | lib/webgen/tree.rb:34 | the snapshot loop unlinks `/`, `a` and `b` |
| Gallery.GetParam | lib/webgen/plugins/filehandler/gallery.rb:79-81 | a parameter comes from the gallery file when the file has the key, and from the inherited lookup otherwise |
| Gallery.GetParamDefaults | lib/webgen/plugins/filehandler/gallery.rb:33-43 | without an entry in the gallery file or the site configuration, each declared parameter has its declared default |
| Gallery.GalleryFileNameSpec | lib/webgen/plugins/filehandler/gallery.rb:147-149 | the file name is `nil` exactly for a `nil` title; otherwise it has the title's length plus 5, ends in `.html`, and its prefix is the title with no space or dot left |
| Gallery.GalleryTitle | lib/webgen/plugins/filehandler/gallery.rb:143-145 | the title is `nil` exactly for a `nil` index; otherwise it is the `title` parameter, a space and the index in decimal |
| Gallery.OrderInfoOf | lib/webgen/plugins/filehandler/gallery.rb:57-58 | an image's order info is its entry's truthy `orderInfo`, and 0 without an entry or without a truthy value |
| Gallery.SortTitleOf | lib/webgen/plugins/filehandler/gallery.rb:59-60 | an image's sort title is its entry's truthy `title`, and the file name without an entry or without a truthy value |
| Gallery.SortsBeforeTotal | lib/webgen/plugins/filehandler/gallery.rb:56-62 | the comparator orders any two images |
| Gallery.SortsBeforeTransitive | lib/webgen/plugins/filehandler/gallery.rb:56-62 | the comparator is transitive |
| Gallery.SortImages | lib/webgen/plugins/filehandler/gallery.rb:56-62 | the sorted images are a permutation of the images, ordered by order info and then by title |
| Gallery.GetThumbnail | lib/webgen/plugins/filehandler/gallery.rb:171-173 | the default thumbnail is the page's `imageFilename` (`nil` when it has none) |
| Gallery.ThumbnailIsImage | lib/webgen/plugins/filehandler/gallery.rb:161-164 | when line 164 calls the default `get_thumbnail`, it returns the image file assigned at line 161 |
| Gallery.ImageRunKeys | lib/webgen/plugins/filehandler/gallery.rb:156-164 | the image page statements set the nine page keys; only `imageFilename` and `srcName` are forced with `=` |
| Gallery.ImagePageKeys | lib/webgen/plugins/filehandler/gallery.rb:154-164 | an image page has the keys of its gallery file entry plus the nine page keys, and every other entry key keeps its value |
| Gallery.ImagePageFile | lib/webgen/plugins/filehandler/gallery.rb:161 | an image page records its image file, whatever the entry says |
| Gallery.ImagePageName | lib/webgen/plugins/filehandler/gallery.rb:162 | an image page's file name is made from the gallery title, a space and the image's basename, whatever the entry says |
| Gallery.ImagePageEntryWins | lib/webgen/plugins/filehandler/gallery.rb:156-164 | a truthy entry value for any key other than `imageFilename` and `srcName` is kept |
| Gallery.ImagePageDefaults | lib/webgen/plugins/filehandler/gallery.rb:156-164 | a `\|\|=` key left falsy or missing by the entry gets its default: the content block, `Image <basename>`, `''`, `imagePageInMenu`, `imagePageTemplate`, the file's `thumbnailSize` and the image file as thumbnail |
| Gallery.CreateImagePages | lib/webgen/plugins/filehandler/gallery.rb:151-169 | `create_image_pages` returns one page per image, in the images' order |
| Gallery.ImagePagesShow | lib/webgen/plugins/filehandler/gallery.rb:151-169 | the image pages of a list of images record exactly those images, in order |
| Gallery.GalleryRunKeys | lib/webgen/plugins/filehandler/gallery.rb:129-135 | the gallery page statements set the seven page keys; `blocks`, `template` and `inMenu` use `\|\|=` and the rest are forced |
| Gallery.GalleryMetaKeys | lib/webgen/plugins/filehandler/gallery.rb:127-136 | a gallery page has the keys of `galleryPages` plus the page keys, with `imageList` held apart |
| Gallery.GalleryMetaCopies | lib/webgen/plugins/filehandler/gallery.rb:127 | every other key of `galleryPages` is copied unchanged to every gallery page |
| Gallery.GalleryMetaDefaults | lib/webgen/plugins/filehandler/gallery.rb:129-131 | `blocks`, `template` and `inMenu` come from a truthy `galleryPages` value and otherwise from the defaults |
| Gallery.GalleryMetaNumber | lib/webgen/plugins/filehandler/gallery.rb:132-133 | page `number` records that number and the order info `galleryOrderInfo + number`, whatever `galleryPages` says |
| Gallery.GalleryMetaTitle | lib/webgen/plugins/filehandler/gallery.rb:134-135 | page `number` gets the numbered gallery title and the file name made from it |
| Gallery.MakeGalleryPage | lib/webgen/plugins/filehandler/gallery.rb:127-136 | the loop body for the page starting at image `i` builds page `i / p`: its meta information and the pages of images `i` to `i + p - 1`, as far as they exist |
| Gallery.CreateGalleryPages | lib/webgen/plugins/filehandler/gallery.rb:123-141 | `create_gallery_pages` makes `ceil(n / p)` pages; page `k` is number `k + 1` and holds the pages of images `k * p` to `k * p + p - 1` |
| Gallery.LastPageReachesEnd | lib/webgen/plugins/filehandler/gallery.rb:126 | `ceil(n / p)` pages of `p` reach the last image, and the last page starts before it |
| Gallery.GalleryPageShows | lib/webgen/plugins/filehandler/gallery.rb:136 | a gallery page shows, in order, the images from its first index on, `p` of them or as many as remain |
| Gallery.Pagination | lib/webgen/plugins/filehandler/gallery.rb:123-141 | there are no pages exactly when there are no images; each page holds between 1 and `p` images and all but the last exactly `p`; together the pages show every image once, in order |
| Gallery.PaginationShape | lib/webgen/plugins/filehandler/gallery.rb:126 | the same partition facts for any pages that show their slices |
| GalleryNodes.MainRunKeys | lib/webgen/plugins/filehandler/gallery.rb:113-118 | the main page statements set `title`, `inMenu`, `template`, `srcName` and `blocks` |
| GalleryNodes.MainPageKeys | lib/webgen/plugins/filehandler/gallery.rb:112-121 | the main page has those keys plus the `mainPage` keys, and every `mainPage` setting wins |
| GalleryNodes.MainPageNames | lib/webgen/plugins/filehandler/gallery.rb:114-117 | unless `mainPage` sets them, the main page's title is the `title` parameter and its file name is made from that title |
| GalleryNodes.MainPageSettings | lib/webgen/plugins/filehandler/gallery.rb:115-118 | unless `mainPage` sets them, the main page takes `mainPageInMenu`, `mainPageTemplate` and the content block |
| GalleryNodes.ImageNodesShow | lib/webgen/plugins/filehandler/gallery.rb:105-108 | the nodes of a gallery's image pages show its images, in order, and none is a gallery page |
| GalleryNodes.PageNodesCount | lib/webgen/plugins/filehandler/gallery.rb:102-109 | the loop creates one node per gallery page and one per image |
| GalleryNodes.PageNodesImages | lib/webgen/plugins/filehandler/gallery.rb:102-109 | the image nodes show the images of all gallery pages, page after page |
| GalleryNodes.PageNodesGalleries | lib/webgen/plugins/filehandler/gallery.rb:102-104 | the gallery nodes are the gallery pages, in order, at consecutive gallery indices |
| GalleryNodes.PageNodesNoMain | lib/webgen/plugins/filehandler/gallery.rb:102-109 | the loop creates no main page node |
| GalleryNodes.CreateGalleryMainNode | lib/webgen/plugins/filehandler/gallery.rb:92-94 | a main page node exists exactly when the number of gallery pages is not 1; it comes first, under the main page's `srcName` |
| GalleryNodes.CreateGalleryCount | lib/webgen/plugins/filehandler/gallery.rb:88-110 | there is one node per gallery page and per image, plus the main page unless there is exactly one gallery page; with one page and a `mainPage` that sets `imageList`, there is one node for the page and one per entry of that list |
| GalleryNodes.CreateGalleryImages | lib/webgen/plugins/filehandler/gallery.rb:88-110 | the image nodes show the images of all gallery pages, in order; with one page and a `mainPage` that sets `imageList`, they show that list's images instead, since `update` at line 98 replaces the page's list |
| GalleryNodes.CreateGalleryPagesKept | lib/webgen/plugins/filehandler/gallery.rb:92-104 | with a number of gallery pages other than 1, the main hash is the main page and every gallery page gets its node, unchanged and in order |
| GalleryNodes.CreateGallerySingle | lib/webgen/plugins/filehandler/gallery.rb:95-100 | with exactly one gallery page, the main page is marked `pageNotUsed`, and that page's node comes first with the main page's title and `inMenu` |
| GalleryNodes.CreateGallerySingleMeta | lib/webgen/plugins/filehandler/gallery.rb:96-98 | the node of that single page carries every `mainPage` setting and otherwise the page's own meta information |
| GalleryNodes.GalleryOfImages | lib/webgen/plugins/filehandler/gallery.rb:88-141 | for the pages built from the images, the image nodes show the images in order, and the count is one node per image and per page, plus the main page when the page count is not 1; when the images fill one page and `mainPage` sets `imageList`, the nodes are that page and that list's images; the first node is the main page exactly when the page count is not 1 |
| GalleryNodes.CreateNode | lib/webgen/plugins/filehandler/gallery.rb:47-68 | `create_node`: the sorted images are a permutation in comparator order, the image nodes show them in that order, the node count follows from `ceil(n / p)`, and a main page node comes first exactly when `ceil(n / p)` is not 1 (so also for zero images); when the images fill one page and `mainPage` sets `imageList`, the image nodes show that list instead |

## Left out

- `Path.lcn` (node.rb:112) is defined in a file that is not part of this model. Every constructor call receives it as the function parameter `lcnOf`.
- The tree reference of `init_rest` (node.rb:114-115) is not modelled as a field. All nodes share the one tree record.
- Blackboard messaging (node.rb:97, tree.rb:36) is not modelled as a mechanism. `changed?` takes the observers' verdict as the parameter `observerMarksDirty`, and `before_node_deleted` is the `BeforeNodeDeleted` step of the deletion trace.
- `Node#method_missing` and `inspect` (node.rb:102-104, 140-146) are left out. They delegate to processor objects from a cache, or only format text.
- `delete_node` with an ALCN string (tree.rb:31) is left out. That branch indexes `node_access` with the undefined name `alcn` and raises, so only node arguments are modelled.
- Trees.DeleteNodeAsWritten: the loop over `n.children` is modelled as an index into the live array, which is what Ruby's `Array#each` does while the array shrinks.
- The gallery's I/O is left out: `YAML::load` of the file, `File.dirname`, the `Dir` glob with its path rewriting (gallery.rb:48-55), and logging. The parsed data and the image names are inputs.
- The layouter is left out: `call_layouter` and `to_yaml` (gallery.rb:83-86), and the content the page handler makes of the laid-out text (gallery.rb:93, 103, 106). A created node is its kind, its `srcName` and the meta information it is laid out from.
- The RMagick thumbnail writer (gallery.rb:177 on) is left out; it calls an image library. Only the default `get_thumbnail` is modelled.
- The site configuration behind the inherited `get_param` is a map of parameter values (`Handler.params`).
- Gallery.SortImages is a stable insertion sort. Ruby's `sort!` is not stable, so for images the comparator ties, the model fixes one of the orders Ruby may produce. The contract states only permutation and order, which holds for every such order.
- Ruby hashes keep insertion order; the model's maps do not.
- Ruby hashes are shared objects; the model's maps are values. The model therefore does not show these effects:
  - `meta_info.delete('lang')` at node.rb:74 removes `lang` from the caller's hash, even when `init_rest` then raises at line 119 or 130.
  - node.rb:75 keeps that same hash object as `@meta_info`, so later changes by either side are seen by both.
  - `node_info` (node.rb:83) returns the stored hash itself, and callers keep per-node data by changing it in place.
  - Nodes.Identify and Nodes.NodeInfo return copies instead: Nodes.Identify leaves the caller's `metaInfo` unchanged, and a change to the value Nodes.NodeInfo returns does not reach `nodeInfo`.
- Gallery.GalleryMeta holds `imageList` in a separate field of `Page` rather than in the hash.
- GalleryNodes.CreateGallery does not store the gallery pages under `main['galleries']` (gallery.rb:90). It returns them as the node list's meta information instead.
- Gallery.GalleryRun uses the values the preceding statements assigned where lines 133-135 read back `data['number']` and `data['title']`.
- Gallery.ImageRun uses, for the thumbnail, the value that `Gallery.ThumbnailIsImage` proves the default `get_thumbnail` returns at line 164.
- A subclass overriding `get_thumbnail` (the RMagick variant) is not modelled.
- Gallery.PagesOk: excludes some gallery parameters from the model. Ruby does not reject all of them:
  - `imagesPerPage` of 0 makes `0.step` raise (gallery.rb:126).
  - A negative `imagesPerPage` makes `0.step` count down from 0 to `images.length - 1`. Two or more images then get no gallery page, and one image gets one page. The model has no negative steps.
  - A Float `imagesPerPage` such as `2.0` paginates normally (gallery.rb:126-136). Page numbers are then Floats, and titles end in `1.0`. The model's `Value` has no floats.
  - A Float `galleryOrderInfo` such as `50.5` works at gallery.rb:133. A string or `nil` there raises. The model admits only integers.
  - `galleryPages` must be a hash or falsy. Other values are `dup`ed and indexed with string keys at gallery.rb:127-136, which the model does not cover.
- Gallery.ImagePagesOk: requires a string `title` when there are images. Any other title raises at gallery.rb:144 and 162: `nil`, `true` and `false` have no `+`, and a number, array or hash cannot take a string. It also requires every image entry to be a hash or falsy. Other entries are `dup`ed and indexed with string keys at gallery.rb:154-164, which the model does not cover.
- GalleryNodes.MainOk: requires the `title` to be a string or `nil`, and `mainPage` to be a hash or falsy. Any other title raises in `tr` at gallery.rb:148. A `mainPage` of another kind cannot be merged by `update` at gallery.rb:119. It also requires an `imageList` set in `mainPage` to be a list of hashes. With one gallery page, gallery.rb:105-106 walks that value and reads `srcName` from each element. Any other value either raises there or yields elements that are not hashes, and the model does not cover those.
- Gallery.ImageEntryOk: admits only integer (or falsy) `orderInfo` values. Ruby's comparator also sorts a YAML Float such as `1.5` against integers and `0` (gallery.rb:57-61), and it sorts a gallery whose `orderInfo` values are all strings. The model's `Value` has no floats and the model does not cover string `orderInfo`, so such gallery files are outside the model, not only the ones Ruby cannot sort. It also rejects a truthy `title` that is not a string, such as YAML `title: 2007`. Ruby accepts such an entry whenever the comparator never compares that title with a string. This happens when the `orderInfo` values differ, when all tied titles are integers, or when there is a single image and `sort!` never calls the block. Ruby then keeps the number as the image page's title at gallery.rb:157. Gallery.SortImages and GalleryNodes.CreateNode require every entry to pass this predicate, so such gallery files are outside their contracts too.
- Gallery.SortImages: its requires `AllEntriesOk` excludes the entries that Gallery.ImageEntryOk rejects, as described on the line above.
- Nodes.Changed: the listeners of `node_changed?` (node.rb:97) are reduced to one verdict about this node, `observerMarksDirty`. A listener may also change other nodes' `dirty` flags, so the frame "only this node's flag can change" holds for the model, not for every listener.

## Findings

| source | as written | input that shows it | evidently intended | confidence | as-written member | corrected member |
|---|---|---|---|---|---|---|
| lib/webgen/tree.rb:34 | `n.children.each {\|child\| delete_node(child)}` iterates the array that each recursive call shrinks at line 37, so the child after each deleted child is skipped | directory `/` with the two files `a` and `b`, `delete_node(/, true)`: `a` and `/` are unlinked, `b` stays a child of `/` and stays registered under its ALCN `//b` | every non-directory child of a deleted node is deleted too (iterate over a copy of the children) | not executed | TreeDeletion.AsWrittenSkipsSibling | TreeDeletion.SnapshotDeletesBoth |

The as-written loop is `Trees.DeleteNodeAsWritten`. `TreeDeletion.AsWrittenLeavesSibling` and `TreeDeletion.AsWrittenKeepsSiblingAlcn` show what it leaves behind. The corrected loop is `Trees.DeleteNode`, which iterates over a snapshot. `TreeDeletion.DeleteNodeEffect` proves it complete for every tree.

=== FILE: deletion.dfy ===
/**
 * What `delete_node` (tree.rb:30-40) does to a valid tree, for the children
 * loop as written and for the corrected one that iterates over a snapshot:
 * the nodes it unlinks, the order of its steps, the tree it leaves, and an
 * input on which the loop as written leaves a child registered.
 */
module TreeDeletion {
  import opened Wrappers
  import opened RubyValues
  import opened RubyStrings
  import opened Paths
  import opened TreeState
  import opened Nodes
  import opened Trees
  import opened DeletionFacts

  /**
   * What the view `s` with the nodes `gone` unlinked holds: each children
   * array keeps exactly the children not in `gone`, no ALCN of a node in
   * `gone` is registered, and every ALCN still registered is registered as
   * before to a node not in `gone`.
   */
  lemma ViewContents(t: ValidTree, gone: set<NodeId>, s: Live)
    requires s == View(t, gone)
    ensures forall y, c :: y in t.children ==> (c in s.children[y] <==> c in t.children[y] && c !in gone)
    ensures forall x :: x in gone && x in t.nodes ==> t.nodes[x].alcn !in s.nodeAccess && t.nodes[x].alcn !in s.nodeInfo
    ensures forall k :: k in s.nodeAccess ==> k in t.nodeAccess && s.nodeAccess[k] == t.nodeAccess[k] && t.nodeAccess[k] !in gone
  {
    forall y, c | y in t.children
      ensures c in s.children[y] <==> c in t.children[y] && c !in gone
    {
      WithoutMember(t.children[y], gone, c);
    }
  }

  /** An ALCN that none of the unlinked nodes carries stays registered. */
  lemma ViewKeepsAlcn(t: ValidTree, gone: set<NodeId>, k: string)
    requires k in t.nodeAccess
    requires forall x :: x in gone && x in t.nodes ==> t.nodes[x].alcn != k
    ensures k in View(t, gone).nodeAccess
  {
    NotAmongAlcns(t, gone, k);
  }

  /**
   * Unlinking nodes other than the dummy root keeps the tree invariant and
   * changes nothing but children arrays and the two ALCN maps.
   */
  lemma ViewValid(t: ValidTree, gone: set<NodeId>)
    requires t.dummyRoot !in gone
    ensures OnlyChildrenShrink(t, Apply(t, View(t, gone)))
    ensures Valid(Apply(t, View(t, gone)))
  {
    var u := Apply(t, View(t, gone));
    assert "" !in AlcnsOf(t, gone);
    ShrinkKeepsValid(t, u);
  }

  /** The nodes unlinked once the step `e` is taken after the nodes `g`. */
  function After(g: set<NodeId>, e: Event): set<NodeId> {
    if e.Unlinked? then g + {e.id} else g
  }

  /** One step carried out on a view gives the view after that step. */
  lemma StepView(t: ValidTree, g: set<NodeId>, e: Event)
    requires e.Unlinked? ==> e.id in t.nodes && e.id != t.dummyRoot
    ensures Step(t, View(t, g), e) == View(t, After(g, e))
  {
    if e.Unlinked? {
      UnlinkView(t, g, e.id);
    }
  }

  /** The first step of a non-empty trace, and the nodes unlinked after it. */
  lemma FirstStep(t: ValidTree, g: set<NodeId>, s: Live, trace: seq<Event>)
    requires s == View(t, g) && UnlinksRealNodes(t, trace) && trace != []
    ensures UnlinksRealNodes(t, trace[1..])
    ensures Replay(t, s, trace) == Replay(t, Step(t, s, trace[0]), trace[1..])
    ensures Step(t, s, trace[0]) == View(t, After(g, trace[0]))
    ensures After(g, trace[0]) + DeletedIds(trace[1..]) == g + DeletedIds(trace)
  {
    assert forall i :: 0 <= i < |trace| - 1 ==> trace[1..][i] == trace[i + 1];
    StepView(t, g, trace[0]);
  }

  /**
   * Carrying out the steps of a trace on a view, one `Array#delete` and two
   * `Hash#delete` per `Unlinked` step, gives the view with the trace's nodes
   * unlinked as well.
   */
  lemma {:induction false} ReplayView(t: ValidTree, g: set<NodeId>, s: Live, trace: seq<Event>)
    requires s == View(t, g) && UnlinksRealNodes(t, trace)
    ensures Replay(t, s, trace) == View(t, g + DeletedIds(trace))
    decreases |trace|
  {
    if trace == [] {
      NothingDeleted(g);
    } else {
      FirstStep(t, g, s, trace);
      ReplayView(t, After(g, trace[0]), Step(t, s, trace[0]), trace[1..]);
    }
  }

  /** A deletion started from the whole tree unlinks only real nodes, never the dummy root. */
  lemma SoundUnlinksReal(t: ValidTree, n: NodeId, deleteDir: bool, trace: seq<Event>)
    requires n in t.nodes && NodeSound(t, {}, n, deleteDir, DeletedIds(trace))
    ensures t.dummyRoot !in DeletedIds(trace)
    ensures UnlinksRealNodes(t, trace)
  {
    forall i | 0 <= i < |trace| && trace[i].Unlinked?
      ensures trace[i].id in t.nodes && trace[i].id != t.dummyRoot
    {
      DeletedIdsHas(trace, i);
    }
  }

  /**
   * `delete_node(n, delete_dir)` as written: it unlinks exactly the nodes its
   * trace unlinks, nothing when the guard of tree.rb:32 holds and `n`
   * otherwise, only `n` and live non-directory children of unlinked nodes,
   * never the dummy root; every unlink is announced by `before_node_deleted`
   * right before it, no node is unlinked twice, and children go before
   * their parent.
   */
  lemma AsWrittenEffect(t: ValidTree, n: NodeId, deleteDir: bool)
    requires n in t.nodes
    ensures DeleteNodeAsWritten(t, {}, n, deleteDir).unlinked == DeletedIds(DeleteNodeAsWritten(t, {}, n, deleteDir).trace)
    ensures Skipped(t, n, deleteDir) <==> DeleteNodeAsWritten(t, {}, n, deleteDir).unlinked == {}
    ensures n in DeleteNodeAsWritten(t, {}, n, deleteDir).unlinked <==> !Skipped(t, n, deleteDir)
    ensures NodeSound(t, {}, n, deleteDir, DeleteNodeAsWritten(t, {}, n, deleteDir).unlinked)
    ensures t.dummyRoot !in DeleteNodeAsWritten(t, {}, n, deleteDir).unlinked
    ensures UnlinksRealNodes(t, DeleteNodeAsWritten(t, {}, n, deleteDir).trace)
    ensures Ordered(t, DeleteNodeAsWritten(t, {}, n, deleteDir).trace)
  {
    var d := DeleteNodeAsWritten(t, {}, n, deleteDir);
    AsWrittenGone(t, {}, n, deleteDir);
    assert {} + DeletedIds(d.trace) == DeletedIds(d.trace);
    AsWrittenSound(t, {}, n, deleteDir);
    SoundUnlinksReal(t, n, deleteDir, d.trace);
    AsWrittenOrdered(t, {}, n, deleteDir);
  }

  /**
   * The tree `delete_node` as written leaves is the one its steps produce
   * when carried out one after the other on the original tree, and it is
   * valid again, with the same node records.
   */
  lemma AsWrittenTree(t: ValidTree, n: NodeId, deleteDir: bool)
    requires n in t.nodes
    ensures UnlinksRealNodes(t, DeleteNodeAsWritten(t, {}, n, deleteDir).trace)
    ensures DeleteNodeTreeAsWritten(t, n, deleteDir)
      == Apply(t, Replay(t, Start(t), DeleteNodeAsWritten(t, {}, n, deleteDir).trace))
    ensures OnlyChildrenShrink(t, DeleteNodeTreeAsWritten(t, n, deleteDir))
    ensures Valid(DeleteNodeTreeAsWritten(t, n, deleteDir))
  {
    var d := DeleteNodeAsWritten(t, {}, n, deleteDir);
    AsWrittenEffect(t, n, deleteDir);
    StartIsView(t);
    ReplayView(t, {}, Start(t), d.trace);
    assert {} + DeletedIds(d.trace) == d.unlinked;
    ViewValid(t, d.unlinked);
  }

  /**
   * `delete_node(n, delete_dir)` over a snapshot of the children: everything
   * `AsWrittenEffect` states, and in addition it is complete: every live
   * non-directory child of an unlinked node is unlinked as well.
   */
  lemma DeleteNodeEffect(t: ValidTree, n: NodeId, deleteDir: bool)
    requires n in t.nodes
    ensures DeleteNode(t, {}, n, deleteDir).unlinked == DeletedIds(DeleteNode(t, {}, n, deleteDir).trace)
    ensures Skipped(t, n, deleteDir) <==> DeleteNode(t, {}, n, deleteDir).unlinked == {}
    ensures n in DeleteNode(t, {}, n, deleteDir).unlinked <==> !Skipped(t, n, deleteDir)
    ensures NodeSound(t, {}, n, deleteDir, DeleteNode(t, {}, n, deleteDir).unlinked)
    ensures ClosedUnderFileChildren(t, {}, DeleteNode(t, {}, n, deleteDir).unlinked)
    ensures t.dummyRoot !in DeleteNode(t, {}, n, deleteDir).unlinked
    ensures UnlinksRealNodes(t, DeleteNode(t, {}, n, deleteDir).trace)
    ensures Ordered(t, DeleteNode(t, {}, n, deleteDir).trace)
  {
    var d := DeleteNode(t, {}, n, deleteDir);
    DeleteNodeGone(t, {}, n, deleteDir);
    assert {} + DeletedIds(d.trace) == DeletedIds(d.trace);
    DeleteNodeSound(t, {}, n, deleteDir);
    DeleteNodeCloses(t, {}, n, deleteDir);
    SoundUnlinksReal(t, n, deleteDir, d.trace);
    DeleteNodeOrdered(t, {}, n, deleteDir);
  }

  /**
   * The tree `delete_node` over a snapshot leaves is the one its steps
   * produce one after the other, and it is valid again, with the same node
   * records.
   */
  lemma DeleteNodeTreeFacts(t: ValidTree, n: NodeId, deleteDir: bool)
    requires n in t.nodes
    ensures UnlinksRealNodes(t, DeleteNode(t, {}, n, deleteDir).trace)
    ensures DeleteNodeTree(t, n, deleteDir) == Apply(t, Replay(t, Start(t), DeleteNode(t, {}, n, deleteDir).trace))
    ensures OnlyChildrenShrink(t, DeleteNodeTree(t, n, deleteDir))
    ensures Valid(DeleteNodeTree(t, n, deleteDir))
  {
    var d := DeleteNode(t, {}, n, deleteDir);
    DeleteNodeEffect(t, n, deleteDir);
    StartIsView(t);
    ReplayView(t, {}, Start(t), d.trace);
    assert {} + DeletedIds(d.trace) == d.unlinked;
    ViewValid(t, d.unlinked);
  }

  /** The `lcn` of a node in the example: its `cn`, whatever the language. */
  function PlainLcn(cn: string, lang: Value): string {
    cn
  }

  /** The records `Node.new` makes for the dummy root, the root directory `/` and the files `a` and `b`. */
  function TwoFileNode(id: NodeId): NodeRec
    requires id < 4
  {
    if id == 0 then NodeRec(TreeParent, "dummy/", "dummy", Nil, "dummy", "", "", map[], true, true)
    else if id == 1 then NodeRec(NodeParent(0), "/", "", Nil, "", "/", "/", map[], true, true)
    else if id == 2 then NodeRec(NodeParent(1), "a", "a", Nil, "a", "/a", "//a", map[], true, true)
    else NodeRec(NodeParent(1), "b", "b", Nil, "b", "/b", "//b", map[], true, true)
  }

  /**
   * A tree whose root directory `/` (node 1, under the dummy root 0) holds
   * the two files `a` (node 2) and `b` (node 3). By node.rb:127 the files
   * are registered under `//a` and `//b`: the root's ALCN `/`, then `/`
   * because the root is a directory, then the file's lcn.
   */
  function TwoFileRecords(): Tree {
    Tree(
      map[0 := TwoFileNode(0), 1 := TwoFileNode(1), 2 := TwoFileNode(2), 3 := TwoFileNode(3)],
      map[0 := [1], 1 := [2, 3], 2 := [], 3 := []],
      map["" := 0, "/" := 1, "//a" := 2, "//b" := 3],
      map[], 0, 4)
  }

  /** The paths of the example: none is an absolute URL or a fragment, and `chomp('/')` drops only a directory's slash. */
  lemma TwoFilePaths()
    ensures !IsAbsoluteUrl("dummy/") && !IsAbsoluteUrl("/") && !IsAbsoluteUrl("a") && !IsAbsoluteUrl("b")
    ensures ChompSlash("dummy/") == "dummy" && ChompSlash("/") == "" && ChompSlash("a") == "a" && ChompSlash("b") == "b"
  {
    SingleLineAbsoluteUrl("dummy/");
    SingleLineAbsoluteUrl("/");
    SingleLineAbsoluteUrl("a");
    SingleLineAbsoluteUrl("b");
    assert "dummy/"[..5] == "dummy";
  }

  /** `Tree.new` with `PlainLcn` makes exactly the dummy root record of the example, registered under `''`. */
  lemma TwoFileDummyBuilt()
    ensures NewTree(PlainLcn).nodes == map[0 := TwoFileNode(0)]
    ensures NewTree(PlainLcn).nodeAccess == map["" := 0]
  {
    var empty := Tree(map[], map[], map[], map[], 0, 0);
    TwoFilePaths();
    assert Identify(empty, TreeParent, "dummy/", None, map[], PlainLcn) == Ok(TwoFileNode(0));
  }

  /**
   * Every other record of the example is the one `Node.new(parent, path)`
   * makes (node.rb:70-77 and 116-127, as `Nodes.Identify` states them):
   * `cn` is the path chomped of a trailing slash, the lcn is `PlainLcn` of
   * it, and the absolute path and ALCN extend the parent's, with `/` after
   * a directory parent's ALCN.
   */
  lemma TwoFileFollowsNodeNew(k: nat)
    requires 1 <= k < 4
    ensures TwoFileNode(k).parent.NodeParent? && TwoFileNode(k).parent.id < k
    ensures var n, p := TwoFileNode(k), TwoFileNode(TwoFileNode(k).parent.id);
      && !IsFragment(n.path) && !IsAbsoluteUrl(n.path)
      && n.cn == ChompSlash(n.path) && n.lang == Nil && n.lcn == PlainLcn(n.cn, n.lang)
      && n.absolutePath == p.absolutePath + n.path
      && n.alcn == p.alcn + (if IsDirectory(p.path) then "/" else "") + n.lcn
  {
    TwoFilePaths();
    TwoFileSpelling();
  }

  /** The absolute paths and ALCNs node.rb:121-127 spell out for the example. */
  lemma TwoFileSpelling()
    ensures "" + "/" + "" == "/" && "" + "/" == "/"
    ensures "/" + "/" + "a" == "//a" && "/" + "a" == "/a"
    ensures "/" + "/" + "b" == "//b" && "/" + "b" == "/b"
  {
  }

  lemma TwoFileLinks()
    ensures forall id :: id in TwoFileRecords().nodes ==> ParentOk(TwoFileRecords(), id)
    ensures forall id :: id in TwoFileRecords().nodes ==> id in TwoFileRecords().children && ChildrenOk(TwoFileRecords(), id)
  {
    var t := TwoFileRecords();
    assert t.nodes.Keys == {0, 1, 2, 3};
    assert ChildrenOk(t, 0) && ChildrenOk(t, 1) && ChildrenOk(t, 2) && ChildrenOk(t, 3);
    assert ParentOk(t, 0) && ParentOk(t, 1) && ParentOk(t, 2) && ParentOk(t, 3);
  }

  lemma TwoFileAccess()
    ensures forall k :: k in TwoFileRecords().nodeAccess ==>
              TwoFileRecords().nodeAccess[k] in TwoFileRecords().nodes &&
              TwoFileRecords().nodes[TwoFileRecords().nodeAccess[k]].alcn == k
  {
    var t := TwoFileRecords();
    assert t.nodeAccess.Keys == {"", "/", "//a", "//b"};
  }

  lemma TwoFileDummy()
    ensures TwoFileRecords().nodes.Keys == {0, 1, 2, 3} && TwoFileRecords().children.Keys == {0, 1, 2, 3}
    ensures forall id :: id in TwoFileRecords().nodes ==> id < TwoFileRecords().nextId
    ensures TwoFileRecords().nodes[0] == TwoFileNode(0) && TwoFileRecords().nodeAccess[""] == 0
    ensures forall id :: id in TwoFileRecords().nodes && TwoFileRecords().nodes[id].parent == TreeParent ==> id == 0
    ensures forall id :: id in TwoFileRecords().nodes && TwoFileRecords().nodes[id].alcn == "" ==> id == 0
  {
    var t := TwoFileRecords();
    assert t.nodes.Keys == {0, 1, 2, 3};
    assert t.nodes[1].alcn == "/" && t.nodes[2].alcn == "//a" && t.nodes[3].alcn == "//b";
  }

  lemma TwoFileValid()
    ensures Valid(TwoFileRecords())
  {
    TwoFileLinks();
    TwoFileAccess();
    TwoFileDummy();
    assert WellFormed(TwoFileRecords());
  }

  function TwoFileTree(): (t: ValidTree)
    ensures t.nodes.Keys == {0, 1, 2, 3} && t.children[1] == [2, 3]
  {
    TwoFileValid();
    TwoFileRecords()
  }

  /**
   * On `TwoFileTree`, `delete_node(root, true)` as written unlinks `a` and the
   * root but not `b`: deleting `a` shifts `b` to index 0 of the live
   * children array while `Array#each` moves on to index 1.
   */
  lemma AsWrittenSkipsSibling()
    ensures DeleteNodeAsWritten(TwoFileTree(), {}, 1, true).unlinked == {1, 2}
  {
    var t := TwoFileTree();
    assert !Skipped(t, 1, true) && !Skipped(t, 2, false);
    assert LiveChildren(t, {}, 2) == [];
    assert DeleteNodeAsWritten(t, {}, 2, false).unlinked == {2};
    assert LiveChildren(t, {}, 1) == [2, 3];
    assert LiveChildren(t, {2}, 1) == [3];
    assert DeleteChildrenAsWritten(t, {2}, 1, 1).unlinked == {2};
  }

  /** What that leaves: `b` is still a live file child of the deleted root. */
  lemma AsWrittenLeavesSibling()
    ensures !ClosedUnderFileChildren(TwoFileTree(), {}, DeleteNodeAsWritten(TwoFileTree(), {}, 1, true).unlinked)
    ensures DeleteNodeTreeAsWritten(TwoFileTree(), 1, true).children[1] == [3]
  {
    var t := TwoFileTree();
    AsWrittenSkipsSibling();
    var w := DeleteNodeAsWritten(t, {}, 1, true).unlinked;
    assert 1 in w && 3 in t.children[1] && 3 !in w && !IsDirectory(t.nodes[3].path);
    assert Without([2, 3], w) == [3];
  }

  /** The ALCNs of the root directory and its two files. */
  lemma TwoFileAlcns()
    ensures TwoFileTree().nodes[1].alcn == "/" && TwoFileTree().nodes[2].alcn == "//a"
    ensures "//b" in TwoFileTree().nodeAccess
  {
  }

  /** ... and `b` stays registered under `//b`, although its parent is gone. */
  lemma AsWrittenKeepsSiblingAlcn()
    ensures "//b" in DeleteNodeTreeAsWritten(TwoFileTree(), 1, true).nodeAccess
  {
    var t := TwoFileTree();
    AsWrittenSkipsSibling();
    TwoFileAlcns();
    ViewKeepsAlcn(t, {1, 2}, "//b");
  }

  /** Over a snapshot of the children, the same call unlinks all three. */
  lemma SnapshotDeletesBoth()
    ensures DeleteNode(TwoFileTree(), {}, 1, true).unlinked == {1, 2, 3}
  {
    var t := TwoFileTree();
    assert !Skipped(t, 1, true) && !Skipped(t, 2, false) && !Skipped(t, 3, false);
    assert LiveChildren(t, {}, 2) == [] && LiveChildren(t, {2}, 3) == [];
    assert LiveChildren(t, {}, 1) == [2, 3];
    assert DeleteNode(t, {}, 2, false).unlinked == {2};
    assert DeleteNode(t, {2}, 3, false).unlinked == {2, 3};
    assert [2, 3][1..] == [3];
    assert DeleteEach(t, {2}, [3], 1).unlinked == {2, 3};
  }
}

=== FILE: deletion_facts.dfy ===
/**
 * What `delete_node` (tree.rb:30-40) unlinks and in which order, for both
 * ways of visiting the children. A deletion only removes, so the set of
 * nodes it has unlinked fixes the state it has reached (`Trees.View`).
 */
module DeletionFacts {
  import opened Paths
  import opened TreeState
  import opened Trees

  /** The nodes a trace unlinks. */
  ghost function DeletedIds(trace: seq<Event>): set<NodeId>
    decreases |trace|
  {
    if trace == [] then {}
    else (if trace[0].Unlinked? then {trace[0].id} else {}) + DeletedIds(trace[1..])
  }

  /**
   * `x` was, with the nodes `g` unlinked, a live non-directory child of a
   * node in `from`: the only way the recursion of tree.rb:34 reaches a node.
   */
  ghost predicate ReachedFrom(t: Tree, g: set<NodeId>, from: set<NodeId>, x: NodeId)
    requires x in t.nodes
  {
    var p := t.nodes[x].parent;
    && p.NodeParent? && p.id in from && p.id in t.children
    && x in t.children[p.id] && x !in g
    && !IsDirectory(t.nodes[x].path)
  }

  /**
   * What deleting `n` with the nodes `g` already unlinked may unlink: `n`
   * only when the guard of tree.rb:32 lets it through, otherwise only nodes
   * newer than `n` reached from another unlinked node.
   */
  ghost predicate NodeSound(t: Tree, g: set<NodeId>, n: NodeId, deleteDir: bool, gone: set<NodeId>)
    requires n in t.nodes
  {
    forall x :: x in gone ==>
      && x in t.nodes && n <= x
      && (x == n ==> !Skipped(t, n, deleteDir))
      && (x != n ==> ReachedFrom(t, g, gone, x))
  }

  /** What deleting children of `n` may unlink: nodes newer than `n` reached from `n` or another unlinked node. */
  ghost predicate ChildrenSound(t: Tree, g: set<NodeId>, n: NodeId, gone: set<NodeId>) {
    forall x :: x in gone ==> x in t.nodes && n < x && ReachedFrom(t, g, gone + {n}, x)
  }

  /** Every non-directory child of a node in `gone` that was live with `g` unlinked is in `gone`. */
  ghost predicate ClosedUnderFileChildren(t: Tree, g: set<NodeId>, gone: set<NodeId>) {
    forall x, c ::
      x in gone && x in t.children && c in t.children[x] && c in t.nodes && c !in g && !IsDirectory(t.nodes[c].path)
      ==> c in gone
  }

  /**
   * The trace is a sequence of pairs: the `before_node_deleted` message for a
   * node immediately followed by the unlinking of that node.
   */
  ghost predicate NotifiedBeforeUnlink(tr: seq<Event>)
    decreases |tr|
  {
    if tr == [] then true
    else
      && |tr| >= 2 && tr[1].Unlinked? && tr[0] == BeforeNodeDeleted(tr[1].id)
      && NotifiedBeforeUnlink(tr[2..])
  }

  /** No node is unlinked twice. */
  ghost predicate UnlinkedOnce(tr: seq<Event>) {
    forall i, j :: 0 <= i < j < |tr| && tr[i].Unlinked? && tr[j].Unlinked? ==> tr[i].id != tr[j].id
  }

  /** Post-order: a node is unlinked after every one of its children that is unlinked. */
  ghost predicate ChildrenFirst(t: Tree, tr: seq<Event>) {
    forall i, j :: 0 <= i < |tr| && 0 <= j < |tr| && tr[i].Unlinked? && tr[j].Unlinked? ==>
      (tr[i].id in t.nodes && t.nodes[tr[i].id].parent == NodeParent(tr[j].id) ==> i < j)
  }

  /** The three order properties of a deletion trace together. */
  ghost predicate Ordered(t: Tree, tr: seq<Event>) {
    NotifiedBeforeUnlink(tr) && UnlinkedOnce(tr) && ChildrenFirst(t, tr)
  }

  lemma {:induction false} DeletedIdsConcat(a: seq<Event>, b: seq<Event>)
    ensures DeletedIds(a + b) == DeletedIds(a) + DeletedIds(b)
    decreases |a|
  {
    if a == [] {
      assert a + b == b;
    } else {
      assert (a + b)[1..] == a[1..] + b;
      DeletedIdsConcat(a[1..], b);
    }
  }

  /** An `Unlinked` step of a trace is among the nodes it unlinks. */
  lemma {:induction false} DeletedIdsHas(tr: seq<Event>, i: nat)
    requires i < |tr| && tr[i].Unlinked?
    ensures tr[i].id in DeletedIds(tr)
    decreases i
  {
    if i > 0 {
      assert tr[1..][i - 1] == tr[i];
      DeletedIdsHas(tr[1..], i - 1);
    }
  }

  lemma NothingDeleted(g: set<NodeId>)
    ensures DeletedIds([]) == {} && g + DeletedIds([]) == g
  {
  }

  /** Two consecutive deletions unlink what their traces together say. */
  lemma SiblingStepGone(g: set<NodeId>, d1: Deletion, d2: Deletion)
    requires d1.unlinked == g + DeletedIds(d1.trace)
    requires d2.unlinked == d1.unlinked + DeletedIds(d2.trace)
    ensures d2.unlinked == g + DeletedIds(d1.trace + d2.trace)
  {
    DeletedIdsConcat(d1.trace, d2.trace);
  }

  /** The ids a trace unlinks after the two steps for `n` are appended. */
  lemma OwnStepIds(trc: seq<Event>, n: NodeId)
    ensures DeletedIds(trc + [BeforeNodeDeleted(n), Unlinked(n)]) == DeletedIds(trc) + {n}
  {
    var own := [BeforeNodeDeleted(n), Unlinked(n)];
    DeletedIdsConcat(trc, own);
    var last := own[1..];
    assert last == [Unlinked(n)] && last[1..] == [];
    assert DeletedIds(last) == {n};
    assert DeletedIds(own) == DeletedIds(last);
  }

  /** The live children of `n` are its children in `t` that are not unlinked, once each. */
  lemma LiveChildrenMember(t: ValidTree, g: set<NodeId>, n: NodeId)
    requires n in t.nodes
    ensures n in t.children && ChildrenOk(t, n)
    ensures NoDup(LiveChildren(t, g, n))
    ensures forall c :: c in LiveChildren(t, g, n) <==> c in t.children[n] && c !in g
  {
    assert ChildrenOk(t, n);
    forall c
      ensures c in LiveChildren(t, g, n) <==> c in t.children[n] && c !in g
    {
      WithoutMember(t.children[n], g, c);
    }
  }

  // ---------------------------------------------------------------------
  // One step of a deletion
  // ---------------------------------------------------------------------

  /** Every node gone other than `n` hangs below a gone node, once `n` is unlinked after its children. */
  lemma OwnStepSound(t: Tree, g: set<NodeId>, n: NodeId, deleteDir: bool, trc: seq<Event>)
    requires n in t.nodes && !Skipped(t, n, deleteDir)
    requires ChildrenSound(t, g, n, DeletedIds(trc))
    ensures NodeSound(t, g, n, deleteDir, DeletedIds(trc + [BeforeNodeDeleted(n), Unlinked(n)]))
  {
    OwnStepIds(trc, n);
    var gone := DeletedIds(trc) + {n};
    forall x | x in gone && x != n
      ensures x in t.nodes && ReachedFrom(t, g, gone, x)
    {
      assert ReachedFrom(t, g, DeletedIds(trc) + {n}, x);
    }
  }

  /**
   * Deleting the live child `c` of `n`, then further children of `n` with
   * what that removed unlinked: each removed node hangs below `n`.
   */
  lemma SiblingStepSound(t: Tree, g: set<NodeId>, n: NodeId, c: NodeId, a: seq<Event>, b: seq<Event>)
    requires c in t.nodes && n < c && t.nodes[c].parent == NodeParent(n)
    requires n in t.children && c in t.children[n] && c !in g
    requires NodeSound(t, g, c, false, DeletedIds(a))
    requires ChildrenSound(t, g + DeletedIds(a), n, DeletedIds(b))
    ensures ChildrenSound(t, g, n, DeletedIds(a + b))
  {
    var g1 := DeletedIds(a);
    var g2 := DeletedIds(b);
    DeletedIdsConcat(a, b);
    forall x | x in g1 + g2
      ensures x in t.nodes && n < x && ReachedFrom(t, g, g1 + g2 + {n}, x)
    {
      if x in g1 && x == c {
        assert !Skipped(t, c, false);
      } else if x in g1 {
        assert ReachedFrom(t, g, g1, x);
      } else {
        assert ReachedFrom(t, g + g1, g2 + {n}, x);
      }
    }
  }

  /** The two steps for `n` on their own: `n` announced, then unlinked. */
  lemma OwnPairOrdered(t: Tree, n: NodeId)
    requires n in t.nodes && ParentOk(t, n)
    ensures Ordered(t, [BeforeNodeDeleted(n), Unlinked(n)])
    ensures DeletedIds([BeforeNodeDeleted(n), Unlinked(n)]) == {n}
  {
    var own := [BeforeNodeDeleted(n), Unlinked(n)];
    OwnStepIds([], n);
    assert [] + own == own;
    assert own[2..] == [];
  }

  /**
   * Appending the two steps for `n` to the trace of its children, which only
   * unlinks nodes newer than `n`, keeps the three order properties.
   */
  lemma OwnStepsOrdered(t: Tree, n: NodeId, tc: seq<Event>)
    requires n in t.nodes && ParentOk(t, n) && Ordered(t, tc)
    requires forall x :: x in DeletedIds(tc) ==> n < x
    ensures Ordered(t, tc + [BeforeNodeDeleted(n), Unlinked(n)])
  {
    OwnPairOrdered(t, n);
    OrderedConcat(t, tc, [BeforeNodeDeleted(n), Unlinked(n)]);
  }

  /**
   * Concatenating two ordered traces that unlink disjoint sets, where no node
   * of the second has its parent unlinked in the first, gives an ordered trace.
   */
  lemma OrderedConcat(t: Tree, a: seq<Event>, b: seq<Event>)
    requires Ordered(t, a) && Ordered(t, b)
    requires DeletedIds(a) !! DeletedIds(b)
    requires forall x :: x in DeletedIds(b) && x in t.nodes ==>
               !(t.nodes[x].parent.NodeParent? && t.nodes[x].parent.id in DeletedIds(a))
    ensures Ordered(t, a + b)
  {
    NotifiedBeforeUnlinkConcat(a, b);
    UnlinkedOnceConcat(a, b);
    ChildrenFirstConcat(t, a, b);
  }

  /**
   * Concatenating the traces of two consecutive sibling deletions keeps the
   * three order properties: the second unlinks only nodes the first left live.
   */
  lemma SiblingStepsOrdered(t: Tree, g: set<NodeId>, n: NodeId, c: NodeId, a: seq<Event>, b: seq<Event>)
    requires c in t.nodes && n < c && NodeSound(t, g, c, false, DeletedIds(a))
    requires ChildrenSound(t, g + DeletedIds(a), n, DeletedIds(b))
    requires Ordered(t, a) && Ordered(t, b)
    ensures Ordered(t, a + b)
  {
    assert DeletedIds(a) !! DeletedIds(b) by {
      forall x | x in DeletedIds(b)
        ensures x !in DeletedIds(a)
      {
        assert ReachedFrom(t, g + DeletedIds(a), DeletedIds(b) + {n}, x);
      }
    }
    forall x | x in DeletedIds(b) && x in t.nodes
      ensures !(t.nodes[x].parent.NodeParent? && t.nodes[x].parent.id in DeletedIds(a))
    {
      assert ReachedFrom(t, g + DeletedIds(a), DeletedIds(b) + {n}, x);
      var p := t.nodes[x].parent.id;
      if p != n {
        assert ReachedFrom(t, g + DeletedIds(a), DeletedIds(b) + {n}, p);
      }
    }
    OrderedConcat(t, a, b);
  }

  /** Concatenating two traces of pairs gives a trace of pairs. */
  lemma {:induction false} NotifiedBeforeUnlinkConcat(a: seq<Event>, b: seq<Event>)
    requires NotifiedBeforeUnlink(a) && NotifiedBeforeUnlink(b)
    ensures NotifiedBeforeUnlink(a + b)
    decreases |a|
  {
    if a == [] {
      assert a + b == b;
    } else {
      assert (a + b)[2..] == a[2..] + b;
      NotifiedBeforeUnlinkConcat(a[2..], b);
    }
  }

  /** Concatenating traces that unlink disjoint sets keeps every node unlinked at most once. */
  lemma UnlinkedOnceConcat(a: seq<Event>, b: seq<Event>)
    requires UnlinkedOnce(a) && UnlinkedOnce(b)
    requires DeletedIds(a) !! DeletedIds(b)
    ensures UnlinkedOnce(a + b)
  {
    var tr := a + b;
    forall i, j | 0 <= i < j < |tr| && tr[i].Unlinked? && tr[j].Unlinked?
      ensures tr[i].id != tr[j].id
    {
      if i < |a| && j >= |a| {
        assert tr[i] == a[i] && tr[j] == b[j - |a|];
        DeletedIdsHas(a, i);
        DeletedIdsHas(b, j - |a|);
      } else if j < |a| {
        assert tr[i] == a[i] && tr[j] == a[j];
      } else {
        assert tr[i] == b[i - |a|] && tr[j] == b[j - |a|];
      }
    }
  }

  /**
   * Concatenating post-order traces stays post-order when no node of the
   * second trace has its parent unlinked in the first.
   */
  lemma ChildrenFirstConcat(t: Tree, a: seq<Event>, b: seq<Event>)
    requires ChildrenFirst(t, a) && ChildrenFirst(t, b)
    requires forall x :: x in DeletedIds(b) && x in t.nodes ==>
               !(t.nodes[x].parent.NodeParent? && t.nodes[x].parent.id in DeletedIds(a))
    ensures ChildrenFirst(t, a + b)
  {
    var tr := a + b;
    forall i, j | 0 <= i < |tr| && 0 <= j < |tr| && tr[i].Unlinked? && tr[j].Unlinked?
        && tr[i].id in t.nodes && t.nodes[tr[i].id].parent == NodeParent(tr[j].id)
      ensures i < j
    {
      if i < |a| && j < |a| {
        assert tr[i] == a[i] && tr[j] == a[j];
      } else if i >= |a| && j >= |a| {
        assert tr[i] == b[i - |a|] && tr[j] == b[j - |a|];
      } else if i >= |a| {
        assert tr[i] == b[i - |a|] && tr[j] == a[j];
        DeletedIdsHas(a, j);
        DeletedIdsHas(b, i - |a|);
      }
    }
  }

  /** Unlinking `n` after its children keeps the unlinked set closed when every live file child went first. */
  lemma OwnStepCloses(t: Tree, g: set<NodeId>, n: NodeId, trc: seq<Event>)
    requires n in t.children
    requires forall c :: c in t.children[n] && c in t.nodes && c !in g && !IsDirectory(t.nodes[c].path) ==>
               c in DeletedIds(trc)
    requires ClosedUnderFileChildren(t, g, DeletedIds(trc))
    ensures ClosedUnderFileChildren(t, g, DeletedIds(trc + [BeforeNodeDeleted(n), Unlinked(n)]))
  {
    OwnStepIds(trc, n);
  }

  /** Closure of the union of what two consecutive deletions unlinked. */
  lemma ClosedUnion(t: Tree, g: set<NodeId>, g1: set<NodeId>, g2: set<NodeId>)
    requires ClosedUnderFileChildren(t, g, g1) && ClosedUnderFileChildren(t, g + g1, g2)
    ensures ClosedUnderFileChildren(t, g, g1 + g2)
  {
  }

  /** Deleting a snapshot child by child covers every live non-directory child and stays closed. */
  lemma SiblingStepCloses(t: Tree, g: set<NodeId>, cs: seq<NodeId>, a: seq<Event>, b: seq<Event>)
    requires cs != [] && cs[0] in t.nodes
    requires !IsDirectory(t.nodes[cs[0]].path) ==> cs[0] in DeletedIds(a)
    requires ClosedUnderFileChildren(t, g, DeletedIds(a))
    requires forall c :: c in cs[1..] && c in t.nodes && !IsDirectory(t.nodes[c].path) ==> c in DeletedIds(b)
    requires ClosedUnderFileChildren(t, g + DeletedIds(a), DeletedIds(b))
    ensures forall c :: c in cs && c in t.nodes && !IsDirectory(t.nodes[c].path) ==> c in DeletedIds(a + b)
    ensures ClosedUnderFileChildren(t, g, DeletedIds(a + b))
  {
    DeletedIdsConcat(a, b);
    forall y | y in cs && y in t.nodes && !IsDirectory(t.nodes[y].path)
      ensures y in DeletedIds(a) + DeletedIds(b)
    {
      if y != cs[0] {
        assert y in cs[1..];
      }
    }
    ClosedUnion(t, g, DeletedIds(a), DeletedIds(b));
  }

  // ---------------------------------------------------------------------
  // delete_node as written (tree.rb:30-40)
  // ---------------------------------------------------------------------

  /**
   * `delete_node` as written, started with the nodes `g` unlinked, unlinks
   * what its trace says, nothing when the guard of tree.rb:32 holds and
   * otherwise `n` among others.
   */
  lemma {:induction false} AsWrittenGone(t: ValidTree, g: set<NodeId>, n: NodeId, deleteDir: bool)
    requires n in t.nodes
    ensures DeleteNodeAsWritten(t, g, n, deleteDir).unlinked
      == g + DeletedIds(DeleteNodeAsWritten(t, g, n, deleteDir).trace)
    ensures Skipped(t, n, deleteDir) <==> DeletedIds(DeleteNodeAsWritten(t, g, n, deleteDir).trace) == {}
    ensures n in DeletedIds(DeleteNodeAsWritten(t, g, n, deleteDir).trace) <==> !Skipped(t, n, deleteDir)
    decreases t.nextId - n, 1, 0
  {
    if Skipped(t, n, deleteDir) {
      NothingDeleted(g);
    } else {
      var dc := DeleteChildrenAsWritten(t, g, n, 0);
      AsWrittenChildrenGone(t, g, n, 0);
      OwnStepIds(dc.trace, n);
    }
  }

  /** The children loop as written, from index `i` of the live children array on. */
  lemma {:induction false} AsWrittenChildrenGone(t: ValidTree, g: set<NodeId>, n: NodeId, i: nat)
    requires n in t.nodes
    ensures DeleteChildrenAsWritten(t, g, n, i).unlinked
      == g + DeletedIds(DeleteChildrenAsWritten(t, g, n, i).trace)
    decreases t.nextId - n, 0, |t.children[n]| - i
  {
    var cs := LiveChildren(t, g, n);
    if i >= |cs| {
      NothingDeleted(g);
    } else {
      assert ChildrenOk(t, n) && ParentOk(t, cs[i]);
      var d1 := DeleteNodeAsWritten(t, g, cs[i], false);
      AsWrittenGone(t, g, cs[i], false);
      var d2 := DeleteChildrenAsWritten(t, d1.unlinked, n, i + 1);
      AsWrittenChildrenGone(t, d1.unlinked, n, i + 1);
      SiblingStepGone(g, d1, d2);
    }
  }

  /**
   * Every node `delete_node` as written unlinks is `n` or newer than `n` and
   * was a live non-directory child of another unlinked node.
   */
  lemma {:induction false} AsWrittenSound(t: ValidTree, g: set<NodeId>, n: NodeId, deleteDir: bool)
    requires n in t.nodes
    ensures NodeSound(t, g, n, deleteDir, DeletedIds(DeleteNodeAsWritten(t, g, n, deleteDir).trace))
    decreases t.nextId - n, 1, 0
  {
    if Skipped(t, n, deleteDir) {
      NothingDeleted(g);
    } else {
      AsWrittenChildrenSound(t, g, n, 0);
      OwnStepSound(t, g, n, deleteDir, DeleteChildrenAsWritten(t, g, n, 0).trace);
    }
  }

  lemma {:induction false} AsWrittenChildrenSound(t: ValidTree, g: set<NodeId>, n: NodeId, i: nat)
    requires n in t.nodes
    ensures ChildrenSound(t, g, n, DeletedIds(DeleteChildrenAsWritten(t, g, n, i).trace))
    decreases t.nextId - n, 0, |t.children[n]| - i
  {
    var cs := LiveChildren(t, g, n);
    if i >= |cs| {
      NothingDeleted(g);
    } else {
      LiveChildrenMember(t, g, n);
      var c := cs[i];
      assert c in cs && ParentOk(t, c);
      var d1 := DeleteNodeAsWritten(t, g, c, false);
      AsWrittenSound(t, g, c, false);
      AsWrittenGone(t, g, c, false);
      var d2 := DeleteChildrenAsWritten(t, d1.unlinked, n, i + 1);
      AsWrittenChildrenSound(t, d1.unlinked, n, i + 1);
      SiblingStepSound(t, g, n, c, d1.trace, d2.trace);
    }
  }

  /**
   * The order of the steps of `delete_node` as written: every unlink is
   * announced right before it, no node is unlinked twice, and children go
   * before their parent.
   */
  lemma {:induction false} AsWrittenOrdered(t: ValidTree, g: set<NodeId>, n: NodeId, deleteDir: bool)
    requires n in t.nodes
    ensures Ordered(t, DeleteNodeAsWritten(t, g, n, deleteDir).trace)
    decreases t.nextId - n, 1, 0
  {
    if !Skipped(t, n, deleteDir) {
      AsWrittenChildrenOrdered(t, g, n, 0);
      AsWrittenChildrenSound(t, g, n, 0);
      assert ParentOk(t, n);
      OwnStepsOrdered(t, n, DeleteChildrenAsWritten(t, g, n, 0).trace);
    }
  }

  lemma {:induction false} AsWrittenChildrenOrdered(t: ValidTree, g: set<NodeId>, n: NodeId, i: nat)
    requires n in t.nodes
    ensures Ordered(t, DeleteChildrenAsWritten(t, g, n, i).trace)
    decreases t.nextId - n, 0, |t.children[n]| - i
  {
    var cs := LiveChildren(t, g, n);
    if i < |cs| {
      LiveChildrenMember(t, g, n);
      var c := cs[i];
      assert c in cs && ParentOk(t, c);
      var d1 := DeleteNodeAsWritten(t, g, c, false);
      AsWrittenOrdered(t, g, c, false);
      AsWrittenSound(t, g, c, false);
      AsWrittenGone(t, g, c, false);
      var d2 := DeleteChildrenAsWritten(t, d1.unlinked, n, i + 1);
      AsWrittenChildrenOrdered(t, d1.unlinked, n, i + 1);
      AsWrittenChildrenSound(t, d1.unlinked, n, i + 1);
      SiblingStepsOrdered(t, g, n, c, d1.trace, d2.trace);
    }
  }

  // ---------------------------------------------------------------------
  // delete_node over a snapshot of the children
  // ---------------------------------------------------------------------

  /**
   * `delete_node` over a snapshot, started with the nodes `g` unlinked,
   * unlinks what its trace says, nothing when the guard holds and otherwise
   * `n` among others.
   */
  lemma {:induction false} DeleteNodeGone(t: ValidTree, g: set<NodeId>, n: NodeId, deleteDir: bool)
    requires n in t.nodes
    ensures DeleteNode(t, g, n, deleteDir).unlinked == g + DeletedIds(DeleteNode(t, g, n, deleteDir).trace)
    ensures Skipped(t, n, deleteDir) <==> DeletedIds(DeleteNode(t, g, n, deleteDir).trace) == {}
    ensures n in DeletedIds(DeleteNode(t, g, n, deleteDir).trace) <==> !Skipped(t, n, deleteDir)
    decreases t.nextId - n, 1, 0
  {
    if Skipped(t, n, deleteDir) {
      NothingDeleted(g);
    } else {
      var cs := LiveChildren(t, g, n);
      var dc := DeleteEach(t, g, cs, n);
      DeleteEachGone(t, g, cs, n);
      OwnStepIds(dc.trace, n);
    }
  }

  lemma {:induction false} DeleteEachGone(t: ValidTree, g: set<NodeId>, cs: seq<NodeId>, n: NodeId)
    requires n in t.nodes
    requires forall c :: c in cs ==> c in t.children[n]
    ensures DeleteEach(t, g, cs, n).unlinked == g + DeletedIds(DeleteEach(t, g, cs, n).trace)
    decreases t.nextId - n, 0, |cs|
  {
    if cs == [] {
      NothingDeleted(g);
    } else {
      assert ChildrenOk(t, n) && ParentOk(t, cs[0]);
      var d1 := DeleteNode(t, g, cs[0], false);
      DeleteNodeGone(t, g, cs[0], false);
      var d2 := DeleteEach(t, d1.unlinked, cs[1..], n);
      DeleteEachGone(t, d1.unlinked, cs[1..], n);
      SiblingStepGone(g, d1, d2);
    }
  }

  /**
   * Every node `delete_node` over a snapshot unlinks is `n` or newer than `n`
   * and was a live non-directory child of another unlinked node.
   */
  lemma {:induction false} DeleteNodeSound(t: ValidTree, g: set<NodeId>, n: NodeId, deleteDir: bool)
    requires n in t.nodes
    ensures NodeSound(t, g, n, deleteDir, DeletedIds(DeleteNode(t, g, n, deleteDir).trace))
    decreases t.nextId - n, 1, 0
  {
    if Skipped(t, n, deleteDir) {
      NothingDeleted(g);
    } else {
      var cs := LiveChildren(t, g, n);
      LiveChildrenMember(t, g, n);
      DeleteEachSound(t, g, cs, n);
      OwnStepSound(t, g, n, deleteDir, DeleteEach(t, g, cs, n).trace);
    }
  }

  lemma {:induction false} DeleteEachSound(t: ValidTree, g: set<NodeId>, cs: seq<NodeId>, n: NodeId)
    requires n in t.nodes && NoDup(cs)
    requires forall c :: c in cs ==> c in t.children[n] && c !in g
    ensures ChildrenSound(t, g, n, DeletedIds(DeleteEach(t, g, cs, n).trace))
    decreases t.nextId - n, 0, |cs|
  {
    if cs == [] {
      NothingDeleted(g);
    } else {
      var c := cs[0];
      FirstOfSnapshot(t, g, cs, n);
      var d1 := DeleteNode(t, g, c, false);
      var d2 := DeleteEach(t, d1.unlinked, cs[1..], n);
      DeleteEachSound(t, d1.unlinked, cs[1..], n);
      SiblingStepSound(t, g, n, c, d1.trace, d2.trace);
    }
  }

  /**
   * Deleting the first child `cs[0]` of a snapshot of the live children of
   * `n`: what that unlinks, and the rest of the snapshot still live children
   * of `n`.
   */
  lemma FirstOfSnapshot(t: ValidTree, g: set<NodeId>, cs: seq<NodeId>, n: NodeId)
    requires n in t.nodes && NoDup(cs) && cs != []
    requires forall c :: c in cs ==> c in t.children[n] && c !in g
    ensures ChildrenOk(t, n) && ParentOk(t, cs[0]) && n < cs[0]
    ensures DeleteNode(t, g, cs[0], false).unlinked == g + DeletedIds(DeleteNode(t, g, cs[0], false).trace)
    ensures cs[0] in DeletedIds(DeleteNode(t, g, cs[0], false).trace) <==> !IsDirectory(t.nodes[cs[0]].path)
    ensures NodeSound(t, g, cs[0], false, DeletedIds(DeleteNode(t, g, cs[0], false).trace))
    ensures forall y :: y in cs[1..] ==> y in t.children[n] && y !in DeleteNode(t, g, cs[0], false).unlinked
    decreases t.nextId - n, 0, 0
  {
    assert ChildrenOk(t, n) && ParentOk(t, cs[0]);
    DeleteNodeSound(t, g, cs[0], false);
    DeleteNodeGone(t, g, cs[0], false);
    RestStillLive(t, g, n, cs, DeletedIds(DeleteNode(t, g, cs[0], false).trace));
  }

  /**
   * After the first child `cs[0]` of a snapshot is deleted, the rest of the
   * snapshot are still live: that deletion unlinked only `cs[0]` and nodes
   * below unlinked nodes, and `n` is not among them.
   */
  lemma RestStillLive(t: ValidTree, g: set<NodeId>, n: NodeId, cs: seq<NodeId>, gone: set<NodeId>)
    requires n in t.nodes && NoDup(cs) && cs != []
    requires forall c :: c in cs ==> c in t.children[n] && c !in g
    requires ChildrenOk(t, n) && ParentOk(t, cs[0])
    requires NodeSound(t, g, cs[0], false, gone)
    ensures forall y :: y in cs[1..] ==> y in t.children[n] && y !in g + gone
  {
    forall y | y in cs[1..]
      ensures y !in gone
    {
      assert y in cs && y != cs[0];
      assert t.nodes[y].parent == NodeParent(n);
    }
  }

  /**
   * Completeness of `delete_node` over a snapshot: every live non-directory
   * child of an unlinked node is unlinked too.
   */
  lemma {:induction false} DeleteNodeCloses(t: ValidTree, g: set<NodeId>, n: NodeId, deleteDir: bool)
    requires n in t.nodes
    ensures ClosedUnderFileChildren(t, g, DeletedIds(DeleteNode(t, g, n, deleteDir).trace))
    decreases t.nextId - n, 1, 0
  {
    if Skipped(t, n, deleteDir) {
      NothingDeleted(g);
    } else {
      var cs := LiveChildren(t, g, n);
      LiveChildrenMember(t, g, n);
      DeleteEachCloses(t, g, cs, n);
      OwnStepCloses(t, g, n, DeleteEach(t, g, cs, n).trace);
    }
  }

  lemma {:induction false} DeleteEachCloses(t: ValidTree, g: set<NodeId>, cs: seq<NodeId>, n: NodeId)
    requires n in t.nodes && NoDup(cs)
    requires forall c :: c in cs ==> c in t.children[n] && c !in g
    ensures forall c :: c in cs && c in t.nodes && !IsDirectory(t.nodes[c].path) ==>
      c in DeletedIds(DeleteEach(t, g, cs, n).trace)
    ensures ClosedUnderFileChildren(t, g, DeletedIds(DeleteEach(t, g, cs, n).trace))
    decreases t.nextId - n, 0, |cs|
  {
    if cs == [] {
      NothingDeleted(g);
    } else {
      var c := cs[0];
      FirstOfSnapshot(t, g, cs, n);
      var d1 := DeleteNode(t, g, c, false);
      DeleteNodeCloses(t, g, c, false);
      var d2 := DeleteEach(t, d1.unlinked, cs[1..], n);
      DeleteEachCloses(t, d1.unlinked, cs[1..], n);
      SiblingStepCloses(t, g, cs, d1.trace, d2.trace);
    }
  }

  /** The order of the steps of `delete_node` over a snapshot. */
  lemma {:induction false} DeleteNodeOrdered(t: ValidTree, g: set<NodeId>, n: NodeId, deleteDir: bool)
    requires n in t.nodes
    ensures Ordered(t, DeleteNode(t, g, n, deleteDir).trace)
    decreases t.nextId - n, 1, 0
  {
    if !Skipped(t, n, deleteDir) {
      var cs := LiveChildren(t, g, n);
      LiveChildrenMember(t, g, n);
      DeleteEachOrdered(t, g, cs, n);
      DeleteEachSound(t, g, cs, n);
      assert ParentOk(t, n);
      OwnStepsOrdered(t, n, DeleteEach(t, g, cs, n).trace);
    }
  }

  lemma {:induction false} DeleteEachOrdered(t: ValidTree, g: set<NodeId>, cs: seq<NodeId>, n: NodeId)
    requires n in t.nodes && NoDup(cs)
    requires forall c :: c in cs ==> c in t.children[n] && c !in g
    ensures Ordered(t, DeleteEach(t, g, cs, n).trace)
    decreases t.nextId - n, 0, |cs|
  {
    if cs != [] {
      var c := cs[0];
      FirstOfSnapshot(t, g, cs, n);
      var d1 := DeleteNode(t, g, c, false);
      DeleteNodeOrdered(t, g, c, false);
      var d2 := DeleteEach(t, d1.unlinked, cs[1..], n);
      DeleteEachOrdered(t, d1.unlinked, cs[1..], n);
      DeleteEachSound(t, d1.unlinked, cs[1..], n);
      SiblingStepsOrdered(t, g, n, c, d1.trace, d2.trace);
    }
  }
}

=== FILE: gallery.dfy ===
/**
 * `FileHandlers::GalleryFileHandler` (lib/webgen/plugins/filehandler/gallery.rb):
 * from the data of a `.gallery` file and the list of image files, it sorts
 * the images, splits them into gallery pages and builds the meta information
 * of the main page, the gallery pages and one page per image, which it hands
 * to the page handler in a fixed order.
 */
module Gallery {
  import opened Wrappers
  import opened RubyValues
  import opened RubyStrings

  // ---------------------------------------------------------------------
  // Parameters (gallery.rb:33-43, 79-81)
  // ---------------------------------------------------------------------

  /** The parameters declared with `add_param` and their default values (gallery.rb:33-43). */
  function Defaults(): RHash {
    map[
      "imagesPerPage" := Int(20),
      "imagePageInMenu" := Bool(false),
      "galleryPageInMenu" := Bool(false),
      "galleryOrderInfo" := Int(50),
      "mainPageInMenu" := Bool(true),
      "galleryPageTemplate" := Nil,
      "imagePageTemplate" := Nil,
      "mainPageTemplate" := Nil,
      "files" := Str("images/**/*.jpg"),
      "title" := Str("Gallery"),
      "layout" := Str("default")]
  }

  /**
   * The handler's state while it processes one gallery file: the parsed
   * file (`@filedata`) and what the inherited `get_param` returns for each
   * parameter name (`Defaults()` unless the site configuration overrides it).
   */
  datatype Handler = Handler(fileData: RHash, params: RHash)

  /** `get_param(name)` (gallery.rb:79-81): the gallery file's value when it has the key, else the inherited one. */
  function GetParam(h: Handler, name: string): (v: Value)
    ensures name in h.fileData ==> v == h.fileData[name]
    ensures name !in h.fileData ==> v == Get(h.params, name)
  {
    if name in h.fileData then h.fileData[name] else Get(h.params, name)
  }

  /** Without an entry in the gallery file, every declared parameter has its declared default. */
  lemma GetParamDefaults(fileData: RHash, name: string)
    requires name in Defaults() && name !in fileData
    ensures GetParam(Handler(fileData, Defaults()), name) == Defaults()[name]
  {
  }

  /** `[{'name'=>'content', 'format'=>'html'}]`, the default `blocks` of every page. */
  function DefaultBlocks(): Value {
    List([Hash(map["name" := Str("content"), "format" := Str("html")])])
  }

  // ---------------------------------------------------------------------
  // Names (gallery.rb:143-149)
  // ---------------------------------------------------------------------

  /** `gallery_file_name(title)` (gallery.rb:147-149); the title must be a string or `nil`. */
  function GalleryFileName(title: Value): Value
    requires title.Nil? || title.Str?
  {
    if title.Nil? then Nil else Str(SpacesAndDotsToUnderscores(title.s) + ".html")
  }

  /**
   * The file name of a title is `nil` exactly for a `nil` title; otherwise it
   * is the title with spaces and dots replaced by underscores, then `.html`.
   */
  lemma GalleryFileNameSpec(title: Value)
    requires title.Nil? || title.Str?
    ensures title.Nil? <==> GalleryFileName(title).Nil?
    ensures title.Str? ==> GalleryFileName(title).Str?
    ensures title.Str? ==>
              var r := GalleryFileName(title).s;
              && |r| == |title.s| + 5 && r[|title.s|..] == ".html"
              && (forall i :: 0 <= i < |title.s| ==> !IsSpaceOrDot(r[i]))
              && (forall i :: 0 <= i < |title.s| && !IsSpaceOrDot(title.s[i]) ==> r[i] == title.s[i])
  {
    if title.Str? {
      SpacesAndDotsSpec(title.s);
    }
  }

  /** `gallery_title(index)` (gallery.rb:143-145): the `title` parameter, a space and the index. */
  function GalleryTitle(h: Handler, index: Option<int>): (r: Value)
    requires index.Some? ==> GetParam(h, "title").Str?
    ensures index.None? <==> r.Nil?
    ensures index.Some? ==> r == Str(GetParam(h, "title").s + " " + IntToDecimal(index.value))
  {
    if index.None? then Nil else Str(GetParam(h, "title").s + " " + IntToDecimal(index.value))
  }

  // ---------------------------------------------------------------------
  // Sorting the images (gallery.rb:56-62)
  // ---------------------------------------------------------------------

  /**
   * The entries the model's comparator covers: none, or a hash whose
   * `orderInfo` is an integer or falsy and whose `title` is a string or
   * falsy. Mixing kinds Ruby cannot compare makes `<=>` return `nil` and
   * `sort!` raise; a Float `orderInfo`, which Ruby would compare with the
   * integers, is outside the model because `Value` has no floats.
   */
  predicate ImageEntryOk(fileData: RHash, image: string) {
    var e := Get(fileData, image);
    e.Nil? || (e.Hash? && Or(Get(e.entries, "orderInfo"), Int(0)).Int? && Or(Get(e.entries, "title"), Str(image)).Str?)
  }

  /** `aoi` of the comparator: the entry's `orderInfo`, 0 when there is no entry or no truthy value. */
  function OrderInfoOf(fileData: RHash, image: string): (oi: int)
    requires ImageEntryOk(fileData, image)
    ensures Get(fileData, image).Nil? ==> oi == 0
    ensures Get(fileData, image).Hash? && Truthy(Get(Get(fileData, image).entries, "orderInfo")) ==>
              Int(oi) == Get(Get(fileData, image).entries, "orderInfo")
    ensures Get(fileData, image).Hash? && !Truthy(Get(Get(fileData, image).entries, "orderInfo")) ==> oi == 0
  {
    var e := Get(fileData, image);
    if e.Nil? then 0 else Or(Get(e.entries, "orderInfo"), Int(0)).i
  }

  /** `atitle` of the comparator: the entry's `title`, the file name itself when there is none. */
  function SortTitleOf(fileData: RHash, image: string): (t: string)
    requires ImageEntryOk(fileData, image)
    ensures Get(fileData, image).Nil? ==> t == image
    ensures Get(fileData, image).Hash? && Truthy(Get(Get(fileData, image).entries, "title")) ==>
              Str(t) == Get(Get(fileData, image).entries, "title")
    ensures Get(fileData, image).Hash? && !Truthy(Get(Get(fileData, image).entries, "title")) ==> t == image
  {
    var e := Get(fileData, image);
    if e.Nil? then image else Or(Get(e.entries, "title"), Str(image)).s
  }

  /** The comparator returns a non-positive value: order info first, then title. */
  predicate SortsBefore(fileData: RHash, a: string, b: string)
    requires ImageEntryOk(fileData, a) && ImageEntryOk(fileData, b)
  {
    var aoi := OrderInfoOf(fileData, a);
    var boi := OrderInfoOf(fileData, b);
    if aoi == boi then StrLe(SortTitleOf(fileData, a), SortTitleOf(fileData, b)) else aoi < boi
  }

  /** Every image can be compared. */
  predicate AllEntriesOk(fileData: RHash, images: seq<string>) {
    forall i :: 0 <= i < |images| ==> ImageEntryOk(fileData, images[i])
  }

  /** `s` is in the comparator's order. */
  predicate Sorted(fileData: RHash, s: seq<string>)
    requires AllEntriesOk(fileData, s)
  {
    forall i, j :: 0 <= i < j < |s| ==> SortsBefore(fileData, s[i], s[j])
  }

  /** The comparator is total: of two images one sorts before the other. */
  lemma SortsBeforeTotal(fileData: RHash, a: string, b: string)
    requires ImageEntryOk(fileData, a) && ImageEntryOk(fileData, b)
    ensures SortsBefore(fileData, a, b) || SortsBefore(fileData, b, a)
  {
    StrLeTotal(SortTitleOf(fileData, a), SortTitleOf(fileData, b));
  }

  /** The comparator is transitive. */
  lemma SortsBeforeTransitive(fileData: RHash, a: string, b: string, c: string)
    requires ImageEntryOk(fileData, a) && ImageEntryOk(fileData, b) && ImageEntryOk(fileData, c)
    requires SortsBefore(fileData, a, b) && SortsBefore(fileData, b, c)
    ensures SortsBefore(fileData, a, c)
  {
    if OrderInfoOf(fileData, a) == OrderInfoOf(fileData, b) == OrderInfoOf(fileData, c) {
      StrLeTransitive(SortTitleOf(fileData, a), SortTitleOf(fileData, b), SortTitleOf(fileData, c));
    }
  }

  /** `x` inserted into the sorted `s` in front of the first element it sorts before. */
  function Insert(fileData: RHash, x: string, s: seq<string>): (r: seq<string>)
    requires ImageEntryOk(fileData, x) && AllEntriesOk(fileData, s) && Sorted(fileData, s)
    ensures multiset(r) == multiset(s) + multiset{x}
    ensures AllEntriesOk(fileData, r) && Sorted(fileData, r)
    decreases |s|
  {
    if s == [] then [x]
    else if SortsBefore(fileData, x, s[0]) then
      InsertFront(fileData, x, s);
      [x] + s
    else
      SortsBeforeTotal(fileData, x, s[0]);
      var rest := Insert(fileData, x, s[1..]);
      assert s == [s[0]] + s[1..];
      InsertBehind(fileData, s[0], rest, s[1..], x);
      [s[0]] + rest
  }

  /** Putting `x` in front of a sorted sequence whose first element it sorts before. */
  lemma InsertFront(fileData: RHash, x: string, s: seq<string>)
    requires ImageEntryOk(fileData, x) && AllEntriesOk(fileData, s) && Sorted(fileData, s)
    requires s != [] && SortsBefore(fileData, x, s[0])
    ensures AllEntriesOk(fileData, [x] + s) && Sorted(fileData, [x] + s)
  {
    var r := [x] + s;
    forall i, j | 0 <= i < j < |r|
      ensures SortsBefore(fileData, r[i], r[j])
    {
      if i == 0 && j > 1 {
        SortsBeforeTransitive(fileData, x, s[0], s[j - 1]);
      }
    }
  }

  /** Putting `y` in front of the sorted insertion result `rest`, when `y` sorts before all of it. */
  lemma InsertBehind(fileData: RHash, y: string, rest: seq<string>, s: seq<string>, x: string)
    requires ImageEntryOk(fileData, y) && ImageEntryOk(fileData, x)
    requires AllEntriesOk(fileData, s) && AllEntriesOk(fileData, rest)
    requires Sorted(fileData, rest) && multiset(rest) == multiset(s) + multiset{x}
    requires SortsBefore(fileData, y, x)
    requires forall k :: 0 <= k < |s| ==> SortsBefore(fileData, y, s[k])
    ensures AllEntriesOk(fileData, [y] + rest) && Sorted(fileData, [y] + rest)
  {
    var r := [y] + rest;
    forall j | 0 < j < |r|
      ensures SortsBefore(fileData, y, r[j])
    {
      var z := rest[j - 1];
      assert z in multiset(rest);
      if z != x {
        assert z in multiset(s);
        var k :| 0 <= k < |s| && s[k] == z;
      }
    }
  }

  /** `images.sort!` with the comparator of gallery.rb:56-62, as an insertion sort. */
  function SortImages(fileData: RHash, images: seq<string>): (r: seq<string>)
    requires AllEntriesOk(fileData, images)
    ensures multiset(r) == multiset(images) && |r| == |images|
    ensures AllEntriesOk(fileData, r) && Sorted(fileData, r)
    decreases |images|
  {
    if images == [] then []
    else
      assert images == [images[0]] + images[1..];
      Insert(fileData, images[0], SortImages(fileData, images[1..]))
  }

  // ---------------------------------------------------------------------
  // Image pages (gallery.rb:151-173)
  // ---------------------------------------------------------------------

  /** `(v || {})` is a hash: `v` is one or is falsy. */
  predicate HashOrFalsy(v: Value) {
    v.Hash? || !Truthy(v)
  }

  /** An image that can be compared has an entry that is `nil` or a hash. */
  lemma EntryOkIsHashOrFalsy(fileData: RHash, image: string)
    requires ImageEntryOk(fileData, image)
    ensures HashOrFalsy(Get(fileData, image))
  {
  }

  /** `(@filedata[image] || {})`: the gallery file's entry for `image`, as a hash. */
  function Entry(h: Handler, image: string): RHash {
    HashOrEmpty(Get(h.fileData, image))
  }

  /** The file name of the page for `image` (gallery.rb:162). */
  function ImageSrcName(h: Handler, image: string): Value
    requires GetParam(h, "title").Str?
  {
    GalleryFileName(Str(GetParam(h, "title").s + " " + Basename(image)))
  }

  /**
   * The assignments of gallery.rb:156-164 to the page for `image`, in
   * order. The last one falls back to what the default `get_thumbnail`
   * returns at that point: the `imageFilename` assigned three lines before
   * (`ThumbnailIsImage`).
   */
  function ImageRun(h: Handler, image: string): seq<Assignment>
    requires GetParam(h, "title").Str?
  {
    [
      OrAssignTo("blocks", DefaultBlocks()),
      OrAssignTo("title", Str("Image " + Basename(image))),
      OrAssignTo("description", Str("")),
      OrAssignTo("inMenu", GetParam(h, "imagePageInMenu")),
      OrAssignTo("template", GetParam(h, "imagePageTemplate")),
      AssignTo("imageFilename", Str(image)),
      AssignTo("srcName", ImageSrcName(h, image)),
      OrAssignTo("thumbnailSize", Get(h.fileData, "thumbnailSize")),
      OrAssignTo("thumbnail", Str(image))
    ]
  }

  /** The keys every image page sets. */
  function ImageKeys(): set<string> {
    {"blocks", "title", "description", "inMenu", "template", "imageFilename", "srcName", "thumbnailSize", "thumbnail"}
  }

  /** The meta information of the page for `image`: its entry after the assignments (gallery.rb:154-164). */
  function ImagePage(h: Handler, image: string): RHash
    requires GetParam(h, "title").Str?
  {
    Run(Entry(h, image), ImageRun(h, image))
  }

  /** The image page assignments touch distinct keys. */
  lemma ImageRunDistinct(h: Handler, image: string)
    requires GetParam(h, "title").Str?
    ensures DistinctKeys(ImageRun(h, image))
  {
    var r := ImageRun(h, image);
    assert r[0].key == "blocks" && r[1].key == "title" && r[2].key == "description";
    assert r[3].key == "inMenu" && r[4].key == "template" && r[5].key == "imageFilename";
    assert r[6].key == "srcName" && r[7].key == "thumbnailSize" && r[8].key == "thumbnail";
  }

  /** The image page assignments touch the page keys; only `imageFilename` and `srcName` are forced. */
  lemma ImageRunKeys(h: Handler, image: string)
    requires GetParam(h, "title").Str?
    ensures RunKeys(ImageRun(h, image)) == ImageKeys()
    ensures forall i :: 0 <= i < |ImageRun(h, image)| && ImageRun(h, image)[i].AssignTo? ==>
              ImageRun(h, image)[i].key in {"imageFilename", "srcName"}
  {
    var r := ImageRun(h, image);
    assert r[0].key == "blocks" && r[1].key == "title" && r[2].key == "description";
    assert r[3].key == "inMenu" && r[4].key == "template" && r[5].key == "imageFilename";
    assert r[6].key == "srcName" && r[7].key == "thumbnailSize" && r[8].key == "thumbnail";
  }

  /** The default `get_thumbnail` (gallery.rb:171-173): the image file the page records. */
  function GetThumbnail(imageData: RHash): (v: Value)
    ensures "imageFilename" in imageData ==> v == imageData["imageFilename"]
    ensures "imageFilename" !in imageData ==> v == Nil
  {
    Get(imageData, "imageFilename")
  }

  /** When gallery.rb:164 runs, the default `get_thumbnail` returns the image file. */
  lemma ThumbnailIsImage(h: Handler, image: string)
    requires GetParam(h, "title").Str?
    ensures GetThumbnail(Run(Entry(h, image), ImageRun(h, image)[..8])) == Str(image)
  {
    var r := ImageRun(h, image);
    ImageRunDistinct(h, image);
    RunPrefixAt(Entry(h, image), r, 8, 5);
  }

  /** The keys of the page for `image`: the entry's and the page keys; every other key of the entry is unchanged. */
  lemma ImagePageKeys(h: Handler, image: string)
    requires GetParam(h, "title").Str?
    ensures ImagePage(h, image).Keys == Entry(h, image).Keys + ImageKeys()
    ensures forall k :: k in Entry(h, image) && k !in ImageKeys() ==> ImagePage(h, image)[k] == Entry(h, image)[k]
  {
    ImageRunDistinct(h, image);
    ImageRunKeys(h, image);
    RunEffect(Entry(h, image), ImageRun(h, image));
  }

  /** The page for `image` records the image file, whatever the entry says. */
  lemma ImagePageFile(h: Handler, image: string)
    requires GetParam(h, "title").Str?
    ensures "imageFilename" in ImagePage(h, image) && ImagePage(h, image)["imageFilename"] == Str(image)
  {
    ImageRunDistinct(h, image);
    RunAt(Entry(h, image), ImageRun(h, image), 5);
  }

  /** The page for `image` gets the file name made from the gallery title and the image's base name, whatever the entry says. */
  lemma ImagePageName(h: Handler, image: string)
    requires GetParam(h, "title").Str?
    ensures "srcName" in ImagePage(h, image) && ImagePage(h, image)["srcName"] == ImageSrcName(h, image)
  {
    ImageRunDistinct(h, image);
    RunAt(Entry(h, image), ImageRun(h, image), 6);
  }

  /** On the page for `image`, a key other than `imageFilename` and `srcName` keeps a truthy value the entry gives it. */
  lemma ImagePageEntryWins(h: Handler, image: string)
    requires GetParam(h, "title").Str?
    ensures forall k :: k in Entry(h, image) && Truthy(Entry(h, image)[k]) && k != "imageFilename" && k != "srcName" ==>
              k in ImagePage(h, image) && ImagePage(h, image)[k] == Entry(h, image)[k]
  {
    var e, r := Entry(h, image), ImageRun(h, image);
    ImageRunDistinct(h, image);
    ImageRunKeys(h, image);
    forall k | k in e && Truthy(e[k]) && k != "imageFilename" && k != "srcName"
      ensures k in ImagePage(h, image) && ImagePage(h, image)[k] == e[k]
    {
      RunKeepsTruthy(e, r, k);
    }
  }

  /** On the page for `image`, a `||=` key the entry leaves falsy or out gets the value its assignment names. */
  lemma ImagePageDefaults(h: Handler, image: string)
    requires GetParam(h, "title").Str?
    ensures forall a :: a in ImageRun(h, image) && a.OrAssignTo? && !Truthy(Get(Entry(h, image), a.key)) ==>
              a.key in ImagePage(h, image) && ImagePage(h, image)[a.key] == a.value
  {
    var e, r := Entry(h, image), ImageRun(h, image);
    ImageRunDistinct(h, image);
    forall a | a in r && a.OrAssignTo? && !Truthy(Get(e, a.key))
      ensures a.key in ImagePage(h, image) && ImagePage(h, image)[a.key] == a.value
    {
      var i :| 0 <= i < |r| && r[i] == a;
      RunAt(e, r, i);
    }
  }

  /** What `create_image_pages` needs: a string title once there is an image, and entries that are hashes or falsy. */
  predicate ImagePagesOk(h: Handler, images: seq<string>) {
    && (images != [] ==> GetParam(h, "title").Str?)
    && forall i :: 0 <= i < |images| ==> HashOrFalsy(Get(h.fileData, images[i]))
  }

  /** `create_image_pages(images)` (gallery.rb:151-169): one page per image, in the images' order. */
  method CreateImagePages(h: Handler, images: seq<string>) returns (list: seq<RHash>)
    requires ImagePagesOk(h, images)
    ensures |list| == |images|
    ensures forall i :: 0 <= i < |images| ==> list[i] == ImagePage(h, images[i])
  {
    list := [];
    for i := 0 to |images|
      invariant |list| == i
      invariant forall j :: 0 <= j < i ==> list[j] == ImagePage(h, images[j])
    {
      list := list + [ImagePage(h, images[i])];
    }
  }

  /** The `imageFilename` of each page. */
  function ImageNames(list: seq<RHash>): seq<Value> {
    seq(|list|, i requires 0 <= i < |list| => Get(list[i], "imageFilename"))
  }

  /** The image file names as Ruby strings. */
  function Strs(images: seq<string>): seq<Value> {
    seq(|images|, i requires 0 <= i < |images| => Str(images[i]))
  }

  /** The image pages of a list of images record those images, in order. */
  lemma ImagePagesShow(h: Handler, images: seq<string>, list: seq<RHash>)
    requires images != [] ==> GetParam(h, "title").Str?
    requires |list| == |images| && forall i :: 0 <= i < |images| ==> list[i] == ImagePage(h, images[i])
    ensures ImageNames(list) == Strs(images)
  {
    forall i | 0 <= i < |images|
      ensures ImageNames(list)[i] == Strs(images)[i]
    {
      ImagePageFile(h, images[i]);
    }
  }

  /** `Strs` distributes over concatenation. */
  lemma StrsConcat(a: seq<string>, b: seq<string>)
    ensures Strs(a + b) == Strs(a) + Strs(b)
  {
  }

  // ---------------------------------------------------------------------
  // Gallery pages (gallery.rb:123-141)
  // ---------------------------------------------------------------------

  /**
   * A gallery page: its meta information and, apart from it, the value of
   * its `imageList` key, the image pages it shows.
   */
  datatype Page = Page(meta: RHash, imageList: seq<RHash>)

  /**
   * The inputs of `create_gallery_pages` this model covers: a positive integer
   * `imagesPerPage`; once there is an image, an integer `galleryOrderInfo`, a
   * string title and a `galleryPages` entry that is a hash or falsy; and image
   * entries that are hashes or falsy. Ruby also runs with some excluded values
   * (a negative or Float step, a Float `galleryOrderInfo`).
   */
  predicate PagesOk(h: Handler, images: seq<string>) {
    && GetParam(h, "imagesPerPage").Int? && GetParam(h, "imagesPerPage").i > 0
    && (images != [] ==> GetParam(h, "galleryOrderInfo").Int? && HashOrFalsy(Get(h.fileData, "galleryPages")))
    && ImagePagesOk(h, images)
  }

  /** `picsPerPage`. */
  function PerPage(h: Handler): int
    requires GetParam(h, "imagesPerPage").Int?
  {
    GetParam(h, "imagesPerPage").i
  }

  function Min(a: int, b: int): int {
    if a <= b then a else b
  }

  /** `(@filedata['galleryPages'] || {})`: the gallery file's template for gallery pages, as a hash. */
  function GalleryTemplate(h: Handler): RHash {
    HashOrEmpty(Get(h.fileData, "galleryPages"))
  }

  /**
   * The assignments of gallery.rb:129-135 to gallery page `number`, in
   * order. Where the source reads back `data['number']` or `data['title']`,
   * the value the statement before it assigned stands in its place.
   */
  function GalleryRun(h: Handler, number: int): seq<Assignment>
    requires GetParam(h, "galleryOrderInfo").Int? && GetParam(h, "title").Str?
  {
    [
      OrAssignTo("blocks", DefaultBlocks()),
      OrAssignTo("template", GetParam(h, "galleryPageTemplate")),
      OrAssignTo("inMenu", GetParam(h, "galleryPageInMenu")),
      AssignTo("number", Int(number)),
      AssignTo("orderInfo", Int(GetParam(h, "galleryOrderInfo").i + number)),
      AssignTo("title", GalleryTitle(h, Some(number))),
      AssignTo("srcName", GalleryFileName(GalleryTitle(h, Some(number))))
    ]
  }

  /** The keys every gallery page sets, besides `imageList`. */
  function GalleryKeys(): set<string> {
    {"blocks", "template", "inMenu", "number", "orderInfo", "title", "srcName"}
  }

  /** The meta information of gallery page `number`: the template after the assignments, less `imageList` (gallery.rb:127-136). */
  function GalleryMeta(h: Handler, number: int): RHash
    requires GetParam(h, "galleryOrderInfo").Int? && GetParam(h, "title").Str?
  {
    Run(GalleryTemplate(h), GalleryRun(h, number)) - {"imageList"}
  }

  /** The gallery page assignments touch distinct keys. */
  lemma GalleryRunDistinct(h: Handler, number: int)
    requires GetParam(h, "galleryOrderInfo").Int? && GetParam(h, "title").Str?
    ensures DistinctKeys(GalleryRun(h, number))
  {
    var r := GalleryRun(h, number);
    assert r[0].key == "blocks" && r[1].key == "template" && r[2].key == "inMenu";
    assert r[3].key == "number" && r[4].key == "orderInfo" && r[5].key == "title" && r[6].key == "srcName";
  }

  /** The gallery page assignments touch the page keys; the first three are `||=`, the rest forced. */
  lemma GalleryRunKeys(h: Handler, number: int)
    requires GetParam(h, "galleryOrderInfo").Int? && GetParam(h, "title").Str?
    ensures RunKeys(GalleryRun(h, number)) == GalleryKeys()
    ensures forall i :: 0 <= i < |GalleryRun(h, number)| ==> (GalleryRun(h, number)[i].OrAssignTo? <==> i < 3)
  {
    var r := GalleryRun(h, number);
    assert r[0].key == "blocks" && r[1].key == "template" && r[2].key == "inMenu";
    assert r[3].key == "number" && r[4].key == "orderInfo" && r[5].key == "title" && r[6].key == "srcName";
  }

  /** The keys of gallery page `number`: those of `galleryPages` and the page keys, without `imageList`. */
  lemma GalleryMetaKeys(h: Handler, number: int)
    requires GetParam(h, "galleryOrderInfo").Int? && GetParam(h, "title").Str?
    ensures GalleryMeta(h, number).Keys == (GalleryTemplate(h).Keys + GalleryKeys()) - {"imageList"}
  {
    GalleryRunDistinct(h, number);
    GalleryRunKeys(h, number);
    RunEffect(GalleryTemplate(h), GalleryRun(h, number));
  }

  /** A key of `galleryPages` that gallery pages neither set nor drop is copied to every gallery page. */
  lemma GalleryMetaCopies(h: Handler, number: int)
    requires GetParam(h, "galleryOrderInfo").Int? && GetParam(h, "title").Str?
    ensures forall k :: k in GalleryTemplate(h) && k !in GalleryKeys() && k != "imageList" ==>
              k in GalleryMeta(h, number) && GalleryMeta(h, number)[k] == GalleryTemplate(h)[k]
  {
    GalleryRunDistinct(h, number);
    GalleryRunKeys(h, number);
    RunEffect(GalleryTemplate(h), GalleryRun(h, number));
  }

  /** `blocks`, `template` and `inMenu` of a gallery page: the `galleryPages` value when truthy, else the default. */
  lemma GalleryMetaDefaults(h: Handler, number: int)
    requires GetParam(h, "galleryOrderInfo").Int? && GetParam(h, "title").Str?
    ensures "blocks" in GalleryMeta(h, number) && GalleryMeta(h, number)["blocks"] == Or(Get(GalleryTemplate(h), "blocks"), DefaultBlocks())
    ensures "template" in GalleryMeta(h, number) && GalleryMeta(h, number)["template"] == Or(Get(GalleryTemplate(h), "template"), GetParam(h, "galleryPageTemplate"))
    ensures "inMenu" in GalleryMeta(h, number) && GalleryMeta(h, number)["inMenu"] == Or(Get(GalleryTemplate(h), "inMenu"), GetParam(h, "galleryPageInMenu"))
  {
    var g, r := GalleryTemplate(h), GalleryRun(h, number);
    GalleryRunDistinct(h, number);
    RunAt(g, r, 0);
    RunAt(g, r, 1);
    RunAt(g, r, 2);
  }

  /** Gallery page `number` records its number and the order info `galleryOrderInfo + number`, whatever `galleryPages` says. */
  lemma GalleryMetaNumber(h: Handler, number: int)
    requires GetParam(h, "galleryOrderInfo").Int? && GetParam(h, "title").Str?
    ensures "number" in GalleryMeta(h, number) && GalleryMeta(h, number)["number"] == Int(number)
    ensures "orderInfo" in GalleryMeta(h, number) && GalleryMeta(h, number)["orderInfo"] == Int(GetParam(h, "galleryOrderInfo").i + number)
  {
    var g, r := GalleryTemplate(h), GalleryRun(h, number);
    GalleryRunDistinct(h, number);
    RunAt(g, r, 3);
    RunAt(g, r, 4);
  }

  /** Gallery page `number` gets the numbered title and the file name made from it, whatever `galleryPages` says. */
  lemma GalleryMetaTitle(h: Handler, number: int)
    requires GetParam(h, "galleryOrderInfo").Int? && GetParam(h, "title").Str?
    ensures "title" in GalleryMeta(h, number) && GalleryMeta(h, number)["title"] == GalleryTitle(h, Some(number))
    ensures "srcName" in GalleryMeta(h, number) && GalleryMeta(h, number)["srcName"] == GalleryFileName(GalleryTitle(h, Some(number)))
  {
    var g, r := GalleryTemplate(h), GalleryRun(h, number);
    GalleryRunDistinct(h, number);
    RunAt(g, r, 5);
    RunAt(g, r, 6);
  }

  /**
   * What gallery page `k` (counting from 0) holds: the meta information of
   * page number `k + 1` and, as images, the pages of images `k * p` up to,
   * not including, `(k + 1) * p`, as far as they exist (gallery.rb:136).
   */
  predicate GalleryPageOk(h: Handler, images: seq<string>, k: nat, pg: Page)
    requires PagesOk(h, images)
  {
    var p := PerPage(h);
    && PageStart(k, p) < |images|
    && pg.meta == GalleryMeta(h, k + 1)
    && |pg.imageList| == Min(p, |images| - PageStart(k, p))
    && forall j :: 0 <= j < |pg.imageList| ==> pg.imageList[j] == ImagePage(h, images[PageStart(k, p) + j])
  }

  /** The body of the loop in `create_gallery_pages` for the page starting at image `i` (gallery.rb:127-136). */
  method MakeGalleryPage(h: Handler, images: seq<string>, i: nat) returns (pg: Page)
    requires PagesOk(h, images) && i < |images| && i % PerPage(h) == 0
    ensures GalleryPageOk(h, images, i / PerPage(h), pg)
  {
    var p := PerPage(h);
    var number := i / p + 1;
    var d := GalleryMeta(h, number);
    var chunk := images[i..Min(i + p - 1 + 1, |images|)];
    assert forall j :: 0 <= j < |chunk| ==> chunk[j] == images[i + j];
    var list := CreateImagePages(h, chunk);
    pg := Page(d, list);
    DivExact(i, p);
  }

  /** `create_gallery_pages(images)` (gallery.rb:123-141): pages of `imagesPerPage` images, numbered from 1. */
  method CreateGalleryPages(h: Handler, images: seq<string>) returns (pages: seq<Page>)
    requires PagesOk(h, images)
    ensures |pages| == (|images| + PerPage(h) - 1) / PerPage(h)
    ensures forall k :: 0 <= k < |pages| ==> GalleryPageOk(h, images, k, pages[k])
  {
    var p := PerPage(h);
    pages := [];
    var i := 0;
    while i <= |images| - 1
      invariant i == PageStart(|pages|, p)
      invariant pages != [] ==> i - p < |images|
      invariant forall k :: 0 <= k < |pages| ==> GalleryPageOk(h, images, k, pages[k])
      decreases |images| - i
    {
      MulDiv(|pages|, p);
      var pg := MakeGalleryPage(h, images, i);
      PageStartNext(|pages|, p);
      pages := pages + [pg];
      i := i + p;
    }
    DivUnique(|images| + p - 1, p, |pages|, |images| + p - 1 - i);
  }

  lemma MulAtLeast(a: int, p: int)
    requires a >= 1 && p > 0
    ensures a * p >= p
  {
  }

  /** Division is determined by a quotient and remainder decomposition. */
  lemma DivUnique(x: int, p: int, q: int, r: int)
    requires p > 0 && 0 <= r < p && x == q * p + r
    ensures x / p == q
  {
    var q', r' := x / p, x % p;
    assert x == q' * p + r' && 0 <= r' < p;
    assert (q - q') * p == r' - r;
    if q - q' >= 1 {
      MulAtLeast(q - q', p);
    } else if q' - q >= 1 {
      MulAtLeast(q' - q, p);
    }
  }

  lemma DivExact(i: nat, p: nat)
    requires p > 0 && i % p == 0
    ensures PageStart(i / p, p) == i
  {
  }

  lemma MulDiv(k: nat, p: nat)
    requires p > 0
    ensures PageStart(k, p) / p == k && PageStart(k, p) % p == 0
  {
    DivUnique(k * p, p, k, 0);
  }

  /** The images of all pages, page after page. */
  function AllImageNames(pages: seq<Page>): seq<Value> {
    if pages == [] then [] else ImageNames(pages[0].imageList) + AllImageNames(pages[1..])
  }

  /**
   * Page `k` of a pagination of `images` into pages of `p` shows, in order,
   * the images from `k * p` on, `p` of them or as many as remain.
   */
  predicate PageShows(images: seq<string>, p: nat, k: nat, pg: Page) {
    && PageStart(k, p) < |images|
    && |pg.imageList| == Min(p, |images| - PageStart(k, p))
    && ImageNames(pg.imageList) == Strs(images[PageStart(k, p)..PageStart(k, p) + |pg.imageList|])
  }

  /** A gallery page shows the images it was built from. */
  lemma GalleryPageShows(h: Handler, images: seq<string>, k: nat, pg: Page)
    requires PagesOk(h, images) && GalleryPageOk(h, images, k, pg)
    ensures PageShows(images, PerPage(h), k, pg)
  {
    var lo, n := PageStart(k, PerPage(h)), |pg.imageList|;
    var chunk := images[lo..lo + n];
    assert forall j :: 0 <= j < n ==> chunk[j] == images[lo + j];
    ImagePagesShow(h, chunk, pg.imageList);
  }

  /** The pages from page `k` on show the images from `k * p` on, in order. */
  lemma {:induction false} PagesShowImagesFrom(images: seq<string>, p: nat, pages: seq<Page>, k: nat)
    requires p > 0 && k <= |pages| && |pages| == (|images| + p - 1) / p
    requires forall m :: 0 <= m < |pages| ==> PageShows(images, p, m, pages[m])
    ensures AllImageNames(pages[k..]) == Strs(images[Min(PageStart(k, p), |images|)..])
    decreases |pages| - k
  {
    LastPageReachesEnd(|images|, p, |pages|);
    if k == |pages| {
      assert images[Min(PageStart(k, p), |images|)..] == [];
    } else {
      PagesShowImagesFrom(images, p, pages, k + 1);
      PageThenRest(images, p, pages, k);
    }
  }

  /** If the pages after page `k` show the images after it, so do the pages from page `k` on. */
  lemma PageThenRest(images: seq<string>, p: nat, pages: seq<Page>, k: nat)
    requires p > 0 && k < |pages| && |images| <= PageStart(|pages|, p)
    requires PageShows(images, p, k, pages[k])
    requires k + 1 < |pages| ==> PageShows(images, p, k + 1, pages[k + 1])
    requires AllImageNames(pages[k + 1..]) == Strs(images[Min(PageStart(k + 1, p), |images|)..])
    ensures AllImageNames(pages[k..]) == Strs(images[Min(PageStart(k, p), |images|)..])
  {
    var pg := pages[k];
    var lo, hi := PageStart(k, p), PageStart(k, p) + |pg.imageList|;
    PageStartNext(k, p);
    assert pages[k..] == [pg] + pages[k + 1..];
    assert Min(PageStart(k + 1, p), |images|) == hi;
    assert images[lo..] == images[lo..hi] + images[hi..];
    StrsConcat(images[lo..hi], images[hi..]);
  }

  /** The index of the first image of page `k` (counting from 0) with `p` images per page. */
  function PageStart(k: nat, p: nat): nat {
    k * p
  }

  lemma PageStartNext(k: nat, p: nat)
    ensures PageStart(k + 1, p) == PageStart(k, p) + p
  {
  }

  /** With `ceil(n / p)` pages of `p`, the pages reach the last image. */
  lemma LastPageReachesEnd(n: nat, p: int, count: nat)
    requires p > 0 && count == (n + p - 1) / p
    ensures n <= count * p
    ensures count > 0 ==> (count - 1) * p < n
  {
    var r := (n + p - 1) % p;
    assert n + p - 1 == count * p + r;
    if count > 0 {
      assert (count - 1) * p == count * p - p;
    }
  }

  /**
   * The pagination of `create_gallery_pages`: `ceil(n / p)` pages, every
   * page but the last holding exactly `p` images and the last at least one,
   * and the pages together showing every image once, in order.
   */
  lemma Pagination(h: Handler, images: seq<string>, pages: seq<Page>)
    requires PagesOk(h, images)
    requires |pages| == (|images| + PerPage(h) - 1) / PerPage(h)
    requires forall k :: 0 <= k < |pages| ==> GalleryPageOk(h, images, k, pages[k])
    ensures pages == [] <==> images == []
    ensures forall k :: 0 <= k < |pages| ==> 0 < |pages[k].imageList| <= PerPage(h)
    ensures forall k :: 0 <= k < |pages| - 1 ==> |pages[k].imageList| == PerPage(h)
    ensures AllImageNames(pages) == Strs(images)
  {
    var p := PerPage(h);
    forall k | 0 <= k < |pages|
      ensures PageShows(images, p, k, pages[k])
    {
      GalleryPageShows(h, images, k, pages[k]);
    }
    PaginationShape(images, p, pages);
  }

  /** `Pagination` for pages known only by what they show. */
  lemma PaginationShape(images: seq<string>, p: nat, pages: seq<Page>)
    requires p > 0 && |pages| == (|images| + p - 1) / p
    requires forall k :: 0 <= k < |pages| ==> PageShows(images, p, k, pages[k])
    ensures pages == [] <==> images == []
    ensures forall k :: 0 <= k < |pages| ==> 0 < |pages[k].imageList| <= p
    ensures forall k :: 0 <= k < |pages| - 1 ==> |pages[k].imageList| == p
    ensures AllImageNames(pages) == Strs(images)
  {
    LastPageReachesEnd(|images|, p, |pages|);
    PagesShowImagesFrom(images, p, pages, 0);
    forall k | 0 <= k < |pages| - 1
      ensures |pages[k].imageList| == p
    {
      assert PageShows(images, p, k, pages[k]) && PageShows(images, p, k + 1, pages[k + 1]);
      PageStartNext(k, p);
    }
  }
}

=== FILE: gallery_nodes.dfy ===
/**
 * The pages a gallery file turns into (gallery.rb:47-121): the main page,
 * which `create_gallery` drops when there is exactly one gallery page, then
 * every gallery page followed by the pages of its images, each handed to
 * the page handler under its `srcName`.
 */
module GalleryNodes {
  import opened RubyValues
  import opened Gallery

  // ---------------------------------------------------------------------
  // The main page (gallery.rb:112-121)
  // ---------------------------------------------------------------------

  /**
   * What `create_main_page` needs: a title that is a string or `nil`, and a
   * `mainPage` entry that is a hash or falsy. An `imageList` that entry sets
   * must be a list of hashes, since with a single gallery page
   * `create_gallery` walks it as the page's image pages.
   */
  predicate MainOk(h: Handler) {
    && (GetParam(h, "title").Nil? || GetParam(h, "title").Str?)
    && HashOrFalsy(Get(h.fileData, "mainPage"))
    && ("imageList" in MainTemplate(h) ==> HashList(MainTemplate(h)["imageList"]))
  }

  /** `(@filedata['mainPage'] || {})`: the gallery file's settings for the main page, as a hash. */
  function MainTemplate(h: Handler): RHash {
    HashOrEmpty(Get(h.fileData, "mainPage"))
  }

  /** A Ruby array whose elements are all hashes. */
  predicate HashList(v: Value) {
    v.List? && forall i :: 0 <= i < |v.items| ==> v.items[i].Hash?
  }

  /** The hashes of such an array, in order. */
  function Hashes(v: Value): (r: seq<RHash>)
    requires HashList(v)
    ensures |r| == |v.items| && forall i :: 0 <= i < |r| ==> v.items[i] == Hash(r[i])
  {
    seq(|v.items|, i requires 0 <= i < |v.items| => v.items[i].entries)
  }

  /**
   * The assignments of gallery.rb:114-118 to the empty hash, in order; the
   * file name is made from the title assigned on the line before it.
   */
  function MainRun(h: Handler): seq<Assignment>
    requires MainOk(h)
  {
    [
      AssignTo("title", GetParam(h, "title")),
      AssignTo("inMenu", GetParam(h, "mainPageInMenu")),
      AssignTo("template", GetParam(h, "mainPageTemplate")),
      AssignTo("srcName", GalleryFileName(GetParam(h, "title"))),
      AssignTo("blocks", DefaultBlocks())
    ]
  }

  /** The keys the main page always has. */
  function MainKeys(): set<string> {
    {"title", "inMenu", "template", "srcName", "blocks"}
  }

  /** `create_main_page`: the assignments, then `update` with the gallery file's `mainPage` settings. */
  function MainPage(h: Handler): RHash
    requires MainOk(h)
  {
    Update(Run(map[], MainRun(h)), MainTemplate(h))
  }

  /** The main page assignments touch distinct keys. */
  lemma MainRunDistinct(h: Handler)
    requires MainOk(h)
    ensures DistinctKeys(MainRun(h))
  {
    var r := MainRun(h);
    assert r[0].key == "title" && r[1].key == "inMenu" && r[2].key == "template";
    assert r[3].key == "srcName" && r[4].key == "blocks";
  }

  /** The main page assignments touch the main page keys. */
  lemma MainRunKeys(h: Handler)
    requires MainOk(h)
    ensures RunKeys(MainRun(h)) == MainKeys()
  {
    var r := MainRun(h);
    assert r[0].key == "title" && r[1].key == "inMenu" && r[2].key == "template";
    assert r[3].key == "srcName" && r[4].key == "blocks";
    RunKeysCons(r);
  }

  /** The main page has the main page keys and the `mainPage` keys, and every `mainPage` setting wins. */
  lemma MainPageKeys(h: Handler)
    requires MainOk(h)
    ensures MainPage(h).Keys == MainKeys() + MainTemplate(h).Keys
    ensures forall k :: k in MainTemplate(h) ==> MainPage(h)[k] == MainTemplate(h)[k]
  {
    MainRunKeys(h);
    RunKeySet(map[], MainRun(h));
  }

  /**
   * Unless `mainPage` sets them, the main page's title is the `title`
   * parameter and its file name is made from that title.
   */
  lemma MainPageNames(h: Handler)
    requires MainOk(h)
    ensures "title" !in MainTemplate(h) ==> Get(MainPage(h), "title") == GetParam(h, "title")
    ensures "srcName" !in MainTemplate(h) ==> Get(MainPage(h), "srcName") == GalleryFileName(GetParam(h, "title"))
  {
    var r := MainRun(h);
    MainRunDistinct(h);
    RunAt(map[], r, 0);
    RunAt(map[], r, 3);
  }

  /** Unless `mainPage` sets them, the main page is in the menu as `mainPageInMenu` says, uses `mainPageTemplate` and the default blocks. */
  lemma MainPageSettings(h: Handler)
    requires MainOk(h)
    ensures "inMenu" !in MainTemplate(h) ==> Get(MainPage(h), "inMenu") == GetParam(h, "mainPageInMenu")
    ensures "template" !in MainTemplate(h) ==> Get(MainPage(h), "template") == GetParam(h, "mainPageTemplate")
    ensures "blocks" !in MainTemplate(h) ==> Get(MainPage(h), "blocks") == DefaultBlocks()
  {
    var r := MainRun(h);
    MainRunDistinct(h);
    RunAt(map[], r, 1);
    RunAt(map[], r, 2);
    RunAt(map[], r, 4);
  }

  // ---------------------------------------------------------------------
  // The pages handed to the page handler (gallery.rb:88-110)
  // ---------------------------------------------------------------------

  /**
   * Which layout a page gets (`call_layouter(:main | :gallery | :image, ...)`)
   * and its position: gallery index `gIndex`, image index `iIndex`.
   */
  datatype PageKind = MainKind | GalleryKind(gIndex: nat) | ImageKind(gIndex: nat, iIndex: nat)

  /** One `create_node_from_data` call: the kind of page, its `srcName` and the meta information it is laid out from. */
  datatype PageNode = PageNode(kind: PageKind, srcName: Value, meta: RHash)

  /** The node for gallery page `pg` at gallery index `g`. */
  function GalleryNode(g: nat, pg: Page): PageNode {
    PageNode(GalleryKind(g), Get(pg.meta, "srcName"), pg.meta)
  }

  /** The nodes for the image pages of the gallery at index `g`, in order (gallery.rb:105-108). */
  function ImageNodes(g: nat, list: seq<RHash>): seq<PageNode> {
    seq(|list|, i requires 0 <= i < |list| => PageNode(ImageKind(g, i), Get(list[i], "srcName"), list[i]))
  }

  /** The nodes for the gallery pages from index `g` on, each followed by its image pages (gallery.rb:102-109). */
  function PageNodes(pages: seq<Page>, g: nat): seq<PageNode>
    decreases |pages|
  {
    if pages == [] then []
    else [GalleryNode(g, pages[0])] + ImageNodes(g, pages[0].imageList) + PageNodes(pages[1..], g + 1)
  }

  /**
   * With exactly one gallery page, that page stands in for the main page: it
   * takes the main page's title and `inMenu`, then the `mainPage` settings
   * (gallery.rb:96-98). An `imageList` among those settings replaces the
   * page's own, and the image pages walked at gallery.rb:105 are its hashes.
   */
  function SinglePage(h: Handler, pg: Page, main: RHash): Page
    requires MainOk(h)
  {
    var list := if "imageList" in MainTemplate(h) then Hashes(MainTemplate(h)["imageList"]) else pg.imageList;
    Page(Update(pg.meta["title" := Get(main, "title")]["inMenu" := Get(main, "inMenu")], MainTemplate(h)), list)
  }

  /** Whether `mainPage` replaces the image pages of the gallery: it sets `imageList` and there is exactly one gallery page. */
  predicate MainListWins(h: Handler, pages: seq<Page>) {
    |pages| == 1 && "imageList" in MainTemplate(h)
  }

  /**
   * `create_gallery` given the gallery pages: the main hash as the layouts
   * see it and the nodes created, in order.
   */
  function CreateGallery(h: Handler, pages: seq<Page>): (RHash, seq<PageNode>)
    requires MainOk(h)
  {
    var main := MainPage(h);
    if |pages| != 1 then
      (main, [PageNode(MainKind, Get(main, "srcName"), main)] + PageNodes(pages, 0))
    else
      (main["pageNotUsed" := Bool(true)], PageNodes([SinglePage(h, pages[0], main)], 0))
  }

  // ---------------------------------------------------------------------
  // What the nodes show
  // ---------------------------------------------------------------------

  /** The image file of node `n`, if it is an image page. */
  function ImageFileOf(n: PageNode): seq<Value> {
    if n.kind.ImageKind? then [Get(n.meta, "imageFilename")] else []
  }

  /** The image files of the image pages among `ns`, in order. */
  function ImageFiles(ns: seq<PageNode>): seq<Value>
    decreases |ns|
  {
    if ns == [] then [] else ImageFileOf(ns[0]) + ImageFiles(ns[1..])
  }

  /** Node `n`, if it is a gallery page. */
  function GalleryOf(n: PageNode): seq<PageNode> {
    if n.kind.GalleryKind? then [n] else []
  }

  /** The gallery page nodes among `ns`, in order. */
  function Galleries(ns: seq<PageNode>): seq<PageNode>
    decreases |ns|
  {
    if ns == [] then [] else GalleryOf(ns[0]) + Galleries(ns[1..])
  }

  lemma {:induction false} ImageFilesConcat(a: seq<PageNode>, b: seq<PageNode>)
    ensures ImageFiles(a + b) == ImageFiles(a) + ImageFiles(b)
    decreases |a|
  {
    if a == [] {
      assert a + b == b;
    } else {
      var ab := a + b;
      assert ab[0] == a[0] && ab[1..] == a[1..] + b;
      ImageFilesConcat(a[1..], b);
      calc {
        ImageFiles(ab);
        ImageFileOf(a[0]) + ImageFiles(a[1..] + b);
        ImageFileOf(a[0]) + (ImageFiles(a[1..]) + ImageFiles(b));
        (ImageFileOf(a[0]) + ImageFiles(a[1..])) + ImageFiles(b);
      }
    }
  }

  lemma {:induction false} GalleriesConcat(a: seq<PageNode>, b: seq<PageNode>)
    ensures Galleries(a + b) == Galleries(a) + Galleries(b)
    decreases |a|
  {
    if a == [] {
      assert a + b == b;
    } else {
      var ab := a + b;
      assert ab[0] == a[0] && ab[1..] == a[1..] + b;
      GalleriesConcat(a[1..], b);
      calc {
        Galleries(ab);
        GalleryOf(a[0]) + Galleries(a[1..] + b);
        GalleryOf(a[0]) + (Galleries(a[1..]) + Galleries(b));
        (GalleryOf(a[0]) + Galleries(a[1..])) + Galleries(b);
      }
    }
  }

  /** Of nodes that are all image pages, every one contributes its image file and none is a gallery page. */
  lemma {:induction false} OnlyImages(ns: seq<PageNode>)
    requires forall i :: 0 <= i < |ns| ==> ns[i].kind.ImageKind?
    ensures ImageFiles(ns) == seq(|ns|, i requires 0 <= i < |ns| => Get(ns[i].meta, "imageFilename"))
    ensures Galleries(ns) == []
    decreases |ns|
  {
    if ns != [] {
      OnlyImages(ns[1..]);
    }
  }

  /** The image nodes of a gallery show its images, in order, and hold no gallery page. */
  lemma ImageNodesShow(g: nat, list: seq<RHash>)
    ensures ImageFiles(ImageNodes(g, list)) == ImageNames(list)
    ensures Galleries(ImageNodes(g, list)) == []
  {
    OnlyImages(ImageNodes(g, list));
  }

  /** One node per gallery page and one per image. */
  lemma {:induction false} PageNodesCount(pages: seq<Page>, g: nat)
    ensures |PageNodes(pages, g)| == |pages| + |AllImageNames(pages)|
    decreases |pages|
  {
    if pages != [] {
      PageNodesCount(pages[1..], g + 1);
    }
  }

  /** The image pages among the nodes show the images of all pages, in order. */
  lemma {:induction false} PageNodesImages(pages: seq<Page>, g: nat)
    ensures ImageFiles(PageNodes(pages, g)) == AllImageNames(pages)
    decreases |pages|
  {
    if pages != [] {
      var head, imgs, rest := [GalleryNode(g, pages[0])], ImageNodes(g, pages[0].imageList), PageNodes(pages[1..], g + 1);
      ImageFilesConcat(head + imgs, rest);
      ImageFilesConcat(head, imgs);
      ImageNodesShow(g, pages[0].imageList);
      PageNodesImages(pages[1..], g + 1);
    }
  }

  /** The gallery pages among the nodes for `pages`: the first page's node, then those for the rest. */
  lemma PageNodesGalleriesStep(pages: seq<Page>, g: nat)
    requires pages != []
    ensures Galleries(PageNodes(pages, g)) == [GalleryNode(g, pages[0])] + Galleries(PageNodes(pages[1..], g + 1))
  {
    var head, imgs, rest := [GalleryNode(g, pages[0])], ImageNodes(g, pages[0].imageList), PageNodes(pages[1..], g + 1);
    assert PageNodes(pages, g) == head + imgs + rest;
    GalleriesConcat(head + imgs, rest);
    GalleriesConcat(head, imgs);
    ImageNodesShow(g, pages[0].imageList);
    assert Galleries(head) == head;
  }

  /** The gallery pages among the nodes are the pages, in order, at the gallery indices from `g` on. */
  lemma {:induction false} PageNodesGalleries(pages: seq<Page>, g: nat)
    ensures |Galleries(PageNodes(pages, g))| == |pages|
    ensures forall i :: 0 <= i < |pages| ==> Galleries(PageNodes(pages, g))[i] == GalleryNode(g + i, pages[i])
    decreases |pages|
  {
    if pages != [] {
      PageNodesGalleriesStep(pages, g);
      PageNodesGalleries(pages[1..], g + 1);
      var gs, rs := Galleries(PageNodes(pages, g)), Galleries(PageNodes(pages[1..], g + 1));
      forall i | 0 < i < |pages|
        ensures gs[i] == GalleryNode(g + i, pages[i])
      {
        assert gs[i] == rs[i - 1];
        assert pages[1..][i - 1] == pages[i];
      }
    }
  }

  /** No node for the gallery pages is a main page. */
  lemma {:induction false} PageNodesNoMain(pages: seq<Page>, g: nat)
    ensures forall i :: 0 <= i < |PageNodes(pages, g)| ==> !PageNodes(pages, g)[i].kind.MainKind?
    decreases |pages|
  {
    if pages != [] {
      PageNodesNoMain(pages[1..], g + 1);
      var ns := PageNodes(pages, g);
      var n := 1 + |pages[0].imageList|;
      forall i | n <= i < |ns|
        ensures !ns[i].kind.MainKind?
      {
        assert ns[i] == PageNodes(pages[1..], g + 1)[i - n];
      }
    }
  }

  // ---------------------------------------------------------------------
  // What `create_gallery` promises
  // ---------------------------------------------------------------------

  /**
   * A main page node is created exactly when there is not exactly one
   * gallery page; it comes first, under the main page's `srcName`.
   */
  lemma CreateGalleryMainNode(h: Handler, pages: seq<Page>)
    requires MainOk(h)
    ensures forall i :: 0 <= i < |CreateGallery(h, pages).1| ==>
              (CreateGallery(h, pages).1[i].kind.MainKind? <==> i == 0 && |pages| != 1)
    ensures |pages| != 1 ==> CreateGallery(h, pages).1[0] == PageNode(MainKind, Get(MainPage(h), "srcName"), MainPage(h))
  {
    var main := MainPage(h);
    if |pages| != 1 {
      PageNodesNoMain(pages, 0);
      var ns := CreateGallery(h, pages).1;
      forall i | 0 < i < |ns|
        ensures !ns[i].kind.MainKind?
      {
        assert ns[i] == PageNodes(pages, 0)[i - 1];
      }
    } else {
      PageNodesNoMain([SinglePage(h, pages[0], main)], 0);
    }
  }

  /**
   * One node per gallery page and per image, and one more for the main page
   * unless there is exactly one gallery page; the images are those of the
   * `mainPage` list when it replaces the single page's own.
   */
  lemma CreateGalleryCount(h: Handler, pages: seq<Page>)
    requires MainOk(h)
    ensures !MainListWins(h, pages) ==>
              |CreateGallery(h, pages).1| == (if |pages| != 1 then 1 else 0) + |pages| + |AllImageNames(pages)|
    ensures MainListWins(h, pages) ==>
              |CreateGallery(h, pages).1| == 1 + |MainTemplate(h)["imageList"].items|
  {
    if |pages| != 1 {
      PageNodesCount(pages, 0);
    } else {
      var sp := SinglePage(h, pages[0], MainPage(h));
      PageNodesCount([sp], 0);
      assert AllImageNames([sp]) == ImageNames(sp.imageList) + AllImageNames([]);
      assert AllImageNames(pages) == ImageNames(pages[0].imageList) + AllImageNames(pages[1..]);
    }
  }

  /**
   * The image pages among the nodes show the images of all gallery pages, in
   * order, or the `mainPage` list when it replaces the single page's own.
   */
  lemma CreateGalleryImages(h: Handler, pages: seq<Page>)
    requires MainOk(h)
    ensures !MainListWins(h, pages) ==> ImageFiles(CreateGallery(h, pages).1) == AllImageNames(pages)
    ensures MainListWins(h, pages) ==>
              ImageFiles(CreateGallery(h, pages).1) == ImageNames(Hashes(MainTemplate(h)["imageList"]))
  {
    var main := MainPage(h);
    if |pages| != 1 {
      var m := [PageNode(MainKind, Get(main, "srcName"), main)];
      assert CreateGallery(h, pages).1 == m + PageNodes(pages, 0);
      ImageFilesConcat(m, PageNodes(pages, 0));
      PageNodesImages(pages, 0);
    } else {
      var sp := SinglePage(h, pages[0], main);
      assert CreateGallery(h, pages).1 == PageNodes([sp], 0);
      PageNodesImages([sp], 0);
      assert AllImageNames([sp]) == ImageNames(sp.imageList) + AllImageNames([]);
      assert AllImageNames(pages) == ImageNames(pages[0].imageList) + AllImageNames(pages[1..]);
    }
  }

  /** With other than one gallery page, every gallery page gets its node, in order, unchanged. */
  lemma CreateGalleryPagesKept(h: Handler, pages: seq<Page>)
    requires MainOk(h) && |pages| != 1
    ensures CreateGallery(h, pages).0 == MainPage(h)
    ensures |Galleries(CreateGallery(h, pages).1)| == |pages|
    ensures forall i :: 0 <= i < |pages| ==> Galleries(CreateGallery(h, pages).1)[i] == GalleryNode(i, pages[i])
  {
    var main := MainPage(h);
    var m := [PageNode(MainKind, Get(main, "srcName"), main)];
    GalleriesConcat(m, PageNodes(pages, 0));
    PageNodesGalleries(pages, 0);
  }

  /**
   * With exactly one gallery page, the main hash is marked as not used, and
   * the node of the single gallery page comes first, with the main page's
   * title and `inMenu`.
   */
  lemma CreateGallerySingle(h: Handler, pages: seq<Page>)
    requires MainOk(h) && |pages| == 1
    ensures CreateGallery(h, pages).0 == MainPage(h)["pageNotUsed" := Bool(true)]
    ensures CreateGallery(h, pages).1[0].kind == GalleryKind(0)
    ensures Get(CreateGallery(h, pages).1[0].meta, "title") == Get(MainPage(h), "title")
    ensures Get(CreateGallery(h, pages).1[0].meta, "inMenu") == Get(MainPage(h), "inMenu")
  {
    var main := MainPage(h);
    MainPageKeys(h);
    SingleNode(h, pages);
    SinglePageMeta(h, pages[0], main);
  }

  /**
   * With exactly one gallery page, its node carries every `mainPage`
   * setting and otherwise the gallery page's own meta information.
   */
  lemma CreateGallerySingleMeta(h: Handler, pages: seq<Page>)
    requires MainOk(h) && |pages| == 1
    ensures forall k :: k in MainTemplate(h) ==> Get(CreateGallery(h, pages).1[0].meta, k) == MainTemplate(h)[k]
    ensures forall k :: k in pages[0].meta && k !in MainTemplate(h) && k != "title" && k != "inMenu" ==>
              Get(CreateGallery(h, pages).1[0].meta, k) == pages[0].meta[k]
  {
    var main := MainPage(h);
    MainPageKeys(h);
    SingleNode(h, pages);
    SinglePageMeta(h, pages[0], main);
  }

  /** With exactly one gallery page, the first node is that page's node, standing in for the main page. */
  lemma SingleNode(h: Handler, pages: seq<Page>)
    requires MainOk(h) && |pages| == 1
    ensures CreateGallery(h, pages).1[0] == GalleryNode(0, SinglePage(h, pages[0], MainPage(h)))
  {
    var pg := SinglePage(h, pages[0], MainPage(h));
    assert CreateGallery(h, pages).1 == PageNodes([pg], 0);
  }

  /**
   * The page standing in for the main page: the main hash's title and
   * `inMenu`, every `mainPage` setting, and the page's own values otherwise.
   */
  lemma SinglePageMeta(h: Handler, pg: Page, main: RHash)
    requires MainOk(h)
    requires forall k :: k in MainTemplate(h) ==> k in main && main[k] == MainTemplate(h)[k]
    ensures Get(SinglePage(h, pg, main).meta, "title") == Get(main, "title")
    ensures Get(SinglePage(h, pg, main).meta, "inMenu") == Get(main, "inMenu")
    ensures forall k :: k in MainTemplate(h) ==> Get(SinglePage(h, pg, main).meta, k) == MainTemplate(h)[k]
    ensures forall k :: k in pg.meta && k !in MainTemplate(h) && k != "title" && k != "inMenu" ==>
              Get(SinglePage(h, pg, main).meta, k) == pg.meta[k]
  {
  }

  // ---------------------------------------------------------------------
  // `create_node` (gallery.rb:47-68)
  // ---------------------------------------------------------------------

  /** `mainPage` sets `imageList` and `n` images fill exactly one gallery page. */
  predicate MainListReplaces(h: Handler, n: nat)
    requires GetParam(h, "imagesPerPage").Int?
  {
    0 < n <= PerPage(h) && "imageList" in MainTemplate(h)
  }

  /** `0.step(n - 1, p)` makes exactly one gallery page when there are between 1 and `p` images. */
  lemma OnePage(n: nat, p: int)
    requires p > 0
    ensures (n + p - 1) / p == 1 <==> 0 < n <= p
  {
    if n == 0 {
      DivUnique(p - 1, p, 0, p - 1);
    } else if n <= p {
      DivUnique(n + p - 1, p, 1, n - 1);
    } else {
      var q, r := (n + p - 1) / p, (n + p - 1) % p;
      assert n + p - 1 == q * p + r && 0 <= r < p;
    }
  }

  /**
   * For the pages `create_gallery_pages` makes of `images`, the nodes show
   * the images in order; there is one per image, one per gallery page and,
   * first, one for the main page unless there is exactly one gallery page.
   * A single page whose images `mainPage` replaces shows that list instead.
   */
  lemma GalleryOfImages(h: Handler, images: seq<string>, pages: seq<Page>)
    requires PagesOk(h, images) && MainOk(h)
    requires |pages| == (|images| + PerPage(h) - 1) / PerPage(h)
    requires forall k :: 0 <= k < |pages| ==> GalleryPageOk(h, images, k, pages[k])
    ensures !MainListReplaces(h, |images|) ==> ImageFiles(CreateGallery(h, pages).1) == Strs(images)
    ensures !MainListReplaces(h, |images|) ==> |CreateGallery(h, pages).1| == (if |pages| != 1 then 1 else 0) + |pages| + |images|
    ensures MainListReplaces(h, |images|) ==>
              && ImageFiles(CreateGallery(h, pages).1) == ImageNames(Hashes(MainTemplate(h)["imageList"]))
              && |CreateGallery(h, pages).1| == 1 + |MainTemplate(h)["imageList"].items|
    ensures CreateGallery(h, pages).1 != [] && (CreateGallery(h, pages).1[0].kind.MainKind? <==> |pages| != 1)
  {
    OnePage(|images|, PerPage(h));
    assert MainListWins(h, pages) == MainListReplaces(h, |images|);
    Pagination(h, images, pages);
    CreateGalleryImages(h, pages);
    CreateGalleryCount(h, pages);
    CreateGalleryMainNode(h, pages);
  }

  /**
   * `create_node` for the parsed gallery file and the image files found: the
   * images in the comparator's order and the nodes created for them.
   */
  method CreateNode(h: Handler, images: seq<string>) returns (sorted: seq<string>, nodes: seq<PageNode>)
    requires AllEntriesOk(h.fileData, images) && PagesOk(h, images) && MainOk(h)
    ensures multiset(sorted) == multiset(images) && AllEntriesOk(h.fileData, sorted) && Sorted(h.fileData, sorted)
    ensures !MainListReplaces(h, |images|) ==> ImageFiles(nodes) == Strs(sorted)
    ensures !MainListReplaces(h, |images|) ==>
              |nodes| == (if (|images| + PerPage(h) - 1) / PerPage(h) != 1 then 1 else 0)
                         + (|images| + PerPage(h) - 1) / PerPage(h) + |images|
    ensures MainListReplaces(h, |images|) ==>
              && ImageFiles(nodes) == ImageNames(Hashes(MainTemplate(h)["imageList"]))
              && |nodes| == 1 + |MainTemplate(h)["imageList"].items|
    ensures nodes != [] && (nodes[0].kind.MainKind? <==> (|images| + PerPage(h) - 1) / PerPage(h) != 1)
  {
    sorted := SortImages(h.fileData, images);
    forall i | 0 <= i < |sorted|
      ensures HashOrFalsy(Get(h.fileData, sorted[i]))
    {
      EntryOkIsHashOrFalsy(h.fileData, sorted[i]);
    }
    assert |sorted| == |images|;
    var pages := CreateGalleryPages(h, sorted);
    GalleryOfImages(h, sorted, pages);
    nodes := CreateGallery(h, pages).1;
  }
}

=== FILE: nodes.dfy ===
/**
 * `Webgen::Node` construction and its queries (lib/webgen/node.rb): the
 * canonical name and language, the logical parent of nested fragments, the
 * absolute path, the absolute localized canonical name (ALCN), registration
 * under that ALCN, `node_info` and `changed?`.
 */
module Nodes {
  import opened Wrappers
  import opened RubyValues
  import opened RubyStrings
  import opened Paths
  import opened TreeState

  /** The ways `Node.new` can raise. */
  datatype NodeError =
    | FragmentUnderTree          // node.rb:119 sends `is_fragment?` to the tree, which has no such method
    | DuplicateAlcn(alcn: string) // node.rb:129-130

  /**
   * `Path.lcn(cn, lang)`, the localized canonical name. Its definition is not
   * part of this model, so every constructor call is given one.
   */
  type LcnFunction = (string, Value) -> string

  /** The reference `k` steps up the parent chain from `p` (the tree stays the tree). */
  function Up(t: Tree, p: ParentRef, k: nat): (r: ParentRef)
    requires WellFormed(t) && ParentExists(t, p)
    ensures ParentExists(t, r)
    decreases k
  {
    if k == 0 || p.TreeParent? then p
    else
      assert ParentOk(t, p.id);
      Up(t, t.nodes[p.id].parent, k - 1)
  }

  /** `p` is a node whose path is a fragment. */
  predicate IsFragmentRef(t: Tree, p: ParentRef)
    requires ParentExists(t, p)
  {
    p.NodeParent? && IsFragment(t.nodes[p.id].path)
  }

  /** The loop of node.rb:119 for a fragment node, starting at its parent `p`. */
  function NearestNonFragment(t: Tree, p: ParentRef): (r: Result<ParentRef, NodeError>)
    requires WellFormed(t) && ParentExists(t, p)
    ensures r.Ok? ==> r.value.NodeParent? && r.value.id in t.nodes && !IsFragment(t.nodes[r.value.id].path)
    ensures r.Err? ==> r.error == FragmentUnderTree
    decreases if p.NodeParent? then p.id + 1 else 0
  {
    match p
    case TreeParent => Err(FragmentUnderTree)
    case NodeParent(q) =>
      if IsFragment(t.nodes[q].path) then
        assert ParentOk(t, q);
        NearestNonFragment(t, t.nodes[q].parent)
      else Ok(p)
  }

  /**
   * The walk stops at the first ancestor that is not a fragment: it is `k`
   * steps up and every reference before it is a fragment node; the walk fails
   * exactly when that chain of fragments reaches the tree.
   */
  lemma {:induction false} NearestNonFragmentDepth(t: Tree, p: ParentRef) returns (k: nat)
    requires WellFormed(t) && ParentExists(t, p)
    ensures forall j :: 0 <= j < k ==> IsFragmentRef(t, Up(t, p, j))
    ensures NearestNonFragment(t, p).Ok? ==> Up(t, p, k) == NearestNonFragment(t, p).value
    ensures NearestNonFragment(t, p).Err? ==> Up(t, p, k) == TreeParent
    decreases if p.NodeParent? then p.id + 1 else 0
  {
    match p
    case TreeParent =>
      k := 0;
    case NodeParent(q) =>
      if IsFragment(t.nodes[q].path) {
        assert ParentOk(t, q);
        var k' := NearestNonFragmentDepth(t, t.nodes[q].parent);
        k := k' + 1;
        forall j | 0 <= j < k
          ensures IsFragmentRef(t, Up(t, p, j))
        {
          if j > 0 {
            assert Up(t, p, j) == Up(t, t.nodes[q].parent, j - 1);
          }
        }
      } else {
        k := 0;
      }
  }

  /** `loc_parent` of node.rb:117-119: the parent itself unless this node is a fragment. */
  function LogicalParent(t: Tree, parent: ParentRef, path: string): (r: Result<ParentRef, NodeError>)
    requires WellFormed(t) && ParentExists(t, parent)
    ensures !IsFragment(path) ==> r == Ok(parent)
    ensures r.Ok? ==> ParentExists(t, r.value)
    ensures IsFragment(path) && r.Ok? ==> r.value.NodeParent? && !IsFragment(t.nodes[r.value.id].path)
  {
    if IsFragment(path) then NearestNonFragment(t, parent) else Ok(parent)
  }

  /**
   * Fragment flattening: a fragment placed under a chain of `k` fragment nodes
   * has the same logical parent as if it were placed directly under the node at
   * the top of that chain.
   */
  lemma {:induction false} FragmentFlattening(t: Tree, p: ParentRef, k: nat, path: string)
    requires WellFormed(t) && ParentExists(t, p)
    requires IsFragment(path)
    requires forall j :: 0 <= j < k ==> IsFragmentRef(t, Up(t, p, j))
    ensures LogicalParent(t, p, path) == LogicalParent(t, Up(t, p, k), path)
    decreases k
  {
    if k > 0 {
      assert IsFragmentRef(t, Up(t, p, 0));
      assert ParentOk(t, p.id);
      var q := t.nodes[p.id].parent;
      forall j | 0 <= j < k - 1
        ensures IsFragmentRef(t, Up(t, q, j))
      {
        assert Up(t, p, j + 1) == Up(t, q, j);
      }
      FragmentFlattening(t, q, k - 1, path);
    }
  }

  /**
   * The node record `Node.new(parent, path, cn, meta_info)` builds before it
   * registers itself (node.rb:70-79, 111-127).
   */
  function Identify(t: Tree, parent: ParentRef, path: string, cn: Option<string>,
                    metaInfo: RHash, lcnOf: LcnFunction): (r: Result<NodeRec, NodeError>)
    requires WellFormed(t) && ParentExists(t, parent)
    ensures r.Err? <==> LogicalParent(t, parent, path).Err?
    ensures r.Err? ==> r.error == FragmentUnderTree
    ensures r.Ok? ==>
      var n := r.value;
      var lp := LogicalParent(t, parent, path).value;
      && n.parent == parent && n.path == path
      && n.dirty && n.created
      && n.cn == ChompSlash(cn.GetOr(path))
      && n.lang == Get(metaInfo, "lang")
      && n.metaInfo.Keys == metaInfo.Keys - {"lang"}
      && (forall k :: k in n.metaInfo ==> n.metaInfo[k] == metaInfo[k])
      && n.lcn == lcnOf(n.cn, n.lang)
      && (IsAbsoluteUrl(path) ==> n.absolutePath == path)
      && (!IsAbsoluteUrl(path) && lp.TreeParent? ==> n.absolutePath == "")
      && (!IsAbsoluteUrl(path) && lp.NodeParent? ==> n.absolutePath == t.nodes[lp.id].absolutePath + path)
      && (lp.TreeParent? ==> n.alcn == "")
      && (lp.NodeParent? ==>
            n.alcn == t.nodes[lp.id].alcn + (if IsDirectory(t.nodes[lp.id].path) then "/" else "") + n.lcn)
  {
    var cname := ChompSlash(cn.GetOr(path));
    var lang := Get(metaInfo, "lang");
    var lcn := lcnOf(cname, lang);
    match LogicalParent(t, parent, path)
    case Err(e) => Err(e)
    case Ok(lp) =>
      var absolutePath :=
        if IsAbsoluteUrl(path) then path
        else if lp.TreeParent? then ""
        else t.nodes[lp.id].absolutePath + path;
      var alcn :=
        if lp.TreeParent? then ""
        else t.nodes[lp.id].alcn + (if IsDirectory(t.nodes[lp.id].path) then "/" else "") + lcn;
      Ok(NodeRec(parent, path, cname, lang, lcn, absolutePath, alcn, metaInfo - {"lang"}, true, true))
  }

  /**
   * The registration step of `Node.new` (node.rb:129-135): fails if the ALCN is
   * already registered; otherwise the node gets the next identity, is
   * registered under its ALCN and is appended to its real parent's children
   * unless that parent is the tree. Nothing else changes, and a failure leaves
   * no trace in the tree.
   */
  function Register(t: Tree, n: NodeRec): (r: Result<(Tree, NodeId), NodeError>)
    requires WellFormed(t) && ParentExists(t, n.parent)
    ensures r.Err? <==> n.alcn in t.nodeAccess
    ensures r.Err? ==> r.error == DuplicateAlcn(n.alcn)
    ensures r.Ok? ==>
      var (u, id) := r.value;
      && id == t.nextId && id !in t.nodes && u.nextId == id + 1
      && u.nodes == t.nodes[id := n]
      && u.children == AddChild(t.children, n.parent, id)
      && u.nodeAccess == t.nodeAccess[n.alcn := id]
      && u.nodeInfo == t.nodeInfo && u.dummyRoot == t.dummyRoot
      && WellFormed(u)
  {
    if n.alcn in t.nodeAccess then
      Err(DuplicateAlcn(n.alcn))
    else
      RegisterWellFormed(t, n);
      Ok((Added(t, n), t.nextId))
  }

  /** The tree with `n` stored under the next identity and registered under its ALCN. */
  function Added(t: Tree, n: NodeRec): (u: Tree)
    requires WellFormed(t) && ParentExists(t, n.parent)
    ensures t.nextId !in t.nodes
    ensures u.nodes.Keys == t.nodes.Keys + {t.nextId} && u.nodes[t.nextId] == n
    ensures forall id :: id in t.nodes ==> u.nodes[id] == t.nodes[id]
    ensures u.nodeAccess.Keys == t.nodeAccess.Keys + {n.alcn} && u.nodeAccess[n.alcn] == t.nextId
    ensures u.nodeInfo == t.nodeInfo && u.dummyRoot == t.dummyRoot && u.nextId == t.nextId + 1
  {
    assert t.nextId !in t.nodes;
    Tree(t.nodes[t.nextId := n], AddChild(t.children, n.parent, t.nextId),
         t.nodeAccess[n.alcn := t.nextId], t.nodeInfo, t.dummyRoot, t.nextId + 1)
  }

  /**
   * The children arrays after node `id` is created: it starts with none, and
   * it is appended to its parent's array unless the parent is the tree
   * (`@parent.children << self unless @parent == @tree`).
   */
  function AddChild(children: map<NodeId, seq<NodeId>>, parent: ParentRef, id: NodeId): (r: map<NodeId, seq<NodeId>>)
    requires parent.NodeParent? ==> parent.id in children
    requires id !in children
    ensures r.Keys == children.Keys + {id} && r[id] == []
    ensures parent.NodeParent? ==> r[parent.id] == children[parent.id] + [id]
    ensures forall x :: x in children && parent != NodeParent(x) ==> r[x] == children[x]
  {
    if parent.NodeParent? then children[parent.id := children[parent.id] + [id]][id := []]
    else children[id := []]
  }

  /** The registration step keeps the structural invariant. */
  lemma RegisterWellFormed(t: Tree, n: NodeRec)
    requires WellFormed(t) && ParentExists(t, n.parent) && n.alcn !in t.nodeAccess
    ensures WellFormed(Added(t, n))
  {
    RegisterParentsOk(t, n);
    RegisterChildrenOk(t, n);
    RegisterAccessOk(t, n);
  }

  lemma RegisterAccessOk(t: Tree, n: NodeRec)
    requires WellFormed(t) && ParentExists(t, n.parent)
    ensures var u := Added(t, n);
      && (forall id :: id in u.nodes ==> id < u.nextId)
      && (forall k :: k in u.nodeAccess ==> u.nodeAccess[k] in u.nodes && u.nodes[u.nodeAccess[k]].alcn == k)
  {
  }

  lemma RegisterParentsOk(t: Tree, n: NodeRec)
    requires WellFormed(t) && ParentExists(t, n.parent)
    ensures var u := Added(t, n); forall x :: x in u.nodes ==> ParentOk(u, x)
  {
    var u := Added(t, n);
    forall x | x in u.nodes
      ensures ParentOk(u, x)
    {
      if x != t.nextId {
        assert ParentOk(t, x);
      }
    }
  }

  lemma RegisterChildrenOk(t: Tree, n: NodeRec)
    requires WellFormed(t) && ParentExists(t, n.parent)
    ensures var u := Added(t, n); u.children.Keys == u.nodes.Keys && forall x :: x in u.nodes ==> ChildrenOk(u, x)
  {
    var u := Added(t, n);
    forall x | x in u.nodes
      ensures ChildrenOk(u, x)
    {
      if x != t.nextId {
        AddChildKeepsChildrenOk(t, n, x);
      }
    }
  }

  /** Appending the new node to its parent's array keeps every older node's children well formed. */
  lemma AddChildKeepsChildrenOk(t: Tree, n: NodeRec, x: NodeId)
    requires WellFormed(t) && ParentExists(t, n.parent) && x in t.nodes
    ensures ChildrenOk(Added(t, n), x)
  {
    var id := t.nextId;
    var cs := t.children[x];
    assert ChildrenOk(t, x);
    if n.parent == NodeParent(x) {
      forall i, j | 0 <= i < j < |cs| + 1
        ensures (cs + [id])[i] != (cs + [id])[j]
      {
        if j == |cs| {
          assert cs[i] in cs;
        }
      }
    }
  }

  /** `Node.new(parent, path, cn, meta_info)` (node.rb:70-79, 111-135). */
  function Construct(t: Tree, parent: ParentRef, path: string, cn: Option<string>,
                     metaInfo: RHash, lcnOf: LcnFunction): (r: Result<(Tree, NodeId), NodeError>)
    requires WellFormed(t) && ParentExists(t, parent)
    ensures Identify(t, parent, path, cn, metaInfo, lcnOf).Err? ==> r == Err(FragmentUnderTree)
    ensures Identify(t, parent, path, cn, metaInfo, lcnOf).Ok? ==>
              r == Register(t, Identify(t, parent, path, cn, metaInfo, lcnOf).value)
    ensures r.Ok? ==> WellFormed(r.value.0)
  {
    match Identify(t, parent, path, cn, metaInfo, lcnOf)
    case Err(e) => Err(e)
    case Ok(n) => Register(t, n)
  }

  /**
   * Construction keeps the tree invariant: the dummy root stays the only node
   * under the tree and the only owner of the empty ALCN, and no dirty flag is
   * lost.
   */
  lemma ConstructKeepsValid(t: Tree, parent: ParentRef, path: string, cn: Option<string>,
                            metaInfo: RHash, lcnOf: LcnFunction)
    requires Valid(t) && ParentExists(t, parent)
    requires Construct(t, parent, path, cn, metaInfo, lcnOf).Ok?
    ensures Valid(Construct(t, parent, path, cn, metaInfo, lcnOf).value.0)
    ensures DirtyKept(t, Construct(t, parent, path, cn, metaInfo, lcnOf).value.0)
  {
    if parent.TreeParent? {
      ConstructUnderTreeFails(t, path, cn, metaInfo, lcnOf);
      assert false;
    }
    var n := Identify(t, parent, path, cn, metaInfo, lcnOf).value;
    assert Construct(t, parent, path, cn, metaInfo, lcnOf) == Register(t, n);
    RegisterKeepsValid(t, n);
  }

  /**
   * Once the dummy root exists, no further node can be constructed with the
   * tree as its parent: a fragment has no logical parent, and any other node
   * would take the empty ALCN, which the dummy root holds.
   */
  lemma ConstructUnderTreeFails(t: Tree, path: string, cn: Option<string>, metaInfo: RHash, lcnOf: LcnFunction)
    requires Valid(t)
    ensures Construct(t, TreeParent, path, cn, metaInfo, lcnOf).Err?
  {
  }

  /** Registering a node whose parent is a node keeps the tree invariant. */
  lemma RegisterKeepsValid(t: Tree, n: NodeRec)
    requires Valid(t) && ParentExists(t, n.parent) && n.parent.NodeParent?
    requires Register(t, n).Ok?
    ensures Valid(Register(t, n).value.0)
    ensures DirtyKept(t, Register(t, n).value.0)
  {
    var (u, id) := Register(t, n).value;
    AddKeepsValid(t, u, n, id);
  }

  lemma AddKeepsValid(t: Tree, u: Tree, n: NodeRec, id: NodeId)
    requires Valid(t) && WellFormed(u) && id !in t.nodes
    requires n.parent.NodeParent? && n.alcn != ""
    requires u.nodes == t.nodes[id := n] && u.nodeAccess == t.nodeAccess[n.alcn := id]
    requires u.dummyRoot == t.dummyRoot
    ensures Valid(u)
  {
  }

  /**
   * The new node's ALCN differs from the ALCN of every node registered before,
   * so in a tree built by construction no two registered nodes share an ALCN.
   * A corollary of `Register`'s failure condition and `WellFormed`, stated
   * as the property `node_access` is there to guarantee.
   */
  lemma ConstructKeepsAlcnsUnique(t: Tree, parent: ParentRef, path: string, cn: Option<string>,
                                  metaInfo: RHash, lcnOf: LcnFunction)
    requires WellFormed(t) && ParentExists(t, parent)
    requires Construct(t, parent, path, cn, metaInfo, lcnOf).Ok?
    ensures var (u, id) := Construct(t, parent, path, cn, metaInfo, lcnOf).value;
      && (forall k :: k in t.nodeAccess ==> t.nodes[t.nodeAccess[k]].alcn != u.nodes[id].alcn)
      && (forall k1, k2 :: k1 in u.nodeAccess && k2 in u.nodeAccess && k1 != k2 ==>
            u.nodeAccess[k1] != u.nodeAccess[k2])
  {
  }

  /**
   * The first node placed under the dummy root (path `dummy/`, ALCN empty)
   * receives the ALCN `"/" + lcn`: the empty ALCN belongs to the dummy root alone.
   * This holds for a fragment path too, since the dummy root is not a fragment
   * and so is its own nearest non-fragment ancestor.
   */
  lemma RootAlcn(t: Tree, path: string, cn: Option<string>, metaInfo: RHash, lcnOf: LcnFunction)
    requires Valid(t)
    requires Construct(t, NodeParent(t.dummyRoot), path, cn, metaInfo, lcnOf).Ok?
    ensures var (u, id) := Construct(t, NodeParent(t.dummyRoot), path, cn, metaInfo, lcnOf).value;
      u.nodes[id].alcn == "/" + u.nodes[id].lcn
  {
    var p := NodeParent(t.dummyRoot);
    DummyRootIsLogicalParent(t, path);
    var n := Identify(t, p, path, cn, metaInfo, lcnOf).value;
    assert n.alcn == t.nodes[t.dummyRoot].alcn + "/" + n.lcn;
    assert t.nodes[t.dummyRoot].alcn + "/" == "/";
    assert Construct(t, p, path, cn, metaInfo, lcnOf) == Register(t, n);
  }

  /** Every path placed under the dummy root, fragment or not, has it as its logical parent. */
  lemma DummyRootIsLogicalParent(t: Tree, path: string)
    requires WellFormed(t) && t.dummyRoot in t.nodes && t.nodes[t.dummyRoot].path == "dummy/"
    ensures LogicalParent(t, NodeParent(t.dummyRoot), path) == Ok(NodeParent(t.dummyRoot))
  {
    assert !IsFragment(t.nodes[t.dummyRoot].path);
  }

  /**
   * Nested fragments compose as direct children: a fragment constructed under
   * a chain of `k` fragment nodes gets the same absolute path and ALCN as the
   * same fragment constructed directly under the node at the top of the chain
   * (for `#b` under `#a` under a file F, `k` is 1 and the top is F).
   */
  lemma NestedFragmentIdentity(t: Tree, p: ParentRef, k: nat, path: string, cn: Option<string>,
                               metaInfo: RHash, lcnOf: LcnFunction)
    requires WellFormed(t) && ParentExists(t, p) && IsFragment(path)
    requires forall j :: 0 <= j < k ==> IsFragmentRef(t, Up(t, p, j))
    ensures var a := Identify(t, p, path, cn, metaInfo, lcnOf);
            var b := Identify(t, Up(t, p, k), path, cn, metaInfo, lcnOf);
      && (a.Ok? <==> b.Ok?)
      && (a.Ok? ==> a.value.absolutePath == b.value.absolutePath && a.value.alcn == b.value.alcn)
  {
    FragmentFlattening(t, p, k, path);
  }

  /**
   * `node_info`: the tree's entry under this node's ALCN, created as an empty
   * hash when missing or falsy; a truthy entry is returned as it is and nothing
   * changes (node.rb:82-84).
   */
  function NodeInfo(t: Tree, id: NodeId): (r: (Value, Tree))
    requires id in t.nodes
    ensures var (v, u) := r; var k := t.nodes[id].alcn;
      && k in u.nodeInfo && u.nodeInfo[k] == v && Truthy(v)
      && (k in t.nodeInfo && Truthy(t.nodeInfo[k]) ==> v == t.nodeInfo[k] && u == t)
      && (!(k in t.nodeInfo && Truthy(t.nodeInfo[k])) ==> v == Hash(map[]))
      && u == t.(nodeInfo := u.nodeInfo)
      && u.nodeInfo.Keys == t.nodeInfo.Keys + {k}
      && (forall j :: j in t.nodeInfo && j != k ==> u.nodeInfo[j] == t.nodeInfo[j])
  {
    var k := t.nodes[id].alcn;
    var info := OrAssign(t.nodeInfo, k, Hash(map[]));
    (info[k], t.(nodeInfo := info))
  }

  /** A second `node_info` call returns the same entry and changes nothing. */
  lemma NodeInfoIdempotent(t: Tree, id: NodeId)
    requires id in t.nodes
    ensures var (v, u) := NodeInfo(t, id);
      NodeInfo(u, id) == (v, u)
  {
  }

  /**
   * `changed?`: a dirty node answers `true` without consulting the observers;
   * otherwise the observers are asked (`observerMarksDirty` is whether one of
   * them set the flag) and the flag is returned. Only this node's flag can
   * change, and only from false to true (node.rb:42-44, 96-99).
   */
  function Changed(t: Tree, id: NodeId, observerMarksDirty: bool): (r: (bool, Tree))
    requires id in t.nodes
    ensures t.nodes[id].dirty ==> r == (true, t)
    ensures !t.nodes[id].dirty ==> r.0 == observerMarksDirty
    ensures id in r.1.nodes && r.0 == r.1.nodes[id].dirty
    ensures r.1 == t.(nodes := t.nodes[id := t.nodes[id].(dirty := r.0)])
    ensures DirtyKept(t, r.1)
  {
    if t.nodes[id].dirty then (true, t)
    else (observerMarksDirty, t.(nodes := t.nodes[id := t.nodes[id].(dirty := observerMarksDirty)]))
  }

  /** A dirty node's answer does not depend on the observers. */
  lemma ChangedIgnoresObserversWhenDirty(t: Tree, id: NodeId, a: bool, b: bool)
    requires id in t.nodes && t.nodes[id].dirty
    ensures Changed(t, id, a) == Changed(t, id, b)
  {
  }
}

=== FILE: paths.dfy ===
/**
 * Classification of node paths (lib/webgen/node.rb): directories end in a
 * slash, fragments start with a hash sign, everything else is a file; and the
 * `ABSOLUTE_URL` pattern `/^\w[a-zA-Z0-9+.-]*:/` that recognises a URL with a
 * scheme part (the scheme syntax of RFC 1738).
 */
module Paths {

  /** `is_directory?`: the last character is a slash. */
  predicate IsDirectory(p: string) {
    |p| > 0 && p[|p| - 1] == '/'
  }

  /** `is_fragment?`: the first character is a hash sign. */
  predicate IsFragment(p: string) {
    |p| > 0 && p[0] == '#'
  }

  /** `is_file?`: neither a directory nor a fragment. */
  predicate IsFile(p: string) {
    !IsDirectory(p) && !IsFragment(p)
  }

  /** Every path is a file, a directory or a fragment, and a file is neither of the others. */
  lemma ClassificationCovers(p: string)
    ensures IsFile(p) || IsDirectory(p) || IsFragment(p)
    ensures IsFile(p) ==> !IsDirectory(p) && !IsFragment(p)
    ensures p == [] ==> IsFile(p)
  {
  }

  /** The two tests are independent: a path such as `#top/` is both a directory and a fragment. */
  lemma DirectoryFragmentOverlap()
    ensures IsDirectory("#top/") && IsFragment("#top/") && !IsFile("#top/")
  {
  }

  /** Ruby's `\w`: an ASCII letter, digit or underscore. */
  predicate IsWordChar(c: char) {
    ('a' <= c <= 'z') || ('A' <= c <= 'Z') || ('0' <= c <= '9') || c == '_'
  }

  /** The class `[a-zA-Z0-9+.-]`. */
  predicate IsSchemeChar(c: char) {
    ('a' <= c <= 'z') || ('A' <= c <= 'Z') || ('0' <= c <= '9') || c == '+' || c == '.' || c == '-'
  }

  /** Ruby's `^`: the start of the string or the position just after a newline. */
  predicate IsLineStart(p: string, i: nat) {
    i == 0 || (i <= |p| && p[i - 1] == '\n')
  }

  /** `[a-zA-Z0-9+.-]*:` matches the text of `p` starting at `k`. */
  predicate SchemeTailAt(p: string, k: nat)
    decreases |p| - k
  {
    k < |p| && (p[k] == ':' || (IsSchemeChar(p[k]) && SchemeTailAt(p, k + 1)))
  }

  /** `\w[a-zA-Z0-9+.-]*:` matches the text of `p` starting at `i`. */
  predicate SchemeAt(p: string, i: nat) {
    i < |p| && IsWordChar(p[i]) && SchemeTailAt(p, i + 1)
  }

  /** The pattern matches at `i` or at some later position. */
  predicate MatchesFrom(p: string, i: nat)
    decreases |p| - i
  {
    i < |p| && ((IsLineStart(p, i) && SchemeAt(p, i)) || MatchesFrom(p, i + 1))
  }

  /** `p =~ ABSOLUTE_URL` (node.rb:109, 121). */
  predicate IsAbsoluteUrl(p: string) {
    MatchesFrom(p, 0)
  }

  /** The pattern, read declaratively: a line start, a word character, scheme characters, a colon. */
  ghost predicate SchemeMatch(p: string, i: int, j: int) {
    && 0 <= i < j < |p|
    && IsLineStart(p, i)
    && IsWordChar(p[i])
    && (forall k :: i < k < j ==> IsSchemeChar(p[k]))
    && p[j] == ':'
  }

  lemma {:induction false} SchemeTailWitness(p: string, k: nat) returns (j: int)
    requires SchemeTailAt(p, k)
    ensures k <= j < |p| && p[j] == ':'
    ensures forall m :: k <= m < j ==> IsSchemeChar(p[m])
    decreases |p| - k
  {
    if p[k] == ':' {
      j := k;
    } else {
      j := SchemeTailWitness(p, k + 1);
    }
  }

  lemma {:induction false} SchemeTailFromWitness(p: string, k: nat, j: int)
    requires k <= j < |p| && p[j] == ':'
    requires forall m :: k <= m < j ==> IsSchemeChar(p[m])
    ensures SchemeTailAt(p, k)
    decreases j - k
  {
    if k < j {
      SchemeTailFromWitness(p, k + 1, j);
    }
  }

  lemma {:induction false} MatchesFromSound(p: string, i: nat) returns (a: int, b: int)
    requires MatchesFrom(p, i)
    ensures i <= a && SchemeMatch(p, a, b)
    decreases |p| - i
  {
    if IsLineStart(p, i) && SchemeAt(p, i) {
      a := i;
      b := SchemeTailWitness(p, i + 1);
    } else {
      a, b := MatchesFromSound(p, i + 1);
    }
  }

  lemma {:induction false} MatchesFromComplete(p: string, i: nat, a: int, b: int)
    requires i <= a && SchemeMatch(p, a, b)
    ensures MatchesFrom(p, i)
    decreases |p| - i
  {
    if i == a {
      SchemeTailFromWitness(p, a + 1, b);
    } else {
      MatchesFromComplete(p, i + 1, a, b);
    }
  }

  /**
   * The matcher agrees with the pattern: `p` is an absolute URL exactly when some
   * line of it starts with a word character followed by scheme characters and a colon.
   */
  lemma AbsoluteUrlMeaning(p: string)
    ensures IsAbsoluteUrl(p) <==> exists a, b :: SchemeMatch(p, a, b)
  {
    if IsAbsoluteUrl(p) {
      var a, b := MatchesFromSound(p, 0);
    }
    if exists a, b :: SchemeMatch(p, a, b) {
      var a, b :| SchemeMatch(p, a, b);
      MatchesFromComplete(p, 0, a, b);
    }
  }

  /** For a path without newlines the pattern is anchored at the start of the path. */
  lemma SingleLineAbsoluteUrl(p: string)
    requires '\n' !in p
    ensures IsAbsoluteUrl(p) <==> SchemeAt(p, 0)
  {
    AbsoluteUrlMeaning(p);
    if IsAbsoluteUrl(p) {
      var a, b :| SchemeMatch(p, a, b);
      assert a == 0;
      SchemeTailFromWitness(p, 1, b);
    }
  }

  /** A one-line fragment path is never an absolute URL, since `#` is not a word character. */
  lemma FragmentIsNotAbsoluteUrl(p: string)
    requires IsFragment(p) && '\n' !in p
    ensures !IsAbsoluteUrl(p)
  {
    SingleLineAbsoluteUrl(p);
  }

  /** Examples of the pattern, including the line-anchored match after a newline. */
  lemma AbsoluteUrlExamples()
    ensures IsAbsoluteUrl("http://myhost.com/")
    ensures !IsAbsoluteUrl("dir/")
    ensures !IsAbsoluteUrl("#fragment")
    ensures IsAbsoluteUrl("a\nb:")
  {
    assert SchemeAt("http://myhost.com/", 0) by {
      assert SchemeTailAt("http://myhost.com/", 4);
    }
    SingleLineAbsoluteUrl("dir/");
    SingleLineAbsoluteUrl("#fragment");
    assert SchemeMatch("a\nb:", 2, 3);
    AbsoluteUrlMeaning("a\nb:");
  }
}

=== FILE: ruby_strings.dfy ===
/**
 * The Ruby `String` operations the modelled code uses: `chomp('/')`,
 * `tr(' .', '_')`, `Integer#to_s`, `File.basename` and `<=>`.
 */
module RubyStrings {

  /** `s.chomp('/')`: removes one trailing slash, if there is one. */
  function ChompSlash(s: string): (r: string)
    ensures |s| > 0 && s[|s| - 1] == '/' ==> r + "/" == s
    ensures !(|s| > 0 && s[|s| - 1] == '/') ==> r == s
  {
    if |s| > 0 && s[|s| - 1] == '/' then s[..|s| - 1] else s
  }

  /** True if `c` is one of the characters that `tr(' .', '_')` rewrites. */
  predicate IsSpaceOrDot(c: char) {
    c == ' ' || c == '.'
  }

  /** `s.tr(' .', '_')`: every space and every dot becomes an underscore. */
  function SpacesAndDotsToUnderscores(s: string): string {
    if s == [] then []
    else [if IsSpaceOrDot(s[0]) then '_' else s[0]] + SpacesAndDotsToUnderscores(s[1..])
  }

  /** `tr` keeps the length and rewrites exactly the spaces and dots. */
  lemma {:induction false} SpacesAndDotsSpec(s: string)
    ensures |SpacesAndDotsToUnderscores(s)| == |s|
    ensures forall i :: 0 <= i < |s| ==>
              SpacesAndDotsToUnderscores(s)[i] == (if IsSpaceOrDot(s[i]) then '_' else s[i])
  {
    if s != [] {
      SpacesAndDotsSpec(s[1..]);
    }
  }

  /** The decimal digit for `d`. */
  function DigitChar(d: nat): (c: char)
    requires d < 10
  {
    ['0', '1', '2', '3', '4', '5', '6', '7', '8', '9'][d]
  }

  predicate IsDigit(c: char) {
    '0' <= c <= '9'
  }

  /** The value of a decimal digit character. */
  function DigitValue(c: char): (d: nat)
    requires IsDigit(c)
    ensures d < 10
  {
    (c as int) - ('0' as int)
  }

  /** `n.to_s` for a non-negative integer: its shortest decimal spelling. */
  function NatToDecimal(n: nat): (r: string)
    ensures |r| > 0
    ensures forall i :: 0 <= i < |r| ==> IsDigit(r[i])
    ensures r[0] == '0' ==> n == 0 && r == "0"
    decreases n
  {
    if n < 10 then [DigitChar(n)] else NatToDecimal(n / 10) + [DigitChar(n % 10)]
  }

  /** The number a string of decimal digits denotes (most significant first). */
  function DecimalValue(s: string): nat
    requires forall i :: 0 <= i < |s| ==> IsDigit(s[i])
  {
    if s == [] then 0 else 10 * DecimalValue(s[..|s| - 1]) + DigitValue(s[|s| - 1])
  }

  /** Reading back the decimal spelling of `n` gives `n`. */
  lemma {:induction false} DecimalRoundTrip(n: nat)
    ensures DecimalValue(NatToDecimal(n)) == n
    decreases n
  {
    var r := NatToDecimal(n);
    if n >= 10 {
      DecimalRoundTrip(n / 10);
      assert r[..|r| - 1] == NatToDecimal(n / 10);
    }
  }

  /** Distinct numbers have distinct decimal spellings. */
  lemma DecimalInjective(m: nat, n: nat)
    ensures NatToDecimal(m) == NatToDecimal(n) ==> m == n
  {
    DecimalRoundTrip(m);
    DecimalRoundTrip(n);
  }

  /** `i.to_s` for any integer: a minus sign before the digits of a negative number. */
  function IntToDecimal(i: int): (r: string)
    ensures i >= 0 ==> r == NatToDecimal(i)
    ensures i < 0 ==> r == "-" + NatToDecimal(-i)
  {
    if i < 0 then "-" + NatToDecimal(-i) else NatToDecimal(i)
  }

  /** `s` with every trailing slash removed. */
  function StripTrailingSlashes(s: string): string {
    if |s| > 0 && s[|s| - 1] == '/' then StripTrailingSlashes(s[..|s| - 1]) else s
  }

  /** Stripping leaves a prefix that does not end in a slash and removes only slashes. */
  lemma {:induction false} StripTrailingSlashesSpec(s: string)
    ensures var r := StripTrailingSlashes(s);
      && |r| <= |s| && r == s[..|r|]
      && (|r| > 0 ==> r[|r| - 1] != '/')
      && (forall i :: |r| <= i < |s| ==> s[i] == '/')
  {
    if |s| > 0 && s[|s| - 1] == '/' {
      StripTrailingSlashesSpec(s[..|s| - 1]);
    }
  }

  /** The part of `s` after its last slash (all of `s` when it has none). */
  function AfterLastSlash(s: string): string {
    if s == [] then []
    else if s[|s| - 1] == '/' then []
    else AfterLastSlash(s[..|s| - 1]) + [s[|s| - 1]]
  }

  /** The part after the last slash is a slash-free suffix, preceded by a slash unless it is all of `s`. */
  lemma {:induction false} AfterLastSlashSpec(s: string)
    ensures var r := AfterLastSlash(s);
      && '/' !in r
      && |r| <= |s| && r == s[|s| - |r|..]
      && (|r| < |s| ==> s[|s| - |r| - 1] == '/')
  {
    if s != [] && s[|s| - 1] != '/' {
      var t := s[..|s| - 1];
      AfterLastSlashSpec(t);
      var r' := AfterLastSlash(t);
      assert s[|s| - |r'| - 1..] == r' + [s[|s| - 1]];
    }
  }

  /**
   * `File.basename(s)`: the last path component, ignoring trailing slashes;
   * `"/"` for a path made of slashes only and `""` for the empty path.
   */
  function Basename(s: string): string {
    if s == [] then []
    else
      var t := StripTrailingSlashes(s);
      if t == [] then "/" else AfterLastSlash(t)
  }

  /** The basename is slash-free, unless it is `"/"` for a path of slashes only. */
  lemma BasenameNoSlash(s: string)
    ensures Basename(s) != "/" ==> '/' !in Basename(s)
  {
    var t := StripTrailingSlashes(s);
    if s != [] && t != [] {
      AfterLastSlashSpec(t);
    }
  }

  /**
   * The basename of a path that is not all slashes is the last component of
   * the path stripped of trailing slashes: a suffix of it preceded by a
   * slash unless it is all of it.
   */
  lemma BasenameSuffix(s: string, t: string, r: string)
    requires t == StripTrailingSlashes(s) && t != [] && r == Basename(s)
    ensures |r| <= |t| && t[|t| - |r|..] == r
    ensures |r| < |t| ==> t[|t| - |r| - 1] == '/'
  {
    BasenameOfComponent(s);
    AfterLastSlashSpec(t);
  }

  /** For a path that is not all slashes, the basename is what follows the last slash once trailing slashes are stripped. */
  lemma BasenameOfComponent(s: string)
    requires StripTrailingSlashes(s) != []
    ensures Basename(s) == AfterLastSlash(StripTrailingSlashes(s))
  {
    assert s != [];
  }

  /** The basename of `""` is `""`, of a path without slashes the path, of a path of slashes `"/"`. */
  lemma BasenameSimple(s: string)
    ensures s == [] ==> Basename(s) == []
    ensures s != [] && '/' !in s ==> Basename(s) == s
    ensures s != [] && StripTrailingSlashes(s) == [] ==> Basename(s) == "/"
  {
    if s != [] && '/' !in s {
      assert StripTrailingSlashes(s) == s;
      AfterLastSlashNoSlash(s);
    }
  }

  /** Without a slash, the part after the last slash is everything. */
  lemma {:induction false} AfterLastSlashNoSlash(s: string)
    requires '/' !in s
    ensures AfterLastSlash(s) == s
  {
    if s != [] {
      assert '/' !in s[..|s| - 1];
      AfterLastSlashNoSlash(s[..|s| - 1]);
    }
  }

  /**
   * `a <=> b` is not positive: the lexicographic order on code points, in which a
   * proper prefix comes first (Ruby compares the UTF-8 bytes, which orders code
   * points the same way).
   */
  predicate StrLe(a: string, b: string) {
    |a| == 0 || (|b| > 0 && (a[0] < b[0] || (a[0] == b[0] && StrLe(a[1..], b[1..]))))
  }

  lemma {:induction false} StrLeReflexive(a: string)
    ensures StrLe(a, a)
  {
    if |a| > 0 {
      StrLeReflexive(a[1..]);
    }
  }

  lemma {:induction false} StrLeTotal(a: string, b: string)
    ensures StrLe(a, b) || StrLe(b, a)
  {
    if |a| > 0 && |b| > 0 && a[0] == b[0] {
      StrLeTotal(a[1..], b[1..]);
    }
  }

  lemma {:induction false} StrLeAntisymmetric(a: string, b: string)
    requires StrLe(a, b) && StrLe(b, a)
    ensures a == b
  {
    if |a| > 0 && |b| > 0 {
      StrLeAntisymmetric(a[1..], b[1..]);
      assert a == [a[0]] + a[1..];
      assert b == [b[0]] + b[1..];
    }
  }

  lemma {:induction false} StrLeTransitive(a: string, b: string, c: string)
    requires StrLe(a, b) && StrLe(b, c)
    ensures StrLe(a, c)
  {
    if |a| > 0 && |b| > 0 && |c| > 0 && a[0] == b[0] && b[0] == c[0] {
      StrLeTransitive(a[1..], b[1..], c[1..]);
    }
  }
}

=== FILE: ruby_values.dfy ===
/**
 * The part of Ruby's object model the modelled code relies on: the values a
 * YAML gallery file or a meta-info hash can hold, Ruby truthiness, and the
 * hash idioms `h[k]`, `a || b`, `h[k] ||= v` and `h.update(other)`.
 */
module RubyValues {

  /** A Ruby value as it appears in meta information and gallery data. */
  datatype Value =
    | Nil
    | Bool(b: bool)
    | Int(i: int)
    | Str(s: string)
    | List(items: seq<Value>)
    | Hash(entries: map<string, Value>)

  /** A Ruby `Hash` with string keys. */
  type RHash = map<string, Value>

  /** Ruby truthiness: only `nil` and `false` are false. */
  predicate Truthy(v: Value) {
    !(v.Nil? || v == Bool(false))
  }

  /** `h[k]` on a hash without a default block: `nil` for a missing key. */
  function Get(h: RHash, k: string): Value {
    if k in h then h[k] else Nil
  }

  /** `a || b`. */
  function Or(a: Value, b: Value): (r: Value)
    ensures Truthy(a) ==> r == a
    ensures !Truthy(a) ==> r == b
  {
    if Truthy(a) then a else b
  }

  /**
   * `h[k] ||= v`: the key keeps a truthy value; otherwise it is (re)done,
   * which also creates the key when it was missing, even if `v` is `nil`.
   */
  function OrAssign(h: RHash, k: string, v: Value): (r: RHash)
    ensures k in r && r[k] == Or(Get(h, k), v)
    ensures r.Keys == h.Keys + {k}
    ensures forall j :: j in h && j != k ==> r[j] == h[j]
  {
    if Truthy(Get(h, k)) then h else h[k := v]
  }

  /** One statement of a run of assignments to a hash: `h[key] ||= value` or `h[key] = value`. */
  datatype Assignment = OrAssignTo(key: string, value: Value) | AssignTo(key: string, value: Value)

  /** The hash after one assignment. */
  function Exec(h: RHash, a: Assignment): RHash {
    match a
    case OrAssignTo(k, v) => OrAssign(h, k, v)
    case AssignTo(k, v) => h[k := v]
  }

  /** The hash after the assignments of `run`, in order. */
  function Run(h: RHash, run: seq<Assignment>): RHash
    decreases |run|
  {
    if run == [] then h else Run(Exec(h, run[0]), run[1..])
  }

  /** The keys a run assigns. */
  function RunKeys(run: seq<Assignment>): set<string> {
    set i | 0 <= i < |run| :: run[i].key
  }

  /** No two assignments of the run share a key. */
  predicate DistinctKeys(run: seq<Assignment>) {
    forall i, j :: 0 <= i < j < |run| ==> run[i].key != run[j].key
  }

  /** The value an assignment leaves when its key has not been assigned before in the run. */
  function Final(e: RHash, a: Assignment): Value {
    match a
    case OrAssignTo(k, v) => Or(Get(e, k), v)
    case AssignTo(_, v) => v
  }

  /** The keys of a non-empty run: its first key and the keys of the rest. */
  lemma RunKeysCons(run: seq<Assignment>)
    requires run != []
    ensures RunKeys(run) == {run[0].key} + RunKeys(run[1..])
  {
    var rest := run[1..];
    forall k | k in RunKeys(run) ensures k in {run[0].key} + RunKeys(rest) {
      var i :| 0 <= i < |run| && run[i].key == k;
      if i > 0 {
        assert rest[i - 1] == run[i];
      }
    }
    forall k | k in RunKeys(rest) ensures k in RunKeys(run) {
      var i :| 0 <= i < |rest| && rest[i].key == k;
      assert run[i + 1] == rest[i];
    }
  }

  /** The rest of a run on distinct keys is one too, and does not assign the first key. */
  lemma DistinctKeysTail(run: seq<Assignment>)
    requires run != [] && DistinctKeys(run)
    ensures DistinctKeys(run[1..]) && run[0].key !in RunKeys(run[1..])
  {
    var rest := run[1..];
    forall i | 0 <= i < |rest| ensures rest[i] == run[i + 1] {
    }
  }

  /**
   * A run on distinct keys adds exactly its keys; each key ends up with the
   * value its own assignment leaves on the starting hash (`||=` keeps a
   * truthy value found there, `=` overrides it); every other key keeps its value.
   */
  lemma {:induction false} RunEffect(e: RHash, run: seq<Assignment>)
    requires DistinctKeys(run)
    ensures Run(e, run).Keys == e.Keys + RunKeys(run)
    ensures forall i :: 0 <= i < |run| ==> Run(e, run)[run[i].key] == Final(e, run[i])
    ensures forall k :: k in e && k !in RunKeys(run) ==> Run(e, run)[k] == e[k]
    decreases |run|
  {
    if run != [] {
      var e', rest := Exec(e, run[0]), run[1..];
      DistinctKeysTail(run);
      RunKeysCons(run);
      RunEffect(e', rest);
      forall i | 0 <= i < |run|
        ensures Run(e, run)[run[i].key] == Final(e, run[i])
      {
        if i > 0 {
          assert run[i] == rest[i - 1];
          assert Get(e', run[i].key) == Get(e, run[i].key);
        }
      }
    }
  }

  /** A run adds exactly the keys it assigns, whether or not they repeat. */
  lemma {:induction false} RunKeySet(e: RHash, run: seq<Assignment>)
    ensures Run(e, run).Keys == e.Keys + RunKeys(run)
    decreases |run|
  {
    if run != [] {
      RunKeysCons(run);
      RunKeySet(Exec(e, run[0]), run[1..]);
    }
  }

  /** One assignment of a run on distinct keys: its key ends up with the value it leaves. */
  lemma RunAt(e: RHash, run: seq<Assignment>, i: nat)
    requires DistinctKeys(run) && i < |run|
    ensures run[i].key in Run(e, run) && Run(e, run)[run[i].key] == Final(e, run[i])
  {
    RunEffect(e, run);
  }

  /** What a prefix of a run on distinct keys leaves for a key the prefix assigns. */
  lemma RunPrefixAt(e: RHash, run: seq<Assignment>, n: nat, i: nat)
    requires DistinctKeys(run) && i < n <= |run|
    ensures run[i].key in Run(e, run[..n]) && Run(e, run[..n])[run[i].key] == Final(e, run[i])
  {
    var pre := run[..n];
    assert forall j :: 0 <= j < n ==> pre[j] == run[j];
    RunAt(e, pre, i);
  }

  /**
   * A truthy value survives a run on distinct keys that assigns its key, if
   * at all, only with `||=`.
   */
  lemma RunKeepsTruthy(e: RHash, run: seq<Assignment>, k: string)
    requires DistinctKeys(run) && k in e && Truthy(e[k])
    requires forall i :: 0 <= i < |run| && run[i].key == k ==> run[i].OrAssignTo?
    ensures k in Run(e, run) && Run(e, run)[k] == e[k]
  {
    RunEffect(e, run);
    if k in RunKeys(run) {
      var i :| 0 <= i < |run| && run[i].key == k;
      assert Run(e, run)[run[i].key] == Final(e, run[i]);
    }
  }

  /** `h.update(other)`: every entry of `other` overrides the one in `h`. */
  function Update(h: RHash, other: RHash): (r: RHash)
    ensures r.Keys == h.Keys + other.Keys
    ensures forall k :: k in other ==> r[k] == other[k]
    ensures forall k :: k in h && k !in other ==> r[k] == h[k]
  {
    h + other
  }

  /**
   * The hash that `(v || {})` evaluates to for a value that the callers
   * require to be a hash or falsy.
   */
  function HashOrEmpty(v: Value): (r: RHash)
    ensures v.Hash? ==> r == v.entries
    ensures !Truthy(v) ==> r == map[]
  {
    if v.Hash? then v.entries else map[]
  }
}

=== FILE: tree_state.dfy ===
/**
 * The state a `Webgen::Tree` and its `Webgen::Node` objects share, as one
 * immutable record. Node objects live in a heap `nodes` indexed by identity,
 * and each node's `children` array in the map `children` under the same
 * identity; a node that has been deleted from the tree stays in the heap (as
 * the Ruby object would) but is no longer registered in `nodeAccess`.
 */
module TreeState {
  import opened RubyValues
  import opened Paths

  /** Object identity of a node. */
  type NodeId = nat

  /** What a node's `parent` points at: the tree itself (only the dummy root) or a node. */
  datatype ParentRef = TreeParent | NodeParent(id: NodeId)

  /** The instance variables of a `Webgen::Node` other than `children`. */
  datatype NodeRec = NodeRec(
    parent: ParentRef,
    path: string,
    cn: string,
    lang: Value,
    lcn: string,
    absolutePath: string,
    alcn: string,
    metaInfo: RHash,
    dirty: bool,
    created: bool)

  /**
   * The instance variables of a `Webgen::Tree`, together with the node heap
   * and the nodes' children arrays. `nextId` is the identity the next
   * constructed node receives.
   */
  datatype Tree = Tree(
    nodes: map<NodeId, NodeRec>,
    children: map<NodeId, seq<NodeId>>,
    nodeAccess: map<string, NodeId>,
    nodeInfo: map<string, Value>,
    dummyRoot: NodeId,
    nextId: NodeId)

  /** No element occurs twice. */
  predicate NoDup(s: seq<NodeId>) {
    forall i, j :: 0 <= i < j < |s| ==> s[i] != s[j]
  }

  /** `b` is no longer than `a` and keeps only elements of `a`. */
  predicate Shrunk(a: seq<NodeId>, b: seq<NodeId>) {
    |b| <= |a| && forall c :: c in b ==> c in a
  }

  /** `s` without the elements in `gone`, order kept (what repeated `Array#delete` leaves). */
  function Without(s: seq<NodeId>, gone: set<NodeId>): (r: seq<NodeId>)
    ensures Shrunk(s, r)
    ensures NoDup(s) ==> NoDup(r)
  {
    if s == [] then []
    else if s[0] in gone then Without(s[1..], gone)
    else
      var rest := Without(s[1..], gone);
      assert NoDup(s) ==> s[0] !in s[1..] && NoDup(s[1..]);
      assert forall j :: 0 <= j < |rest| ==> ([s[0]] + rest)[j + 1] == rest[j] && rest[j] in rest;
      [s[0]] + rest
  }

  /** An element survives `Without` exactly when it occurs and is not removed. */
  lemma {:induction false} WithoutMember(s: seq<NodeId>, gone: set<NodeId>, x: NodeId)
    ensures x in Without(s, gone) <==> x in s && x !in gone
  {
    if s != [] {
      WithoutMember(s[1..], gone, x);
      assert x in s <==> x == s[0] || x in s[1..];
    }
  }

  /** Removing elements that do not occur changes nothing. */
  lemma {:induction false} WithoutAbsent(s: seq<NodeId>, gone: set<NodeId>)
    requires forall x :: x in s ==> x !in gone
    ensures Without(s, gone) == s
  {
    if s != [] {
      WithoutAbsent(s[1..], gone);
      assert s == [s[0]] + s[1..];
    }
  }

  /** Removing in two rounds is removing the union. */
  lemma {:induction false} WithoutWithout(s: seq<NodeId>, a: set<NodeId>, b: set<NodeId>)
    ensures Without(Without(s, a), b) == Without(s, a + b)
  {
    if s != [] {
      WithoutWithout(s[1..], a, b);
    }
  }

  /** A parent or the tree itself exists. */
  predicate ParentExists(t: Tree, p: ParentRef) {
    p.NodeParent? ==> p.id in t.nodes
  }

  /** The parent of node `id` exists and was constructed before it. */
  predicate ParentOk(t: Tree, id: NodeId)
    requires id in t.nodes
  {
    var p := t.nodes[id].parent;
    p.NodeParent? ==> p.id in t.nodes && p.id < id
  }

  /** The children of `id` are distinct nodes whose parent is `id`. */
  predicate ChildrenOk(t: Tree, id: NodeId)
    requires id in t.nodes && id in t.children
  {
    var cs := t.children[id];
    && NoDup(cs)
    && forall c :: c in cs ==> c in t.nodes && t.nodes[c].parent == NodeParent(id)
  }

  /**
   * The structural invariant construction keeps: every node has a children
   * array, identities are below `nextId`, parents are older than their
   * children, children point back at their parent, and every registered ALCN
   * maps to a node that carries that ALCN.
   */
  predicate WellFormed(t: Tree) {
    && t.children.Keys == t.nodes.Keys
    && (forall id :: id in t.nodes ==> id < t.nextId)
    && (forall id {:trigger ParentOk(t, id)} :: id in t.nodes ==> ParentOk(t, id))
    && (forall id {:trigger ChildrenOk(t, id)} :: id in t.nodes ==> ChildrenOk(t, id))
    && (forall k :: k in t.nodeAccess ==> t.nodeAccess[k] in t.nodes && t.nodes[t.nodeAccess[k]].alcn == k)
  }

  /**
   * A tree after `Tree#initialize`: well formed, with the dummy root `dummy/`
   * registered under the empty ALCN, the only node whose parent is the tree
   * and the only node whose ALCN is empty.
   */
  predicate Valid(t: Tree) {
    && WellFormed(t)
    && t.dummyRoot in t.nodes
    && t.nodes[t.dummyRoot].parent == TreeParent
    && t.nodes[t.dummyRoot].path == "dummy/"
    && t.nodes[t.dummyRoot].alcn == ""
    && "" in t.nodeAccess && t.nodeAccess[""] == t.dummyRoot
    && (forall id :: id in t.nodes && t.nodes[id].parent == TreeParent ==> id == t.dummyRoot)
    && (forall id :: id in t.nodes && t.nodes[id].alcn == "" ==> id == t.dummyRoot)
  }

  /** A tree satisfying the invariant `Tree#initialize` establishes and every operation keeps. */
  type ValidTree = t: Tree | Valid(t)
    witness Tree(
      map[0 := NodeRec(TreeParent, "dummy/", "dummy/", Nil, "dummy/", "", "", map[], true, true)],
      map[0 := []], map["" := 0], map[], 0, 1)

  /**
   * `u` arises from `t` by removing children only: the same node records and
   * identities, and children arrays that can only lose elements.
   */
  predicate OnlyChildrenShrink(t: Tree, u: Tree) {
    && u.nodes == t.nodes
    && u.children.Keys == t.children.Keys
    && u.nextId == t.nextId
    && u.dummyRoot == t.dummyRoot
    && forall id {:trigger Shrunk(t.children[id], u.children[id])} ::
         id in t.children ==> Shrunk(t.children[id], u.children[id])
  }

  /** No node of `t` loses its dirty flag in `u` (node.rb:42-43: never reset once set). */
  predicate DirtyKept(t: Tree, u: Tree) {
    forall id :: id in t.nodes ==> id in u.nodes && (t.nodes[id].dirty ==> u.nodes[id].dirty)
  }

  /**
   * Removing children and unregistering ALCNs other than the empty one keeps
   * the tree invariant.
   */
  lemma ShrinkKeepsValid(t: Tree, u: Tree)
    requires Valid(t) && OnlyChildrenShrink(t, u)
    requires forall y :: y in u.children ==> NoDup(u.children[y])
    requires forall k :: k in u.nodeAccess ==> k in t.nodeAccess && u.nodeAccess[k] == t.nodeAccess[k]
    requires "" in u.nodeAccess
    ensures Valid(u)
  {
    forall y | y in u.nodes
      ensures ChildrenOk(u, y) && ParentOk(u, y)
    {
      assert ChildrenOk(t, y) && ParentOk(t, y) && Shrunk(t.children[y], u.children[y]);
    }
  }

  lemma OnlyChildrenShrinkTransitive(t: Tree, u: Tree, v: Tree)
    requires OnlyChildrenShrink(t, u) && OnlyChildrenShrink(u, v)
    ensures OnlyChildrenShrink(t, v)
  {
    forall id | id in t.children
      ensures Shrunk(t.children[id], v.children[id])
    {
      assert Shrunk(t.children[id], u.children[id]) && Shrunk(u.children[id], v.children[id]);
    }
  }
}

=== FILE: trees.dfy ===
/**
 * `Webgen::Tree` (lib/webgen/tree.rb): creation with its dummy root, the
 * `root` query and `delete_node`, as state transformers that also return the
 * trace of `before_node_deleted` notifications and unlink steps.
 */
module Trees {
  import opened Wrappers
  import opened RubyValues
  import opened Paths
  import opened TreeState
  import opened Nodes

  /** `Tree.new` (tree.rb:18-22): empty maps, then the dummy root `dummy/` constructed under the tree. */
  function NewTree(lcnOf: LcnFunction): (t: Tree)
    ensures Valid(t)
    ensures t.nodeInfo == map[]
    ensures t.nodeAccess == map["" := t.dummyRoot]
    ensures t.nodes.Keys == {t.dummyRoot}
    ensures t.children[t.dummyRoot] == [] && t.nodes[t.dummyRoot].path == "dummy/"
  {
    var empty := Tree(map[], map[], map[], map[], 0, 0);
    Construct(empty, TreeParent, "dummy/", None, map[], lcnOf).value.0
  }

  /** `root` (tree.rb:25-27): the first child of the dummy root, `nil` before there is one. */
  function Root(t: ValidTree): (r: Option<NodeId>)
    ensures r.None? <==> t.children[t.dummyRoot] == []
    ensures r.Some? ==> r.value == t.children[t.dummyRoot][0]
    ensures r.Some? ==> r.value in t.nodes && t.nodes[r.value].parent == NodeParent(t.dummyRoot)
  {
    var cs := t.children[t.dummyRoot];
    assert ChildrenOk(t, t.dummyRoot);
    if cs == [] then None else Some(cs[0])
  }

  /** A new tree has no root; the first node constructed under the dummy root becomes the root. */
  lemma RootAfterFirstNode(lcnOf: LcnFunction, path: string, cn: Option<string>, metaInfo: RHash)
    ensures var t := NewTree(lcnOf);
      && Root(t) == None
      && (Construct(t, NodeParent(t.dummyRoot), path, cn, metaInfo, lcnOf).Ok? ==>
            var (u, id) := Construct(t, NodeParent(t.dummyRoot), path, cn, metaInfo, lcnOf).value;
            Valid(u) && Root(u) == Some(id))
  {
    var t := NewTree(lcnOf);
    if Construct(t, NodeParent(t.dummyRoot), path, cn, metaInfo, lcnOf).Ok? {
      ConstructKeepsValid(t, NodeParent(t.dummyRoot), path, cn, metaInfo, lcnOf);
    }
  }

  /** One observable step of a deletion. */
  datatype Event =
    | BeforeNodeDeleted(id: NodeId)  // the `before_node_deleted` message (tree.rb:36)
    | Unlinked(id: NodeId)           // the three removals of tree.rb:37-39

  /**
   * The part of a tree that `delete_node` changes: the children arrays and
   * the two ALCN maps. Node records, the dummy root and `nextId` stay those
   * of the tree the deletion started from.
   */
  datatype Live = Live(
    children: map<NodeId, seq<NodeId>>,
    nodeAccess: map<string, NodeId>,
    nodeInfo: map<string, Value>)

  /**
   * `s` can arise from `t` by deleting children: every node still has a
   * children array, without repetitions, holding only children it had in `t`.
   */
  predicate LiveIn(t: Tree, s: Live) {
    && s.children.Keys == t.children.Keys
    && forall id {:trigger Shrunk(t.children[id], s.children[id])} :: id in t.children ==>
         Shrunk(t.children[id], s.children[id]) && NoDup(s.children[id])
  }

  /** The live part of `t` before any deletion. */
  function Start(t: ValidTree): (s: Live)
    ensures LiveIn(t, s)
  {
    forall id | id in t.children
      ensures Shrunk(t.children[id], t.children[id]) && NoDup(t.children[id])
    {
      assert ChildrenOk(t, id);
    }
    Live(t.children, t.nodeAccess, t.nodeInfo)
  }

  /** The tree `t` with its live part replaced by `s`. */
  function Apply(t: Tree, s: Live): Tree {
    Tree(t.nodes, s.children, s.nodeAccess, s.nodeInfo, t.dummyRoot, t.nextId)
  }

  /**
   * tree.rb:37-39: removes `n` from its parent's children (`Array#delete`)
   * and its ALCN from `node_access` and `node_info` (`Hash#delete`).
   */
  function Unlink(t: ValidTree, s: Live, n: NodeId): (u: Live)
    requires n in t.nodes && n != t.dummyRoot && LiveIn(t, s)
    ensures LiveIn(t, u)
    ensures u.nodeAccess == s.nodeAccess - {t.nodes[n].alcn}
    ensures u.nodeInfo == s.nodeInfo - {t.nodes[n].alcn}
    ensures forall y :: y in s.children ==> u.children[y] == Without(s.children[y], {n})
  {
    assert ParentOk(t, n);
    var p := t.nodes[n].parent.id;
    var children := s.children[p := Without(s.children[p], {n})];
    forall y | y in s.children
      ensures children[y] == Without(s.children[y], {n})
      ensures Shrunk(t.children[y], children[y]) && NoDup(children[y])
    {
      assert ChildrenOk(t, y) && Shrunk(t.children[y], s.children[y]);
      if y != p {
        assert n !in s.children[y];
        WithoutAbsent(s.children[y], {n});
      }
    }
    Live(children, s.nodeAccess - {t.nodes[n].alcn}, s.nodeInfo - {t.nodes[n].alcn})
  }

  /** The ALCNs of the nodes `ids`. */
  function AlcnsOf(t: Tree, ids: set<NodeId>): set<string> {
    set x | x in ids && x in t.nodes :: t.nodes[x].alcn
  }

  /** An ALCN that none of the nodes `ids` carries is not among their ALCNs. */
  lemma NotAmongAlcns(t: Tree, ids: set<NodeId>, k: string)
    requires forall x :: x in ids && x in t.nodes ==> t.nodes[x].alcn != k
    ensures k !in AlcnsOf(t, ids)
  {
  }

  /**
   * The live part of `t` once the nodes `unlinked` are unlinked: each of
   * them missing from every children array (order kept) and, by its ALCN,
   * from `node_access` and `node_info`.
   */
  function View(t: ValidTree, unlinked: set<NodeId>): (s: Live)
    ensures LiveIn(t, s)
  {
    forall id | id in t.children
      ensures Shrunk(t.children[id], Without(t.children[id], unlinked))
      ensures NoDup(Without(t.children[id], unlinked))
    {
      assert ChildrenOk(t, id);
    }
    Live(map id | id in t.children :: Without(t.children[id], unlinked),
         t.nodeAccess - AlcnsOf(t, unlinked), t.nodeInfo - AlcnsOf(t, unlinked))
  }

  lemma MinusTwice<V>(m: map<string, V>, a: set<string>, b: set<string>)
    ensures m - a - b == m - (a + b)
  {
  }

  /** Before any deletion the live part is the view with nothing unlinked. */
  lemma StartIsView(t: ValidTree)
    ensures Start(t) == View(t, {})
  {
    var v := View(t, {}).children;
    assert v.Keys == t.children.Keys;
    forall y | y in v
      ensures v[y] == t.children[y]
    {
      WithoutAbsent(t.children[y], {});
    }
    assert AlcnsOf(t, {}) == {};
  }

  /**
   * Unlinking `n` (tree.rb:37-39) in a view gives the view with `n` unlinked
   * too: the removals from the three collections commute with the view.
   */
  lemma UnlinkView(t: ValidTree, unlinked: set<NodeId>, n: NodeId)
    requires n in t.nodes && n != t.dummyRoot
    ensures Unlink(t, View(t, unlinked), n) == View(t, unlinked + {n})
  {
    UnlinkViewChildren(t, unlinked, n);
    UnlinkViewMaps(t, unlinked, n);
  }

  /** One more unlinked node adds its ALCN to those removed. */
  lemma AlcnsOfPlusOne(t: Tree, unlinked: set<NodeId>, n: NodeId)
    requires n in t.nodes
    ensures AlcnsOf(t, unlinked + {n}) == AlcnsOf(t, unlinked) + {t.nodes[n].alcn}
  {
  }

  /** The two ALCN maps of `UnlinkView`. */
  lemma UnlinkViewMaps(t: ValidTree, unlinked: set<NodeId>, n: NodeId)
    requires n in t.nodes && n != t.dummyRoot
    ensures Unlink(t, View(t, unlinked), n).nodeAccess == View(t, unlinked + {n}).nodeAccess
    ensures Unlink(t, View(t, unlinked), n).nodeInfo == View(t, unlinked + {n}).nodeInfo
  {
    AlcnsOfPlusOne(t, unlinked, n);
    MinusTwice(t.nodeAccess, AlcnsOf(t, unlinked), {t.nodes[n].alcn});
    MinusTwice(t.nodeInfo, AlcnsOf(t, unlinked), {t.nodes[n].alcn});
  }

  /** The children arrays of `UnlinkView`. */
  lemma UnlinkViewChildren(t: ValidTree, unlinked: set<NodeId>, n: NodeId)
    requires n in t.nodes && n != t.dummyRoot
    ensures Unlink(t, View(t, unlinked), n).children == View(t, unlinked + {n}).children
  {
    var u := Unlink(t, View(t, unlinked), n).children;
    var v := View(t, unlinked + {n}).children;
    assert u.Keys == v.Keys;
    forall y | y in u
      ensures u[y] == v[y]
    {
      UnlinkViewChild(t, unlinked, n, y);
    }
  }

  /** The children array of one node `y` in `UnlinkView`. */
  lemma UnlinkViewChild(t: ValidTree, unlinked: set<NodeId>, n: NodeId, y: NodeId)
    requires n in t.nodes && n != t.dummyRoot && y in t.children
    ensures Unlink(t, View(t, unlinked), n).children[y] == View(t, unlinked + {n}).children[y]
  {
    WithoutWithout(t.children[y], unlinked, {n});
  }

  /** Every `Unlinked` step of `trace` names a node of `t` other than the dummy root. */
  predicate UnlinksRealNodes(t: Tree, trace: seq<Event>) {
    forall i :: 0 <= i < |trace| && trace[i].Unlinked? ==> trace[i].id in t.nodes && trace[i].id != t.dummyRoot
  }

  /** One step of a deletion carried out on `s`: the removals of tree.rb:37-39, or nothing for a notification. */
  function Step(t: ValidTree, s: Live, e: Event): (u: Live)
    requires LiveIn(t, s)
    requires e.Unlinked? ==> e.id in t.nodes && e.id != t.dummyRoot
    ensures LiveIn(t, u)
  {
    if e.Unlinked? then Unlink(t, s, e.id) else s
  }

  /** The live part after the steps of `trace` are carried out in order on `s`. */
  function Replay(t: ValidTree, s: Live, trace: seq<Event>): (u: Live)
    requires LiveIn(t, s) && UnlinksRealNodes(t, trace)
    ensures LiveIn(t, u)
    decreases |trace|
  {
    if trace == [] then s
    else
      assert forall i :: 0 <= i < |trace| - 1 ==> trace[1..][i] == trace[i + 1];
      Replay(t, Step(t, s, trace[0]), trace[1..])
  }

  /** The guard of tree.rb:32: the dummy root, and a directory unless `delete_dir` is set. */
  predicate Skipped(t: Tree, n: NodeId, deleteDir: bool)
    requires n in t.nodes
  {
    n == t.dummyRoot || (IsDirectory(t.nodes[n].path) && !deleteDir)
  }

  /**
   * A deletion in progress or done: the nodes unlinked so far (which fix the
   * live part, `View(t, unlinked)`) and the steps taken, in order.
   */
  datatype Deletion = Deletion(unlinked: set<NodeId>, trace: seq<Event>)

  /** `n.children` while the nodes `unlinked` are unlinked. */
  function LiveChildren(t: ValidTree, unlinked: set<NodeId>, n: NodeId): (cs: seq<NodeId>)
    requires n in t.nodes
    ensures n in t.children && Shrunk(t.children[n], cs)
  {
    Without(t.children[n], unlinked)
  }

  /**
   * `delete_node(n, delete_dir)` as written (tree.rb:30-40), with the nodes
   * `unlinked` already unlinked: the children are visited by `Array#each`
   * over the live `n.children`, which every deleted child shrinks, and each
   * child is deleted with `delete_dir = false`.
   */
  function DeleteNodeAsWritten(t: ValidTree, unlinked: set<NodeId>, n: NodeId, deleteDir: bool): (d: Deletion)
    requires n in t.nodes
    decreases t.nextId - n, 1, 0
  {
    if Skipped(t, n, deleteDir) then Deletion(unlinked, [])
    else
      var d := DeleteChildrenAsWritten(t, unlinked, n, 0);
      Deletion(d.unlinked + {n}, d.trace + [BeforeNodeDeleted(n), Unlinked(n)])
  }

  /** `n.children.each {|child| delete_node(child)}` from index `i` on, indexing the live array. */
  function DeleteChildrenAsWritten(t: ValidTree, unlinked: set<NodeId>, n: NodeId, i: nat): (d: Deletion)
    requires n in t.nodes
    decreases t.nextId - n, 0, |t.children[n]| - i
  {
    var cs := LiveChildren(t, unlinked, n);
    if i >= |cs| then Deletion(unlinked, [])
    else
      assert ChildrenOk(t, n) && ParentOk(t, cs[i]);
      var d1 := DeleteNodeAsWritten(t, unlinked, cs[i], false);
      var d2 := DeleteChildrenAsWritten(t, d1.unlinked, n, i + 1);
      Deletion(d2.unlinked, d1.trace + d2.trace)
  }

  /**
   * `delete_node(n, delete_dir)` with the children visited over a snapshot of
   * `n.children` taken before any of them is deleted, so that none is
   * skipped; otherwise as written.
   */
  function DeleteNode(t: ValidTree, unlinked: set<NodeId>, n: NodeId, deleteDir: bool): (d: Deletion)
    requires n in t.nodes
    decreases t.nextId - n, 1, 0
  {
    if Skipped(t, n, deleteDir) then Deletion(unlinked, [])
    else
      var d := DeleteEach(t, unlinked, LiveChildren(t, unlinked, n), n);
      Deletion(d.unlinked + {n}, d.trace + [BeforeNodeDeleted(n), Unlinked(n)])
  }

  /** Deletes the children `cs` of `n` one after the other, each with `delete_dir = false`. */
  function DeleteEach(t: ValidTree, unlinked: set<NodeId>, cs: seq<NodeId>, n: NodeId): (d: Deletion)
    requires n in t.nodes
    requires forall c :: c in cs ==> c in t.children[n]
    decreases t.nextId - n, 0, |cs|
  {
    if cs == [] then Deletion(unlinked, [])
    else
      assert ChildrenOk(t, n) && ParentOk(t, cs[0]);
      var d1 := DeleteNode(t, unlinked, cs[0], false);
      var d2 := DeleteEach(t, d1.unlinked, cs[1..], n);
      Deletion(d2.unlinked, d1.trace + d2.trace)
  }

  /** The tree after `delete_node(n, delete_dir)` as written. */
  function DeleteNodeTreeAsWritten(t: ValidTree, n: NodeId, deleteDir: bool): Tree
    requires n in t.nodes
  {
    Apply(t, View(t, DeleteNodeAsWritten(t, {}, n, deleteDir).unlinked))
  }

  /** The tree after `delete_node(n, delete_dir)` over a snapshot of the children. */
  function DeleteNodeTree(t: ValidTree, n: NodeId, deleteDir: bool): Tree
    requires n in t.nodes
  {
    Apply(t, View(t, DeleteNode(t, {}, n, deleteDir).unlinked))
  }
}

=== FILE: wrappers.dfy ===
/** Failure-carrying wrappers shared by the whole model. */
module Wrappers {

  /** An optional value; `None` plays the part of Ruby's `nil`. */
  datatype Option<+T> = None | Some(value: T) {

    /** The wrapped value, or `default` when there is none. */
    function GetOr(default: T): T {
      match this
      case Some(v) => v
      case None => default
    }
  }

  /** The outcome of an operation that may raise. */
  datatype Result<+T, +E> = Ok(value: T) | Err(error: E)
}
